=== FILE: README.md ===
# Petri-net runtime and language services, modelled in Dafny

The repository implements a small Petri-net language. A net has places with an
initial token count and a capacity, and transitions whose source and
destination edges carry weights. The language-server variant instead uses
named arcs between places and transitions. Around the grammar the repository
has the following parts, and this project models each of them:

- **The execution engines.**
  - `src/server/runtimeState.ts` is the engine behind the debugging server. It
    has steps, breakpoints and an available-steps cache (module
    `ServerEngine`).
  - `src/runtimeState.ts` caches each transition's triggerability flag and
    offers `trigger` and `canEvolve` (module `CachedEngine`).
  - `src/language-server/runtimeState.ts` fires the first "doable" transition
    over the arc grammar (module `ArcEngine`).
  - The place and token bookkeeping shared by the first two is in module
    `Marking`.
- **The steps and breakpoints** of the debugging protocol,
  `src/server/steps.ts` (module `Steps`).
- **The serialisation into model elements.** `src/server/modelElementBuilder.ts`
  turns the static net into model elements (module `Builder`) and does the same
  for the runtime state (module `StateBuilder`). It relies on AST locations,
  `src/server/locator.ts` (module `Locator`), and on an id registry (module
  `Registry`).
- **The two validators.** `src/petri-net-validator.ts` is module `Validator`,
  and `src/language-server/petri-net-validator.ts` is module `ArcValidator`.
  They share the duplicate-name check (module `NameGroups`) and the diagnostic
  shape (module `Diagnostics`).

The AST is in modules `Ast` and `ArcAst`. A place or transition is named by its
index in the net, and a cross-reference is `Unresolved` or `Resolved(index)`.

An operation that can throw after it has already changed state returns an
`Effect`: either `Returned(state, value)` or `Threw(state, error)`. This lets
the contracts say what such a call leaves behind when it fails. `Result` and
`Option` cover calls that either fail cleanly or succeed.

Every operation has a partner stated independently of its body:

- an enabledness rule (`Enabled`, `Bounded`);
- a decoder for the builders, with round-trip lemmas;
- a declarative `WellFormed` predicate for each validator, with "silent
  exactly when well-formed" lemmas;
- per-node report counts for the diagnostics.

Where the code departs from what it evidently intends (see "## Findings"), the
model gives both the behaviour as written and a corrected definition. The
breakpoint check and the serialisation of the runtime state keep the code as
written. The step execution of the debugging server is corrected, because as
written it never fires.

## Model

| member | source | states |
|---|---|---|
| Marking.FindPlaceState | src/server/runtimeState.ts:14-20 | a found place state belongs to the place asked for |
| Marking.FindFirst | src/runtimeState.ts:11-17 | the lookup returns the first matching place state, and nothing exactly when no state belongs to the place |
| Marking.FindAligned | src/server/runtimeState.ts:14-20 | on the engine's own place-state list, place `p` is found at index `p` exactly when it exists |
| Marking.Fresh | src/server/runtimeState.ts:199-202 | adding `n` tokens creates `max(n,0)` tokens, all tagged with the firing transition |
| Marking.AddTokens | src/server/runtimeState.ts:199-202 | the old tokens are kept as a prefix and `max(n,0)` tokens from the transition follow |
| Marking.RemoveTokens | src/server/runtimeState.ts:209-211 | removing `n` tokens drops the first `max(n,0)` tokens and keeps the remaining suffix in order, never going below zero |
| Marking.InitialPlaceStates | src/server/runtimeState.ts:47-61 | one place state per place, in order, holding `max(initialTokenNumber,0)` tokens with no source |
| Marking.ConsumeEffect | src/server/runtimeState.ts:72-79 | consuming along the source edges completes exactly when every edge resolves to a place state; each place then loses the summed weight of its edges |
| Marking.ProduceEffect | src/server/runtimeState.ts:81-88 | producing along the destination edges completes exactly when every edge resolves; each place gains the summed weight as tokens from the transition |
| Marking.CheckEdgesFirstBad | src/server/runtimeState.ts:241-261 | the edge check passes exactly when every edge is acceptable, and a failure names the first bad edge and its kind (dangling, stateless, too few tokens or too many) |
| Marking.FireEffect | src/server/runtimeState.ts:71-91 | firing a transition whose edges all resolve moves exactly the weighted tokens out of its sources and into its destinations |
| Marking.FiringKeepsCapacity | src/server/runtimeState.ts:241-261 | firing an enabled transition whose destinations are distinct places keeps every place within its capacity |
| CachedEngine.ComputeTriggerable | src/runtimeState.ts:149-183 | throws only "no place state"; a source edge with too few tokens clears the flag |
| CachedEngine.ComputeTriggerableRule | src/runtimeState.ts:149-183 | the recomputed flag equals the enabledness rule whenever the edges resolve, and it throws exactly when they do not |
| CachedEngine.Refresh | src/runtimeState.ts:96-100 | refreshing sets each flag from the enabledness rule; it throws only if some transition does not resolve, and earlier flags are untouched |
| CachedEngine.Init | src/runtimeState.ts:27-41 | the initial state has iteration 0, the initial marking and current flags; it fails only if some transition does not resolve |
| CachedEngine.CanEvolve | src/runtimeState.ts:53-63 | the engine can evolve exactly when fewer than 50 iterations have run and some cached flag is set |
| CachedEngine.AnyFlag | src/runtimeState.ts:53-63 | true exactly when some flag from the given index on is set |
| CachedEngine.Trigger | src/runtimeState.ts:68-94 | a successful trigger increments the iteration and moves the tokens; a refused or failed trigger leaves the iteration alone |
| CachedEngine.TriggerKeepsFlagsCurrent | src/runtimeState.ts:68-100 | after a successful trigger every cached flag again equals the enabledness rule on the new marking |
| CachedEngine.TriggerMovesTokens | src/runtimeState.ts:68-94 | each place loses its source weight and gains its destination weight |
| CachedEngine.TriggerNotAllOrNothing | src/runtimeState.ts:68-94 | a trigger that reports failure can already have removed tokens from a source place |
| CachedEngine.TriggerIgnoresFlag | src/runtimeState.ts:68-94 | trigger does not consult the cached flag: a transition that is not triggerable still fires and empties its source |
| ServerEngine.IsTriggerable | src/server/runtimeState.ts:241-261 | true exactly when the transition is enabled (sources hold enough tokens, destinations stay within capacity); errors are an unresolved reference or a missing place state |
| ServerEngine.TriggerTransition | src/server/runtimeState.ts:71-91 | returns exactly when every source and destination edge resolves and then increments the iteration; only the marking and the iteration change |
| ServerEngine.TriggerTransitionMovesTokens | src/server/runtimeState.ts:71-91 | each place loses its source weight and gains its destination weight |
| ServerEngine.TriggerableFiresWithinCapacity | src/server/runtimeState.ts:71-91 | a triggerable transition fires without throwing, and with distinct destination places it keeps the net within capacity |
| ServerEngine.RepeatedDestinationOverfills | src/server/runtimeState.ts:241-261 | a transition naming the same destination place twice is judged triggerable and yet overfills that place |
| ServerEngine.DoubleDestinationFires | src/server/runtimeState.ts:81-88 | both destination edges to the same place add their tokens |
| ServerEngine.Collect | src/server/runtimeState.ts:161-172 | fails exactly when some transition's triggerability check throws; keeps the earlier entries and adds fresh-id steps |
| ServerEngine.CollectCovers | src/server/runtimeState.ts:161-172 | every triggerable transition from the index on gets exactly one new step, and every new step stands for a triggerable transition |
| ServerEngine.ComputeAvailableSteps | src/server/runtimeState.ts:161-172 | the step cache holds one transition step per triggerable transition under fresh ids, and fails exactly when a check throws |
| ServerEngine.Init | src/server/runtimeState.ts:47-61 | iteration 0, the initial marking, one transition state per transition, no ongoing step, and the available steps of the initial marking |
| ServerEngine.EnterCompositeStep | src/server/runtimeState.ts:99-105 | an unknown id throws and changes nothing; otherwise the step becomes ongoing and the cache is recomputed over an unchanged marking |
| ServerEngine.ExecuteAtomicStepAsWritten | src/server/runtimeState.ts:114-123 | as written, every call throws with the state unchanged: an unknown step throws "undefined step", a composite one "must be atomic", and a transition step a type error, because its `execute` calls a `trigger` method this engine lacks |
| ServerEngine.ExecuteAtomicStep | src/server/runtimeState.ts:114-123 | the corrected step execution: an unknown or composite step throws unchanged; otherwise the step is completed, its transition fired, the iteration incremented, the ongoing step found from it and the cache recomputed |
| ServerEngine.CheckBreakpoint | src/server/runtimeState.ts:134-139 | an unknown step id is an error; otherwise the step's own breakpoint check decides, with `placeFull` as written |
| Steps.NewTransitionStep | src/server/steps.ts:85-88 | a fresh, not yet completed, parentless atomic step named and located like its transition |
| Steps.GetCompletedSteps | src/server/steps.ts:15-27 | the step (if completed) followed by the longest run of completed ancestors, nearest first |
| Steps.NotOwnAncestor | src/server/steps.ts:15-27 | a step never appears among its own ancestors, so the parent walk ends |
| Steps.FindOngoingStep | src/server/steps.ts:29-33 | the first step along the parent chain that is not completed, and none exactly when all are |
| Steps.GetContainedSteps | src/server/steps.ts:65-81 | an atomic step throws "must be composite"; a composite one returns its children |
| Steps.Execute | src/server/steps.ts:79-93 | a composite step throws "must be atomic"; a transition step triggers its transition and comes back completed |
| Steps.PlaceEmpty | src/server/steps.ts:97-108 | reports the first source edge whose place is the bound place and holds exactly the edge's weight |
| Steps.PlaceFull | src/server/steps.ts:110-121 | reports the first destination edge whose bound place would reach its capacity exactly |
| Steps.PlaceFullAsWritten | src/server/steps.ts:110-121 | the breakpoint as written skips the bound place and tests every other one: it reports exactly when some other destination place would reach its capacity, and the message names the first such destination |
| Steps.PlaceFullInverted | src/server/steps.ts:110-121 | binding the filling place reports nothing, and binding an unrelated place reports the filling one |
| Steps.TransitionTrigger | src/server/steps.ts:123-126 | reports exactly when the bound id is the transition's AST id |
| Steps.CheckBreakpoint | src/server/steps.ts:75-134 | a composite step throws; an unknown breakpoint kind throws; `placeEmpty` reports exactly when a source edge's bound place is empty; `placeFull`, as written, reports exactly when a destination edge whose place is not the bound one would fill its place; `transitionTrigger` reports exactly when the bound id is the step's transition |
| Locator.GetLocation | src/server/locator.ts:14-22 | no location exactly without a concrete syntax node; lines become one-based and the end column is one past the range's end |
| Locator.GetLocationInjective | src/server/locator.ts:14-22 | different ranges give different locations |
| Locator.LinesOrdered | src/server/locator.ts:14-22 | a well-ordered range gives a location whose start line is not after its end line |
| Registry.GetOrCreateAstId | src/server/modelElementBuilder.ts:14-37 | the key gets an id, and an already-known key keeps its id and leaves the registry unchanged |
| Registry.GetOrCreateRuntimeId | src/server/modelElementBuilder.ts:94-117 | the same for runtime objects; AST ids are untouched |
| Registry.AstIdsStableAndDistinct | src/server/modelElementBuilder.ts:14-37 | asking twice gives the same id, and two different AST objects get different ids |
| Registry.OwnerOfAst | src/server/modelElementBuilder.ts:86 | an AST id stored as a reference, such as an edge's place, resolves back to the AST object it was created for |
| Builder.GetLocation | src/server/modelElementBuilder.ts:168-177 | throws exactly without a concrete syntax node; otherwise the location's end column is the raw range end, one less than the locator's |
| Builder.FromEdge | src/server/modelElementBuilder.ts:80-92 | throws exactly when the edge's place reference is unresolved |
| Builder.FromPlace | src/server/modelElementBuilder.ts:39-52 | throws exactly when the place has no location |
| Builder.FromTransition | src/server/modelElementBuilder.ts:54-78 | throws exactly when an edge is unresolved or a location is missing, naming the first such failure |
| Builder.FromPetriNet | src/server/modelElementBuilder.ts:14-37 | throws exactly when the net is not serialisable |
| Builder.FromPetriNetKeeps | src/server/modelElementBuilder.ts:14-37 | building keeps the registry consistent and only extends it |
| Builder.FromPetriNetEncodes | src/server/modelElementBuilder.ts:14-92 | the element tree encodes the net: ids point at the right AST objects, and names, counts, weights and locations are carried over |
| Builder.FromPetriNetRoundTrip | src/server/modelElementBuilder.ts:14-92 | decoding the built element through the registry gives back the net |
| StateBuilder.FromTokens | src/server/modelElementBuilder.ts:152-166 | one element per token |
| StateBuilder.FromTransitionState | src/server/modelElementBuilder.ts:119-131 | the corrected builder reports the recomputed flag as a boolean, and throws only "no place state" |
| StateBuilder.FromTransitionStateAsWritten | src/server/modelElementBuilder.ts:119-131 | as written, the attribute is the result of a call that returns nothing, so always undefined |
| StateBuilder.AsWrittenLosesFlag | src/server/modelElementBuilder.ts:119-131 | the element built as written cannot be decoded back into a transition state |
| StateBuilder.FromTransitionStateReports | src/server/modelElementBuilder.ts:119-131 | the reported flag is the enabledness rule on the current marking |
| StateBuilder.FromPetriNetStateReturns | src/server/modelElementBuilder.ts:94-131 | building the state, as written or corrected, cannot throw when every transition resolves |
| StateBuilder.FromPetriNetStateMarking | src/server/modelElementBuilder.ts:94-166 | as written, decoding the built state gives back the marking, every token with its source in order; on a net with a transition the full state cannot be decoded, since no transition state carries a boolean flag |
| StateBuilder.FromPetriNetStateCorrectedEncodes | src/server/modelElementBuilder.ts:94-166 | with the corrected transition-state builder, the element tree encodes every place state, token and transition state under runtime ids that point at their AST owners |
| StateBuilder.FromPetriNetStateCorrectedRoundTrip | src/server/modelElementBuilder.ts:94-166 | with the corrected transition-state builder, decoding the built state gives back the place states and transition states |
| ArcAst.Lookup | src/language-server/runtimeState.ts:41-89 | a resolved reference is found at its index; anything else falls back to the first element, and there is nothing only in an empty list |
| ArcEngine.TokenSource | src/language-server/runtimeState.ts:202-206 | the tag is "initial state" without a transition, otherwise "From " followed by the transition's name |
| ArcEngine.AddTokens | src/language-server/runtimeState.ts:189-191 | appends `max(n,0)` tokens with the given tag |
| ArcEngine.RemoveTokens | src/language-server/runtimeState.ts:194-196 | drops the first `max(n,0)` tokens, keeping the rest in order |
| ArcEngine.Init | src/language-server/runtimeState.ts:12-24 | iteration 0, one place state per place holding its initial tokens, no transition doable |
| ArcEngine.DoableFromRule | src/language-server/runtimeState.ts:111-130 | on a net with places, a transition is doable exactly when some arc is incident to it, every incident place-to-transition arc's place holds at least the arc's weight, and every incident transition-to-place arc's place has room for the arc's weight within its capacity; the scan throws exactly when the net has no places and some arc is incident to the transition |
| ArcEngine.CanEvolve | src/language-server/runtimeState.ts:111-130 | sets each doable flag by the rule and answers whether any is set; it throws exactly when there are no places but there are transitions and arcs |
| ArcEngine.FirstDoable | src/language-server/runtimeState.ts:96-103 | the first doable transition, and none exactly when none is doable |
| ArcEngine.GetNextTriggerableTransition | src/language-server/runtimeState.ts:96-103 | after re-evaluating the flags, the first doable transition if any |
| ArcEngine.Fire | src/language-server/runtimeState.ts:141-151 | places that no matching arc touches are unchanged; a net without places throws on the first matching arc |
| ArcEngine.FireKeepsSuffix | src/language-server/runtimeState.ts:141-151 | each place's tokens are a suffix of its old tokens followed by the added ones |
| ArcEngine.Trigger | src/language-server/runtimeState.ts:137-156 | beyond the iteration bound nothing changes; otherwise the next transition is chosen, its arcs applied and the iteration incremented |
| ArcEngine.FireOnlyArcAt | src/language-server/runtimeState.ts:141-151 | after the arc loop, a place that exactly one matching arc reaches holds what that arc alone leaves: its old tokens without the arc's weight in oldest ones, or with that many tagged tokens appended |
| ArcEngine.TriggerMovesTokens | src/language-server/runtimeState.ts:137-156 | once a transition is chosen, the firing throws exactly when the net has no place and some arc matches the choice; when it completes, each place ends with a suffix of its old tokens followed by the tokens the chosen transition's arcs added, tagged with its name; a place no matching arc reaches keeps its tokens |
| ArcEngine.TriggerCountsTokens | src/language-server/runtimeState.ts:141-151 | a place that exactly one matching arc reaches loses that arc's weight in oldest tokens (all of them when fewer) for a place-to-transition arc, or gains that many tokens tagged with the transition's name for a transition-to-place arc |
| ArcEngine.NothingDoableMovesNothing | src/language-server/runtimeState.ts:137-156 | with transitions present and none doable, a trigger moves no tokens but still counts an iteration |
| ArcEngine.NoTransitionStillFires | src/language-server/runtimeState.ts:137-156 | on a net without transitions, the arcs still match the absent choice and move tokens |
| ArcEngine.TriggerStrict | src/language-server/runtimeState.ts:137-156 | the corrected trigger moves no tokens when no transition is chosen |
| Diagnostics.ReportedPositive | src/petri-net-validator.ts:29-79 | a node is reported exactly when some diagnostic is attached to it |
| NameGroups.GroupSize | src/petri-net-validator.ts:67-73 | a name's group has more than one member exactly when another symbol shares that name |
| NameGroups.KeysCover | src/petri-net-validator.ts:72 | the multimap's keys are exactly the names, each once |
| NameGroups.DuplicateReportCount | src/petri-net-validator.ts:65-79 | each symbol whose name clashes is reported exactly once, the others never |
| NameGroups.DuplicateErrorsReported | src/petri-net-validator.ts:65-79 | each clashing symbol's node gets exactly one duplicate error |
| NameGroups.DuplicateErrorsShape | src/petri-net-validator.ts:75 | every duplicate diagnostic is an error on the `name` property of a clashing symbol, naming its name |
| NameGroups.DuplicateErrorsEmpty | src/petri-net-validator.ts:65-79 | the duplicate-name check is silent exactly when all names differ |
| Validator.PlaceChecksSpec | src/petri-net-validator.ts:29-39 | each of the three place errors appears exactly when its condition holds, at most once; silent exactly when `0 <= initial <= capacity` |
| Validator.PlacesChecksEmpty | src/petri-net-validator.ts:29-39 | no place is reported exactly when every place holds between zero and its capacity |
| Validator.EdgeChecksReported | src/petri-net-validator.ts:47-56 | each edge with a negative weight gets exactly one error |
| Validator.WeightChecksReported | src/petri-net-validator.ts:46-57 | on a transition, exactly the negative-weight edges, sources and destinations, are reported, once each |
| Validator.WeightChecksShape | src/petri-net-validator.ts:49-54 | each weight diagnostic is the negative-weight error on `weight` |
| Validator.TransitionsChecksEmpty | src/petri-net-validator.ts:46-57 | no transition is reported exactly when all weights are non-negative |
| Validator.UniqueNameChecksReported | src/petri-net-validator.ts:65-79 | the net, each place and each transition get one duplicate error exactly when another of them shares its name; in particular the net is reported once exactly when a place or a transition carries the net's name |
| Validator.PlaceNamedLikeNet | src/petri-net-validator.ts:68 | a place named like the net is reported, and so is the net |
| Validator.ValidateEmpty | src/petri-net-validator.ts:8-17 | the validator is silent exactly on nets that are well formed |
| ArcValidator.PlaceChecksSpec | src/language-server/petri-net-validator.ts:30-39 | a place gets the capital-letter warning exactly when its non-empty name starts with a lower-case letter and the too-many-tokens error exactly when its initial tokens exceed its capacity, each at most once and on the place itself; silent exactly when neither holds |
| ArcValidator.PlacesChecksEmpty | src/language-server/petri-net-validator.ts:30-39 | no place is reported exactly when every place name starts with a capital and no place holds more initial tokens than its capacity |
| ArcValidator.TransitionsChecksReported | src/language-server/petri-net-validator.ts:46-53 | a transition gets one warning exactly when its non-empty name starts with a lower-case letter |
| ArcValidator.ArcsChecksReported | src/language-server/petri-net-validator.ts:60-67 | the same for arcs |
| ArcValidator.UniqueNameChecksReported | src/language-server/petri-net-validator.ts:75-89 | each place, transition and arc gets one duplicate error exactly when another of them shares its name |
| ArcValidator.UniqueNameChecksIgnoreNet | src/language-server/petri-net-validator.ts:78 | the net's own name takes no part: renaming the net changes nothing and the net is never reported |
| ArcValidator.OverfullIsPlaceErrors | src/language-server/petri-net-validator.ts:96-102 | the unregistered overfull check reports exactly the errors the registered place check already reports |
| ArcValidator.OverfullChecksReported | src/language-server/petri-net-validator.ts:96-102 | a place is reported exactly when it holds more tokens than its capacity |
| ArcValidator.TransitionsChecksEmpty | src/language-server/petri-net-validator.ts:46-53 | no transition warnings exactly when every transition name starts with a capital |
| ArcValidator.ArcsChecksEmpty | src/language-server/petri-net-validator.ts:60-67 | no arc warnings exactly when every arc name starts with a capital |
| ArcValidator.ValidateEmpty | src/language-server/petri-net-validator.ts:8-18 | the validator is silent exactly on nets whose names start with capitals, differ, and whose places are not overfull |
| ArcValidator.NegativeCountsAccepted | src/language-server/petri-net-validator.ts:30-39 | negative token counts and capacities are accepted |
| ArcValidator.LowerCasePlaceWarned | src/language-server/petri-net-validator.ts:30-35 | a place named "p" gets exactly the capital-letter warning |
| ArcValidator.AsciiUpper | src/language-server/petri-net-validator.ts:32-33 | the ASCII upper-casing used as the instance of the case test changes exactly the lower-case letters |

## Left out

- The debugging protocol's transport, `src/server/lrp-services.ts`, the
  servers and the command-line front ends are not part of this model. They are
  I/O around the core.
- The id registry's own implementation is not part of this model. `Registry`
  keeps two maps and a counter, and the counter stands for the random
  identifiers the server generates.
- Getters that hand out copies of internal arrays and maps are modelled as
  plain reads. Aliasing is not modelled.
- ArcValidator.StartsLowerCase takes the upper-casing function as a parameter.
  JavaScript's full Unicode `toUpperCase` over UTF-16 code units is not
  modelled, and only an ASCII instance (`AsciiUpper`) is given.
- The order in which the framework visits AST nodes is fixed as the net, then
  its places, then its transitions (then its arcs). Diagnostic counts per node
  do not depend on this order.
- `src/server/steps.ts` types its runtime as the engine of
  `src/runtimeState.ts`, so `Steps.Execute` fires through
  `CachedEngine.Trigger`.
- ServerEngine.ExecuteAtomicStep: the debugging server's engine builds its
  transition steps with itself as the runtime, and that engine has no
  `trigger` method, so as written every atomic step throws a type error
  (`ServerEngine.ExecuteAtomicStepAsWritten`). The corrected model substitutes
  the engine's own `triggerTransition` for the missing `trigger`.
- ServerEngine.TriggerTransition: the server engine's bound of 50 iterations is
  declared but never consulted, so the model does not consult it either.
- Error messages are modelled as error kinds, not as text. The only exception
  is the breakpoint and diagnostic messages, which are compared by text.
- A name that is undefined after a parse failure is modelled as the empty
  string. This is why the capital-letter checks skip it.
- The serialisation's call to `computeTriggerable` also updates the cached flag
  of the live engine. The model returns the element and does not write the
  flag back. On a state whose flags are current that write changes nothing
  (`StateBuilder.RecomputeKeepsFlag`).
- Token counts and weights are unbounded integers. JavaScript numbers beyond
  2^53 are not modelled.
- The registry's clearing of runtime ids after each mutating step belongs to
  the protocol service, which is not part of this model.
  `Registry.ClearRuntimeIds` is given for completeness and has no row.

## Findings

| source | as written | input that shows it | evidently intended | confidence | as-written member | corrected member |
|---|---|---|---|---|---|---|
| src/server/steps.ts:113 | the `placeFull` breakpoint skips the place whose id is bound (`===`) and tests every other destination | places P0 and P1, where only P0 is about to fill; binding P0 reports nothing, and binding P1 reports "Place P0 is about to be full." | test only the bound place (`!==`, as `placeEmpty` does at line 100) | not executed | Steps.PlaceFullAsWritten | Steps.PlaceFull |
| src/server/modelElementBuilder.ts:128 | `isTriggerable` is set to the result of `computeTriggerable()`, which returns nothing, so the attribute is always undefined | any transition state | report the recomputed triggerability flag | not executed | StateBuilder.FromTransitionStateAsWritten | StateBuilder.FromTransitionState |
| src/server/modelElementBuilder.ts:94-117 | `fromPetriNetState` builds its transition states with the builder above, so no serialised runtime state with a transition can be read back whole | any net with a transition | the state reads back with every flag | not executed | StateBuilder.FromPetriNetStateMarking | StateBuilder.FromPetriNetStateCorrectedRoundTrip |
| src/server/runtimeState.ts:166 | transition steps are built with the server's engine as their runtime, and `execute` (src/server/steps.ts:91) calls `trigger` on it, which that engine does not define | any available atomic transition step passed to `executeAtomicStep` | fire the step's transition through the engine's `triggerTransition` | not executed | ServerEngine.ExecuteAtomicStepAsWritten | ServerEngine.ExecuteAtomicStep |
| src/language-server/runtimeState.ts:137-151 | when no transition is doable the chosen transition is `null`, and the loose `==` lets a lookup that finds no transition (undefined) match it, so arcs fire | a net with one place holding one token, one place-to-transition arc and no transitions: the token is removed | move no tokens when no transition is chosen | not executed | ArcEngine.Trigger | ArcEngine.TriggerStrict |

Two further behaviours are stated as properties rather than corrected,
because nothing in the repository says they are unintended:

- `trigger` in `src/runtimeState.ts` is not all-or-nothing
  (`CachedEngine.TriggerNotAllOrNothing`).
- A transition that names one destination place twice passes the capacity
  check edge by edge and then overfills the place
  (`ServerEngine.RepeatedDestinationOverfills`).

The two location helpers also disagree. The locator adds one to the end column,
and the builder does not (`Builder.GetLocation`).

=== FILE: arc_ast.dfy ===
/** The abstract syntax of the arc-based language (the language-server
    grammar): a net lists places, transitions and named weighted arcs, each
    arc going from a place to a transition or from a transition to a place. */
module ArcAst {
  import opened Outcomes
  import opened Ast

  datatype ArcPlace = ArcPlace(name: string, maxCapacity: int, initialTokenNumber: int)

  datatype ArcTransition = ArcTransition(name: string)

  /** `ArcPtT` (place to transition) and `ArcTtP` (transition to place). */
  datatype Arc =
    | PtT(name: string, source: Ref, target: Ref, weight: int)
    | TtP(name: string, source: Ref, target: Ref, weight: int)
  {
    /** The reference to the arc's place end. */
    function PlaceEnd(): Ref {
      if PtT? then source else target
    }

    /** The reference to the arc's transition end. */
    function TransitionEnd(): Ref {
      if PtT? then target else source
    }
  }

  datatype ArcNet = ArcNet(name: string, places: seq<ArcPlace>, transitions: seq<ArcTransition>, arcs: seq<Arc>)

  /** `findPlaceFromReference` / `findTransitionFromReference`: the element
      the reference resolves to when it is in the list, otherwise the first
      element, which does not exist when the list is empty. */
  function Lookup(count: nat, r: Ref): (i: Option<nat>)
    ensures i.None? <==> count == 0
    ensures i.Some? ==> i.value < count
    ensures r.Resolved? && r.index < count ==> i == Some(r.index)
    ensures !(r.Resolved? && r.index < count) && count > 0 ==> i == Some(0)
  {
    if count == 0 then None
    else if r.Resolved? && r.index < count then Some(r.index)
    else Some(0)
  }
}

=== FILE: arc_engine.dfy ===
/** The older arc-based engine of src/language-server/runtimeState.ts. It
    recomputes a `doable` flag per transition from the arcs, fires the first
    doable transition, and stops firing once the iteration counter has passed
    the bound given at construction. Its lookups fall back to the first
    element of a list, so a dangling reference silently means "the first
    place" or "the first transition", and a lookup in an empty list yields
    `undefined`, on which the next method call throws a `TypeError`. */
module ArcEngine {
  import opened Outcomes
  import opened Ast
  import opened ArcAst

  /** A token remembers where it came from as a display string. */
  type TokenState = string

  datatype PlaceState = PlaceState(place: nat, tokens: seq<TokenState>)

  datatype TransitionState = TransitionState(transition: nat, doable: bool)

  datatype State = State(net: ArcNet, maxIterations: int, currentNumberIterations: int,
                         placesState: seq<PlaceState>, transitionsState: seq<TransitionState>)

  /** Place state `k` belongs to place `k`, and likewise for transitions. */
  ghost predicate Valid(st: State) {
    && |st.placesState| == |st.net.places|
    && (forall k :: 0 <= k < |st.placesState| ==> st.placesState[k].place == k)
    && |st.transitionsState| == |st.net.transitions|
    && (forall j :: 0 <= j < |st.transitionsState| ==> st.transitionsState[j].transition == j)
  }

  /** `TokenState`'s constructor: "From <name>" for a token produced by a
      transition, "initial state" for one without a source. */
  function TokenSource(net: ArcNet, source: Option<nat>): (tag: TokenState)
    requires source.Some? ==> source.value < |net.transitions|
    ensures source.None? <==> tag == "initial state"
    ensures source.Some? ==> |tag| >= 5 && tag[..5] == "From " && tag[5..] == net.transitions[source.value].name
  {
    if source.Some? then
      var t := "From " + net.transitions[source.value].name;
      assert t[0] == 'F' && "initial state"[0] == 'i';
      t
    else "initial state"
  }

  /** `n` copies of one token. */
  function Copies(tag: TokenState, n: nat): (r: seq<TokenState>)
    ensures |r| == n && forall i :: 0 <= i < n ==> r[i] == tag
  {
    seq(n, _ => tag)
  }

  /** `addTokens`: appends `n` tokens (none when `n` is not positive). */
  function AddTokens(s: PlaceState, n: int, tag: TokenState): (r: PlaceState)
    ensures r.place == s.place && r.tokens == s.tokens + Copies(tag, Max(n, 0))
  {
    s.(tokens := s.tokens + Copies(tag, Max(n, 0)))
  }

  /** `removeTokens`: `splice(0, n)` drops the `n` oldest tokens, all of them
      when fewer are held, none when `n` is not positive. */
  function RemoveTokens(s: PlaceState, n: int): (r: PlaceState)
    ensures r.place == s.place
    ensures |r.tokens| == Max(|s.tokens| - Max(n, 0), 0)
    ensures r.tokens == s.tokens[|s.tokens| - |r.tokens|..]
  {
    s.(tokens := s.tokens[Min(Max(n, 0), |s.tokens|)..])
  }

  /** The constructor: one place state per place holding its initial number
      of "initial state" tokens, one transition state per transition with
      the flag cleared, the counter at 0 and the caller's iteration bound. */
  function Init(net: ArcNet, maxIteration: int): (st: State)
    ensures Valid(st) && st.net == net && st.currentNumberIterations == 0 && st.maxIterations == maxIteration
    ensures forall k :: 0 <= k < |st.placesState| ==>
      st.placesState[k].tokens == Copies(TokenSource(net, None), Max(net.places[k].initialTokenNumber, 0))
    ensures forall j :: 0 <= j < |st.transitionsState| ==> !st.transitionsState[j].doable
  {
    State(net, maxIteration, 0,
          seq(|net.places|, k requires 0 <= k < |net.places| =>
            PlaceState(k, Copies(TokenSource(net, None), Max(net.places[k].initialTokenNumber, 0)))),
          seq(|net.transitions|, j requires 0 <= j < |net.transitions| => TransitionState(j, false)))
  }

  // ---------------------------------------------------------------------
  // The doable rule

  /** Arc `a` is incident to transition `j` when its transition end looks up
      to `j`. Looking a transition state up from the transition found is the
      identity on an aligned state, so only the first lookup matters. */
  predicate Incident(net: ArcNet, a: Arc, j: nat) {
    Lookup(|net.transitions|, a.TransitionEnd()) == Some(j)
  }

  /** An incident arc allows firing: a place-to-transition arc's place holds
      at least `weight` tokens, a transition-to-place arc's place has room
      for `weight` more. */
  ghost predicate ArcAllows(st: State, a: Arc)
    requires Valid(st) && |st.net.places| > 0
  {
    var p := Lookup(|st.net.places|, a.PlaceEnd()).value;
    if a.PtT? then |st.placesState[p].tokens| >= a.weight
    else st.net.places[p].maxCapacity >= |st.placesState[p].tokens| + a.weight
  }

  /** The rule the flag implements: at least one incident arc, and every
      incident arc allows firing. */
  ghost predicate DoableRule(st: State, j: nat)
    requires Valid(st) && |st.net.places| > 0
  {
    && (exists i :: 0 <= i < |st.net.arcs| && Incident(st.net, st.net.arcs[i], j))
    && (forall i :: 0 <= i < |st.net.arcs| && Incident(st.net, st.net.arcs[i], j) ==> ArcAllows(st, st.net.arcs[i]))
  }

  /** The inner loop of `canEvolve` for transition `j`, from arc `from` on,
      with `res` the flag so far: an incident arc that allows firing sets it,
      one that does not clears it and ends the loop. */
  function DoableFrom(st: State, j: nat, from: nat, res: bool): (r: Result<bool>)
    requires Valid(st) && j < |st.net.transitions| && from <= |st.net.arcs|
    ensures r.Err? ==> r.error == TypeError
    decreases |st.net.arcs| - from
  {
    if from == |st.net.arcs| then Ok(res)
    else
      var a := st.net.arcs[from];
      if !Incident(st.net, a, j) then DoableFrom(st, j, from + 1, res)
      else match Lookup(|st.net.places|, a.PlaceEnd())
        case None => Err(TypeError)
        case Some(p) =>
          var allows := if a.PtT? then |st.placesState[p].tokens| >= a.weight
                        else st.net.places[p].maxCapacity >= |st.placesState[p].tokens| + a.weight;
          if allows then DoableFrom(st, j, from + 1, true) else Ok(false)
  }

  /** The loop agrees with the rule, and throws exactly when there is no
      place to look tokens up in and some arc is incident to `j`. */
  lemma {:induction false} DoableFromRule(st: State, j: nat, from: nat, res: bool)
    requires Valid(st) && j < |st.net.transitions| && from <= |st.net.arcs|
    ensures DoableFrom(st, j, from, res).Err? <==>
      |st.net.places| == 0 && exists i :: from <= i < |st.net.arcs| && Incident(st.net, st.net.arcs[i], j)
    ensures |st.net.places| > 0 ==> DoableFrom(st, j, from, res) == Ok(
      && (res || exists i :: from <= i < |st.net.arcs| && Incident(st.net, st.net.arcs[i], j))
      && (forall i :: from <= i < |st.net.arcs| && Incident(st.net, st.net.arcs[i], j) ==> ArcAllows(st, st.net.arcs[i])))
    decreases |st.net.arcs| - from
  {
    if from < |st.net.arcs| {
      DoableFromRule(st, j, from + 1, res);
      DoableFromRule(st, j, from + 1, true);
    }
  }

  /** `canEvolve`: recomputes every transition's flag in order and answers
      whether some flag came out set. A throw part-way leaves the flags of
      the transitions already visited updated. */
  function Evolve(st: State, j: nat, acc: bool): (r: Effect<State, bool>)
    requires Valid(st) && j <= |st.transitionsState|
    ensures Valid(r.state) && r.state == st.(transitionsState := r.state.transitionsState)
    ensures forall k :: 0 <= k < j ==> r.state.transitionsState[k] == st.transitionsState[k]
    ensures r.Returned? ==> forall k :: j <= k < |st.transitionsState| ==>
      Ok(r.state.transitionsState[k].doable) == DoableFrom(st, k, 0, false)
    ensures r.Returned? ==> r.value == (acc || exists k :: j <= k < |st.transitionsState| && r.state.transitionsState[k].doable)
    ensures r.Threw? ==> r.error == TypeError
    ensures r.Threw? <==> exists k :: j <= k < |st.transitionsState| && DoableFrom(st, k, 0, false).Err?
    decreases |st.transitionsState| - j
  {
    if j == |st.transitionsState| then Returned(st, acc)
    else match DoableFrom(st, j, 0, false)
      case Err(e) =>
        assert j <= j < |st.transitionsState| && DoableFrom(st, j, 0, false).Err?;
        assert exists k :: j <= k < |st.transitionsState| && DoableFrom(st, k, 0, false).Err?;
        Threw(st, e)
      case Ok(d) =>
        var st' := st.(transitionsState := st.transitionsState[j := TransitionState(j, d)]);
        assert forall k :: 0 <= k < |st.transitionsState| ==> DoableFrom(st', k, 0, false) == DoableFrom(st, k, 0, false) by {
          forall k | 0 <= k < |st.transitionsState| ensures DoableFrom(st', k, 0, false) == DoableFrom(st, k, 0, false) {
            DoableIgnoresFlags(st, st', k, 0, false);
          }
        }
        var r := Evolve(st', j + 1, acc || d);
        assert r.Threw? ==> exists k :: j <= k < |st.transitionsState| && DoableFrom(st, k, 0, false).Err?;
        assert (exists k :: j <= k < |st.transitionsState| && DoableFrom(st, k, 0, false).Err?) ==> r.Threw? by {
          if k :| j <= k < |st.transitionsState| && DoableFrom(st, k, 0, false).Err? {
            assert k != j;
            assert DoableFrom(st', k, 0, false).Err?;
          }
        }
        r
  }

  /** The doable loop reads the marking, never the flags. */
  lemma {:induction false} DoableIgnoresFlags(st: State, st': State, j: nat, from: nat, res: bool)
    requires Valid(st) && Valid(st') && st' == st.(transitionsState := st'.transitionsState)
    requires j < |st.net.transitions| && from <= |st.net.arcs|
    ensures DoableFrom(st', j, from, res) == DoableFrom(st, j, from, res)
    decreases |st.net.arcs| - from
  {
    if from < |st.net.arcs| {
      DoableIgnoresFlags(st, st', j, from + 1, res);
      DoableIgnoresFlags(st, st', j, from + 1, true);
    }
  }

  function CanEvolve(st: State): (r: Effect<State, bool>)
    requires Valid(st)
    ensures Valid(r.state) && r.state == st.(transitionsState := r.state.transitionsState)
    ensures r.Returned? ==> (r.value <==> exists k :: 0 <= k < |st.transitionsState| && r.state.transitionsState[k].doable)
    ensures r.Returned? && |st.net.places| > 0 ==> forall k :: 0 <= k < |st.transitionsState| ==>
      (r.state.transitionsState[k].doable <==> DoableRule(st, k))
    ensures r.Threw? <==> |st.net.places| == 0 && |st.net.transitions| > 0 && |st.net.arcs| > 0
  {
    EvolveRule(st);
    Evolve(st, 0, false)
  }

  /** The flag loop applied to every transition, stated against the rule. */
  lemma EvolveRule(st: State)
    requires Valid(st)
    ensures forall k :: 0 <= k < |st.transitionsState| && |st.net.places| > 0 ==>
      DoableFrom(st, k, 0, false) == Ok(DoableRule(st, k))
    ensures (exists k :: 0 <= k < |st.transitionsState| && DoableFrom(st, k, 0, false).Err?) <==>
      |st.net.places| == 0 && |st.net.transitions| > 0 && |st.net.arcs| > 0
  {
    forall k | 0 <= k < |st.transitionsState| {
      DoableFromRule(st, k, 0, false);
    }
    if |st.net.places| == 0 && |st.net.transitions| > 0 && |st.net.arcs| > 0 {
      var a := st.net.arcs[0];
      var k := Lookup(|st.net.transitions|, a.TransitionEnd()).value;
      assert Incident(st.net, st.net.arcs[0], k);
      assert DoableFrom(st, k, 0, false).Err?;
    }
  }

  /** The first transition, in state order, whose flag is set. */
  function FirstDoable(ts: seq<TransitionState>, from: nat): (r: Option<nat>)
    requires from <= |ts|
    ensures r.Some? ==> from <= r.value < |ts| && ts[r.value].doable
    ensures r.Some? ==> forall k :: from <= k < r.value ==> !ts[k].doable
    ensures r.None? <==> forall k :: from <= k < |ts| ==> !ts[k].doable
    decreases |ts| - from
  {
    if from == |ts| then None
    else if ts[from].doable then Some(from)
    else FirstDoable(ts, from + 1)
  }

  /** `getNextTriggerableTransition`: the first doable transition after the
      flags are recomputed, or null when none is doable. */
  function GetNextTriggerableTransition(st: State): (r: Effect<State, Option<nat>>)
    requires Valid(st)
    ensures Valid(r.state) && r.state == CanEvolve(st).state && r.Threw? == CanEvolve(st).Threw?
    ensures r.Returned? && r.value.Some? ==>
      r.value.value < |st.net.transitions| && r.state.transitionsState[r.value.value].doable
      && forall k :: 0 <= k < r.value.value ==> !r.state.transitionsState[k].doable
    ensures r.Returned? && r.value.None? ==>
      forall k :: 0 <= k < |r.state.transitionsState| ==> !r.state.transitionsState[k].doable
  {
    match CanEvolve(st)
    case Threw(st1, e) => Threw(st1, e)
    case Returned(st1, can) =>
      if can then Returned(st1, FirstDoable(st1.transitionsState, 0)) else Returned(st1, None)
  }

  // ---------------------------------------------------------------------
  // Firing

  /** An arc takes part in firing the chosen transition (`None` standing for
      `null`) when its transition end looks up to it under loose equality: a
      lookup in an empty transition list yields `undefined`, which equals
      `null`. */
  predicate Matches(net: ArcNet, a: Arc, chosen: Option<nat>) {
    Lookup(|net.transitions|, a.TransitionEnd()) == chosen
  }

  /** Tokens the matching transition-to-place arcs add to place `k`. */
  function Added(net: ArcNet, arcs: seq<Arc>, chosen: Option<nat>, k: nat): nat {
    if arcs == [] then 0
    else
      (if arcs[0].TtP? && Matches(net, arcs[0], chosen) && Lookup(|net.places|, arcs[0].PlaceEnd()) == Some(k)
       then Max(arcs[0].weight, 0) else 0)
      + Added(net, arcs[1..], chosen, k)
  }

  /** No matching arc has its place end at place `k`. */
  ghost predicate Untouched(net: ArcNet, arcs: seq<Arc>, chosen: Option<nat>, k: nat) {
    forall i :: 0 <= i < |arcs| && Matches(net, arcs[i], chosen) ==> Lookup(|net.places|, arcs[i].PlaceEnd()) != Some(k)
  }

  ghost predicate IsSuffix<T>(a: seq<T>, b: seq<T>) {
    |a| <= |b| && a == b[|b| - |a|..]
  }

  /** One arc's own effect on the place it looks up to: a place-to-transition
      arc removes tokens, a transition-to-place arc adds tokens tagged `tag`. */
  function ApplyArc(ps: seq<PlaceState>, a: Arc, p: nat, tag: TokenState): (r: seq<PlaceState>)
    requires p < |ps|
    ensures |r| == |ps| && forall k :: 0 <= k < |ps| && k != p ==> r[k] == ps[k]
  {
    ps[p := if a.PtT? then RemoveTokens(ps[p], a.weight) else AddTokens(ps[p], a.weight, tag)]
  }

  /** The arc loop of `trigger`: every matching arc removes tokens from, or
      adds tokens to, the place its place end looks up to. */
  function Fire(net: ArcNet, ps: seq<PlaceState>, arcs: seq<Arc>, chosen: Option<nat>, tag: TokenState): (r: Effect<seq<PlaceState>, ()>)
    requires |ps| == |net.places|
    ensures |r.state| == |ps| && forall k :: 0 <= k < |ps| ==> r.state[k].place == ps[k].place
    ensures r.Threw? ==> r.error == TypeError
    ensures r.Threw? <==> |net.places| == 0 && exists i :: 0 <= i < |arcs| && Matches(net, arcs[i], chosen)
    ensures forall k :: 0 <= k < |ps| && Untouched(net, arcs, chosen, k) ==> r.state[k] == ps[k]
    decreases |arcs|
  {
    if arcs == [] then Returned(ps, ())
    else
      var a := arcs[0];
      if !Matches(net, a, chosen) then
        var r := Fire(net, ps, arcs[1..], chosen, tag);
        assert forall i :: 0 <= i < |arcs| - 1 ==> arcs[1..][i] == arcs[i + 1];
        r
      else match Lookup(|net.places|, a.PlaceEnd())
        case None => Threw(ps, TypeError)
        case Some(p) =>
          var r := Fire(net, ApplyArc(ps, a, p, tag), arcs[1..], chosen, tag);
          assert forall i :: 0 <= i < |arcs| - 1 ==> arcs[1..][i] == arcs[i + 1];
          r
  }

  lemma SuffixAppend<T>(a: seq<T>, b: seq<T>, c: seq<T>)
    requires IsSuffix(a, b)
    ensures IsSuffix(a + c, b + c)
  {
    assert (b + c)[|b + c| - |a + c|..] == b[|b| - |a|..] + c;
  }

  lemma SuffixTransitive<T>(a: seq<T>, b: seq<T>, c: seq<T>)
    requires IsSuffix(a, b) && IsSuffix(b, c)
    ensures IsSuffix(a, c)
  {
    assert c[|c| - |b|..][|b| - |a|..] == c[|c| - |a|..];
  }

  /** One arc's effect followed by the rest of the loop's, on one place. */
  lemma SuffixCompose(before: seq<TokenState>, mid: seq<TokenState>, after: seq<TokenState>, tag: TokenState, here: nat, rest: nat)
    requires IsSuffix(mid, before + Copies(tag, here))
    requires IsSuffix(after, mid + Copies(tag, rest))
    ensures IsSuffix(after, before + Copies(tag, here + rest))
  {
    SuffixAppend(mid, before + Copies(tag, here), Copies(tag, rest));
    assert before + Copies(tag, here) + Copies(tag, rest) == before + Copies(tag, here + rest);
    SuffixTransitive(after, mid + Copies(tag, rest), before + Copies(tag, here + rest));
  }

  /** A single arc's effect on place `k`: a removal leaves a suffix, an
      addition appends the arc's tokens, other places are untouched. */
  lemma ArcStepSuffix(ps: seq<PlaceState>, a: Arc, p: nat, tag: TokenState, k: nat)
    requires p < |ps| && k < |ps|
    ensures IsSuffix(ApplyArc(ps, a, p, tag)[k].tokens,
                     ps[k].tokens + Copies(tag, if a.TtP? && p == k then Max(a.weight, 0) else 0))
  {
    if k != p || a.PtT? {
      assert ps[k].tokens + Copies(tag, 0) == ps[k].tokens;
    }
  }

  /** After a completed arc loop place `k` holds a suffix of its old tokens
      followed by the tokens the matching arcs added to it. */
  lemma {:induction false} FireKeepsSuffixAt(net: ArcNet, ps: seq<PlaceState>, arcs: seq<Arc>, chosen: Option<nat>, tag: TokenState, k: nat)
    requires |ps| == |net.places| && Fire(net, ps, arcs, chosen, tag).Returned? && k < |ps|
    ensures IsSuffix(Fire(net, ps, arcs, chosen, tag).state[k].tokens, ps[k].tokens + Copies(tag, Added(net, arcs, chosen, k)))
    decreases |arcs|, 1
  {
    var r := Fire(net, ps, arcs, chosen, tag);
    if arcs == [] {
      assert ps[k].tokens + Copies(tag, 0) == ps[k].tokens;
      assert r.state[k].tokens == ps[k].tokens[0..];
    } else if !Matches(net, arcs[0], chosen) {
      assert r.state == Fire(net, ps, arcs[1..], chosen, tag).state;
      assert Added(net, arcs, chosen, k) == Added(net, arcs[1..], chosen, k);
      FireKeepsSuffixAt(net, ps, arcs[1..], chosen, tag, k);
    } else {
      FireMatchedSuffixAt(net, ps, arcs, chosen, tag, k);
    }
  }

  /** The tokens a list of arcs adds to place `k`: the first arc's share,
      when it matches and looks up to place `p`, then the rest's. */
  lemma AddedCons(net: ArcNet, arcs: seq<Arc>, chosen: Option<nat>, k: nat, p: nat)
    requires arcs != [] && Matches(net, arcs[0], chosen) && Lookup(|net.places|, arcs[0].PlaceEnd()) == Some(p)
    ensures Added(net, arcs, chosen, k) == (if arcs[0].TtP? && p == k then Max(arcs[0].weight, 0) else 0) + Added(net, arcs[1..], chosen, k)
  {
  }

  /** One arc's effect followed by a rest that adds `rest` tokens to place
      `k`: a suffix of what the arc left is a suffix of the old tokens plus
      everything added. */
  lemma ArcThenRestSuffix(ps: seq<PlaceState>, a: Arc, p: nat, tag: TokenState, k: nat, rest: nat, after: seq<TokenState>)
    requires p < |ps| && k < |ps|
    requires IsSuffix(after, ApplyArc(ps, a, p, tag)[k].tokens + Copies(tag, rest))
    ensures IsSuffix(after, ps[k].tokens + Copies(tag, (if a.TtP? && p == k then Max(a.weight, 0) else 0) + rest))
  {
    ArcStepSuffix(ps, a, p, tag, k);
    SuffixCompose(ps[k].tokens, ApplyArc(ps, a, p, tag)[k].tokens, after, tag,
                  if a.TtP? && p == k then Max(a.weight, 0) else 0, rest);
  }

  /** A completed loop whose first arc matches applies that arc, then the rest. */
  lemma FireMatchedUnfold(net: ArcNet, ps: seq<PlaceState>, arcs: seq<Arc>, chosen: Option<nat>, tag: TokenState)
    requires |ps| == |net.places| && Fire(net, ps, arcs, chosen, tag).Returned?
    requires arcs != [] && Matches(net, arcs[0], chosen)
    ensures Lookup(|net.places|, arcs[0].PlaceEnd()).Some?
    ensures var p := Lookup(|net.places|, arcs[0].PlaceEnd()).value;
      Fire(net, ps, arcs, chosen, tag) == Fire(net, ApplyArc(ps, arcs[0], p, tag), arcs[1..], chosen, tag)
  {
  }

  /** The step of `FireKeepsSuffixAt` for a first arc that matches. */
  lemma {:induction false} FireMatchedSuffixAt(net: ArcNet, ps: seq<PlaceState>, arcs: seq<Arc>, chosen: Option<nat>, tag: TokenState, k: nat)
    requires |ps| == |net.places| && Fire(net, ps, arcs, chosen, tag).Returned? && k < |ps|
    requires arcs != [] && Matches(net, arcs[0], chosen)
    ensures IsSuffix(Fire(net, ps, arcs, chosen, tag).state[k].tokens, ps[k].tokens + Copies(tag, Added(net, arcs, chosen, k)))
    decreases |arcs|, 0
  {
    FireMatchedUnfold(net, ps, arcs, chosen, tag);
    var p := Lookup(|net.places|, arcs[0].PlaceEnd()).value;
    var ps' := ApplyArc(ps, arcs[0], p, tag);
    var r := Fire(net, ps', arcs[1..], chosen, tag);
    FireKeepsSuffixAt(net, ps', arcs[1..], chosen, tag, k);
    ArcThenRestSuffix(ps, arcs[0], p, tag, k, Added(net, arcs[1..], chosen, k), r.state[k].tokens);
    AddedCons(net, arcs, chosen, k, p);
  }

  /** After a completed arc loop every place holds a suffix of its old tokens
      followed by the tokens the matching arcs added to it: removal only
      ever drops the oldest tokens, addition only ever appends. */
  lemma FireKeepsSuffix(net: ArcNet, ps: seq<PlaceState>, arcs: seq<Arc>, chosen: Option<nat>, tag: TokenState)
    requires |ps| == |net.places| && Fire(net, ps, arcs, chosen, tag).Returned?
    ensures forall k :: 0 <= k < |ps| ==>
      IsSuffix(Fire(net, ps, arcs, chosen, tag).state[k].tokens, ps[k].tokens + Copies(tag, Added(net, arcs, chosen, k)))
  {
    forall k | 0 <= k < |ps|
      ensures IsSuffix(Fire(net, ps, arcs, chosen, tag).state[k].tokens, ps[k].tokens + Copies(tag, Added(net, arcs, chosen, k)))
    {
      FireKeepsSuffixAt(net, ps, arcs, chosen, tag, k);
    }
  }

  /** Arc `i` is the only matching arc whose place end looks up to place `k`. */
  ghost predicate OnlyArcAt(net: ArcNet, arcs: seq<Arc>, chosen: Option<nat>, k: nat, i: nat) {
    && i < |arcs| && Matches(net, arcs[i], chosen) && Lookup(|net.places|, arcs[i].PlaceEnd()) == Some(k)
    && forall j :: 0 <= j < |arcs| && j != i && Matches(net, arcs[j], chosen) ==> Lookup(|net.places|, arcs[j].PlaceEnd()) != Some(k)
  }

  /** The tokens one arc leaves in its place: a place-to-transition arc of
      weight `w` drops the `w` oldest (all when fewer are held), a
      transition-to-place arc appends `w` tokens tagged `tag`. */
  function ArcLeaves(tokens: seq<TokenState>, a: Arc, tag: TokenState): seq<TokenState> {
    if a.PtT? then tokens[Min(Max(a.weight, 0), |tokens|)..] else tokens + Copies(tag, Max(a.weight, 0))
  }

  /** After a completed arc loop, a place that exactly one matching arc
      reaches holds what that arc alone leaves there. */
  lemma {:induction false} FireOnlyArcAt(net: ArcNet, ps: seq<PlaceState>, arcs: seq<Arc>, chosen: Option<nat>, tag: TokenState, k: nat, i: nat)
    requires |ps| == |net.places| && Fire(net, ps, arcs, chosen, tag).Returned? && k < |ps|
    requires OnlyArcAt(net, arcs, chosen, k, i)
    ensures Fire(net, ps, arcs, chosen, tag).state[k].tokens == ArcLeaves(ps[k].tokens, arcs[i], tag)
    decreases |arcs|
  {
    assert forall j :: 0 <= j < |arcs| - 1 ==> arcs[1..][j] == arcs[j + 1];
    var a := arcs[0];
    if i == 0 {
      var ps' := ApplyArc(ps, a, k, tag);
      assert Fire(net, ps, arcs, chosen, tag) == Fire(net, ps', arcs[1..], chosen, tag);
      assert Untouched(net, arcs[1..], chosen, k);
    } else if !Matches(net, a, chosen) {
      assert Fire(net, ps, arcs, chosen, tag) == Fire(net, ps, arcs[1..], chosen, tag);
      FireOnlyArcAt(net, ps, arcs[1..], chosen, tag, k, i - 1);
    } else {
      var p := Lookup(|net.places|, a.PlaceEnd()).value;
      var ps' := ApplyArc(ps, a, p, tag);
      assert p != k;
      assert Fire(net, ps, arcs, chosen, tag) == Fire(net, ps', arcs[1..], chosen, tag);
      FireOnlyArcAt(net, ps', arcs[1..], chosen, tag, k, i - 1);
    }
  }

  /** `trigger`: while the counter has not passed the bound, fires the next
      triggerable transition over the arcs in order and counts one
      iteration; past the bound it does nothing. */
  function Trigger(st: State): (r: Effect<State, ()>)
    requires Valid(st)
    ensures Valid(r.state) && r.state.net == st.net && r.state.maxIterations == st.maxIterations
    ensures st.currentNumberIterations > st.maxIterations ==> r == Returned(st, ())
    ensures r.Returned? && st.currentNumberIterations <= st.maxIterations ==>
      r.state.currentNumberIterations == st.currentNumberIterations + 1
    ensures r.Threw? ==> r.error == TypeError && r.state.currentNumberIterations == st.currentNumberIterations
  {
    if st.currentNumberIterations > st.maxIterations then Returned(st, ())
    else match GetNextTriggerableTransition(st)
      case Threw(st1, e) => Threw(st1, e)
      case Returned(st1, chosen) =>
        match Fire(st1.net, st1.placesState, st1.net.arcs, chosen, TokenSource(st1.net, chosen))
        case Threw(ps, e) => Threw(st1.(placesState := ps), e)
        case Returned(ps, _) =>
          Returned(st1.(placesState := ps, currentNumberIterations := st1.currentNumberIterations + 1), ())
  }

  /** `trigger` with the strict comparison its design intends: when no
      transition is doable nothing fires, whatever the net holds. */
  function TriggerStrict(st: State): (r: Effect<State, ()>)
    requires Valid(st)
    ensures Valid(r.state) && r.state.net == st.net && r.state.maxIterations == st.maxIterations
    ensures st.currentNumberIterations > st.maxIterations ==> r == Returned(st, ())
    ensures r.Returned? && st.currentNumberIterations <= st.maxIterations ==>
      r.state.currentNumberIterations == st.currentNumberIterations + 1
    ensures r.Threw? ==> r.error == TypeError && r.state.currentNumberIterations == st.currentNumberIterations
    ensures GetNextTriggerableTransition(st).Returned? && GetNextTriggerableTransition(st).value.None? ==>
      r.Returned? && r.state.placesState == st.placesState
  {
    if st.currentNumberIterations > st.maxIterations then Returned(st, ())
    else match GetNextTriggerableTransition(st)
      case Threw(st1, e) => Threw(st1, e)
      case Returned(st1, None) => Returned(st1.(currentNumberIterations := st1.currentNumberIterations + 1), ())
      case Returned(st1, chosen) =>
        match Fire(st1.net, st1.placesState, st1.net.arcs, chosen, TokenSource(st1.net, chosen))
        case Threw(ps, e) => Threw(st1.(placesState := ps), e)
        case Returned(ps, _) =>
          Returned(st1.(placesState := ps, currentNumberIterations := st1.currentNumberIterations + 1), ())
  }

  // ---------------------------------------------------------------------
  // Properties

  /** A firing within the bound, once the next transition is chosen: it
      throws exactly when the net has no place and some arc matches the
      choice; when it completes, every place holds a suffix of its old tokens
      followed by the tokens the matching arcs added, each tagged with the
      transition's name; places no matching arc reaches keep their tokens
      either way. */
  lemma TriggerMovesTokens(st: State)
    requires Valid(st) && st.currentNumberIterations <= st.maxIterations
    requires GetNextTriggerableTransition(st).Returned?
    ensures var chosen := GetNextTriggerableTransition(st).value;
      Trigger(st).Threw? <==> |st.net.places| == 0 && exists i :: 0 <= i < |st.net.arcs| && Matches(st.net, st.net.arcs[i], chosen)
    ensures var chosen := GetNextTriggerableTransition(st).value;
      Trigger(st).Returned? ==>
        forall k :: 0 <= k < |st.placesState| ==>
          IsSuffix(Trigger(st).state.placesState[k].tokens,
                   st.placesState[k].tokens + Copies(TokenSource(st.net, chosen), Added(st.net, st.net.arcs, chosen, k)))
    ensures var chosen := GetNextTriggerableTransition(st).value;
      forall k :: 0 <= k < |st.placesState| && Untouched(st.net, st.net.arcs, chosen, k) ==>
        Trigger(st).state.placesState[k] == st.placesState[k]
  {
    var g := GetNextTriggerableTransition(st);
    if Trigger(st).Returned? {
      FireKeepsSuffix(g.state.net, g.state.placesState, g.state.net.arcs, g.value, TokenSource(g.state.net, g.value));
    }
  }

  /** The token counts of a firing within the bound: it completes, since
      the net has a place, and a place that exactly one of the chosen
      transition's arcs reaches loses that arc's weight in
      oldest tokens (all it holds when fewer), or gains that many tokens
      tagged with the transition's name. */
  lemma TriggerCountsTokens(st: State, k: nat, i: nat)
    requires Valid(st) && st.currentNumberIterations <= st.maxIterations
    requires k < |st.placesState| && GetNextTriggerableTransition(st).Returned?
    requires OnlyArcAt(st.net, st.net.arcs, GetNextTriggerableTransition(st).value, k, i)
    ensures Trigger(st).Returned?
    ensures var chosen := GetNextTriggerableTransition(st).value;
      var w := Max(st.net.arcs[i].weight, 0);
      && (st.net.arcs[i].PtT? ==>
            Trigger(st).state.placesState[k].tokens == st.placesState[k].tokens[Min(w, |st.placesState[k].tokens|)..])
      && (st.net.arcs[i].TtP? ==>
            Trigger(st).state.placesState[k].tokens == st.placesState[k].tokens + Copies(TokenSource(st.net, chosen), w))
  {
    var g := GetNextTriggerableTransition(st);
    FireOnlyArcAt(g.state.net, g.state.placesState, g.state.net.arcs, g.value, TokenSource(g.state.net, g.value), k, i);
  }

  /** With at least one transition, a firing that finds none doable moves no
      token and only counts the iteration. */
  lemma NothingDoableMovesNothing(st: State)
    requires Valid(st) && st.currentNumberIterations <= st.maxIterations && |st.net.transitions| > 0
    requires GetNextTriggerableTransition(st) == Returned(GetNextTriggerableTransition(st).state, None)
    ensures Trigger(st).Returned?
    ensures Trigger(st).state.placesState == st.placesState
    ensures Trigger(st).state.currentNumberIterations == st.currentNumberIterations + 1
  {
    var g := GetNextTriggerableTransition(st);
    forall i | 0 <= i < |st.net.arcs| ensures !Matches(st.net, st.net.arcs[i], None) { }
    forall k | 0 <= k < |st.placesState| ensures Untouched(st.net, st.net.arcs, None, k) { }
  }

  /** The net of the loose-equality counterexample: one place holding one
      token, no transition, and an arc from the place to a transition that
      does not exist. */
  function NoTransitionNet(): (net: ArcNet)
    ensures |net.places| == 1 && |net.transitions| == 0 && |net.arcs| == 1
  {
    ArcNet("net", [ArcPlace("P", 5, 1)], [], [PtT("A", Resolved(0), Unresolved, 1)])
  }

  /** With no transition at all nothing is doable, yet the null transition
      equals the `undefined` every transition lookup yields, so every arc
      fires: the place loses its token. */
  lemma NoTransitionStillFires()
    ensures var st := Init(NoTransitionNet(), 50);
      && GetNextTriggerableTransition(st).Returned? && GetNextTriggerableTransition(st).value.None?
      && Trigger(st).Returned? && |st.placesState[0].tokens| == 1
      && Trigger(st).state.placesState[0].tokens == []
  {
    var net := NoTransitionNet();
    var st := Init(net, 50);
    assert |st.placesState| == 1 && |st.placesState[0].tokens| == 1;
    assert Matches(net, net.arcs[0], None);
    var g := GetNextTriggerableTransition(st);
    assert g.state.placesState == st.placesState;
    var f := Fire(net, st.placesState, net.arcs, None, TokenSource(net, None));
    assert net.arcs[1..] == [];
    assert f.state[0].tokens == [];
  }
}

=== FILE: arc_validator.dfy ===
/** The validator of the arc-based grammar: a capital-letter warning on
    every place, transition and arc name, a token check on every place, and
    a unique-name check over places, transitions and arcs (the net's own name
    is not among them). Unlike the edge-list validator it has no check on
    negative token counts, capacities or weights.

    Upper-casing is the host language's string operation; the model takes it
    as the parameter `upper`. */
module ArcValidator {
  import opened ArcAst
  import opened Diagnostics
  import opened NameGroups

  /** A non-empty name whose first character changes when upper-cased. An
      empty name is never warned about. */
  predicate StartsLowerCase(name: string, upper: string -> string)
  {
    |name| > 0 && upper(name[..1]) != name[..1]
  }

  function CapitalWarning(kind: string, n: Node): Diagnostic
  {
    Diagnostic(WarningLevel, kind + " name should start with a capital.", n, "name")
  }

  function TooManyTokens(p: ArcPlace, i: nat): Diagnostic
  {
    Diagnostic(ErrorLevel, "Too many tokens in this place: " + p.name, PlaceNode(i), "initialTokenNumber")
  }

  // ---------------------------------------------------------------------
  // Per-node checks
  // ---------------------------------------------------------------------

  /** The place check on place `i`: the name warning, then, independently
      of it, the token error. */
  function PlaceChecks(p: ArcPlace, i: nat, upper: string -> string): seq<Diagnostic>
  {
    (if StartsLowerCase(p.name, upper) then [CapitalWarning("Place", PlaceNode(i))] else [])
    + (if p.initialTokenNumber > p.maxCapacity then [TooManyTokens(p, i)] else [])
  }

  /** Each condition is reported exactly when it holds, at most once, on the
      place; the warning does not depend on the tokens nor the error on the
      name. */
  lemma PlaceChecksSpec(p: ArcPlace, i: nat, upper: string -> string)
    ensures forall d :: d in PlaceChecks(p, i, upper) ==> d.node == PlaceNode(i)
    ensures CapitalWarning("Place", PlaceNode(i)) in PlaceChecks(p, i, upper) <==> StartsLowerCase(p.name, upper)
    ensures TooManyTokens(p, i) in PlaceChecks(p, i, upper) <==> p.initialTokenNumber > p.maxCapacity
    ensures Distinct(PlaceChecks(p, i, upper))
    ensures PlaceChecks(p, i, upper) == [] <==> !StartsLowerCase(p.name, upper) && p.initialTokenNumber <= p.maxCapacity
  {
  }

  function TransitionChecks(t: ArcTransition, i: nat, upper: string -> string): seq<Diagnostic>
  {
    if StartsLowerCase(t.name, upper) then [CapitalWarning("Transition", TransitionNode(i))] else []
  }

  function ArcChecks(a: Arc, i: nat, upper: string -> string): seq<Diagnostic>
  {
    if StartsLowerCase(a.name, upper) then [CapitalWarning("Arc", ArcNode(i))] else []
  }

  function PlacesChecks(places: seq<ArcPlace>, from: nat, upper: string -> string): seq<Diagnostic>
    decreases |places| - from
  {
    if from >= |places| then []
    else PlaceChecks(places[from], from, upper) + PlacesChecks(places, from + 1, upper)
  }

  function TransitionsChecks(ts: seq<ArcTransition>, from: nat, upper: string -> string): seq<Diagnostic>
    decreases |ts| - from
  {
    if from >= |ts| then []
    else TransitionChecks(ts[from], from, upper) + TransitionsChecks(ts, from + 1, upper)
  }

  function ArcsChecks(arcs: seq<Arc>, from: nat, upper: string -> string): seq<Diagnostic>
    decreases |arcs| - from
  {
    if from >= |arcs| then []
    else ArcChecks(arcs[from], from, upper) + ArcsChecks(arcs, from + 1, upper)
  }

  /** Transition `i` is warned about exactly once when its name starts in
      lower case, and never otherwise. */
  lemma {:induction false} TransitionsChecksReported(ts: seq<ArcTransition>, from: nat, upper: string -> string, i: nat)
    ensures Reported(TransitionsChecks(ts, from, upper), TransitionNode(i))
         == if from <= i < |ts| && StartsLowerCase(ts[i].name, upper) then 1 else 0
    decreases |ts| - from
  {
    if from < |ts| {
      TransitionsChecksReported(ts, from + 1, upper, i);
      ReportedAppend(TransitionChecks(ts[from], from, upper), TransitionsChecks(ts, from + 1, upper), TransitionNode(i));
    }
  }

  /** Arc `i` is warned about exactly once when its name starts in lower
      case, and never otherwise. */
  lemma {:induction false} ArcsChecksReported(arcs: seq<Arc>, from: nat, upper: string -> string, i: nat)
    ensures Reported(ArcsChecks(arcs, from, upper), ArcNode(i))
         == if from <= i < |arcs| && StartsLowerCase(arcs[i].name, upper) then 1 else 0
    decreases |arcs| - from
  {
    if from < |arcs| {
      ArcsChecksReported(arcs, from + 1, upper, i);
      ReportedAppend(ArcChecks(arcs[from], from, upper), ArcsChecks(arcs, from + 1, upper), ArcNode(i));
    }
  }

  // ---------------------------------------------------------------------
  // Names
  // ---------------------------------------------------------------------

  /** Places, then transitions, then arcs; the net itself is not a symbol. */
  function Symbols(net: ArcNet): seq<Symbol>
  {
    seq(|net.places|, i requires 0 <= i < |net.places| => Symbol(net.places[i].name, PlaceNode(i)))
    + seq(|net.transitions|, i requires 0 <= i < |net.transitions| => Symbol(net.transitions[i].name, TransitionNode(i)))
    + seq(|net.arcs|, i requires 0 <= i < |net.arcs| => Symbol(net.arcs[i].name, ArcNode(i)))
  }

  function UniqueNameChecks(net: ArcNet): seq<Diagnostic>
  {
    DuplicateErrors(Symbols(net))
  }

  lemma SymbolsDistinctNodes(net: ArcNet)
    ensures DistinctNodes(Symbols(net))
  {
  }

  /** Every place, transition or arc whose name another of them shares gets
      exactly one duplicate error; the others none. */
  lemma UniqueNameChecksReported(net: ArcNet, j: nat)
    requires j < |Symbols(net)|
    ensures Reported(UniqueNameChecks(net), Symbols(net)[j].node) == if Clashes(Names(Symbols(net)), j) then 1 else 0
  {
    SymbolsDistinctNodes(net);
    DuplicateErrorsReported(Symbols(net), j);
  }

  /** The net's name takes no part: renaming the net changes nothing, and
      the net node is never reported. */
  lemma UniqueNameChecksIgnoreNet(net: ArcNet, name: string)
    ensures UniqueNameChecks(net.(name := name)) == UniqueNameChecks(net)
    ensures Reported(UniqueNameChecks(net), NetNode) == 0
  {
    assert Symbols(net.(name := name)) == Symbols(net);
    ReportedPositive(UniqueNameChecks(net), NetNode);
    if Reported(UniqueNameChecks(net), NetNode) > 0 {
      var d :| d in UniqueNameChecks(net) && d.node == NetNode;
      DuplicateErrorsShape(Symbols(net), d);
    }
  }

  // ---------------------------------------------------------------------
  // The unregistered net-level token check
  // ---------------------------------------------------------------------

  /** The net-level token check, defined but never registered: one error per
      over-full place from `from` on. */
  function OverfullChecks(places: seq<ArcPlace>, from: nat): seq<Diagnostic>
    decreases |places| - from
  {
    if from >= |places| then []
    else (if places[from].initialTokenNumber > places[from].maxCapacity then [TooManyTokens(places[from], from)] else [])
         + OverfullChecks(places, from + 1)
  }

  function ErrorsOnly(ds: seq<Diagnostic>): seq<Diagnostic>
  {
    if |ds| == 0 then []
    else (if ds[0].severity == ErrorLevel then [ds[0]] else []) + ErrorsOnly(ds[1..])
  }

  lemma {:induction false} ErrorsOnlyAppend(a: seq<Diagnostic>, b: seq<Diagnostic>)
    ensures ErrorsOnly(a + b) == ErrorsOnly(a) + ErrorsOnly(b)
  {
    if |a| == 0 {
      assert a + b == b;
    } else {
      var head := if a[0].severity == ErrorLevel then [a[0]] else [];
      assert (a + b)[0] == a[0] && (a + b)[1..] == a[1..] + b;
      assert ErrorsOnly(a + b) == head + ErrorsOnly(a[1..] + b);
      ErrorsOnlyAppend(a[1..], b);
      assert ErrorsOnly(a) == head + ErrorsOnly(a[1..]);
    }
  }

  /** The unregistered check reports exactly the errors the registered place
      check already reports, in the same order: registering it would report
      every over-full place twice. */
  lemma {:induction false} OverfullIsPlaceErrors(places: seq<ArcPlace>, from: nat, upper: string -> string)
    ensures OverfullChecks(places, from) == ErrorsOnly(PlacesChecks(places, from, upper))
    decreases |places| - from
  {
    if from < |places| {
      var p := places[from];
      var warning := if StartsLowerCase(p.name, upper) then [CapitalWarning("Place", PlaceNode(from))] else [];
      var error := if p.initialTokenNumber > p.maxCapacity then [TooManyTokens(p, from)] else [];
      OverfullIsPlaceErrors(places, from + 1, upper);
      ErrorsOnlyAppend(warning, error);
      ErrorsOnlyAppend(warning + error, PlacesChecks(places, from + 1, upper));
    }
  }

  /** Each over-full place gets exactly one error from the net-level check. */
  lemma {:induction false} OverfullChecksReported(places: seq<ArcPlace>, from: nat, i: nat)
    ensures Reported(OverfullChecks(places, from), PlaceNode(i))
         == if from <= i < |places| && places[i].initialTokenNumber > places[i].maxCapacity then 1 else 0
    decreases |places| - from
  {
    if from < |places| {
      var p := places[from];
      OverfullChecksReported(places, from + 1, i);
      ReportedAppend(if p.initialTokenNumber > p.maxCapacity then [TooManyTokens(p, from)] else [],
                     OverfullChecks(places, from + 1), PlaceNode(i));
    }
  }

  // ---------------------------------------------------------------------
  // The whole document
  // ---------------------------------------------------------------------

  /** All registered checks: the net's unique-name check, then each place,
      each transition and each arc. */
  function Validate(net: ArcNet, upper: string -> string): seq<Diagnostic>
  {
    UniqueNameChecks(net)
    + PlacesChecks(net.places, 0, upper)
    + TransitionsChecks(net.transitions, 0, upper)
    + ArcsChecks(net.arcs, 0, upper)
  }

  predicate WellFormed(net: ArcNet, upper: string -> string)
  {
    (forall i :: 0 <= i < |net.places| ==>
       !StartsLowerCase(net.places[i].name, upper) && net.places[i].initialTokenNumber <= net.places[i].maxCapacity)
    && (forall i :: 0 <= i < |net.transitions| ==> !StartsLowerCase(net.transitions[i].name, upper))
    && (forall i :: 0 <= i < |net.arcs| ==> !StartsLowerCase(net.arcs[i].name, upper))
    && Distinct(Names(Symbols(net)))
  }

  lemma {:induction false} PlacesChecksEmpty(places: seq<ArcPlace>, from: nat, upper: string -> string)
    ensures PlacesChecks(places, from, upper) == []
        <==> forall i :: from <= i < |places| ==>
               !StartsLowerCase(places[i].name, upper) && places[i].initialTokenNumber <= places[i].maxCapacity
    decreases |places| - from
  {
    if from < |places| {
      assert PlacesChecks(places, from, upper) == PlaceChecks(places[from], from, upper) + PlacesChecks(places, from + 1, upper);
      PlacesChecksEmpty(places, from + 1, upper);
    }
  }

  lemma {:induction false} TransitionsChecksEmpty(ts: seq<ArcTransition>, from: nat, upper: string -> string)
    ensures TransitionsChecks(ts, from, upper) == [] <==> forall i :: from <= i < |ts| ==> !StartsLowerCase(ts[i].name, upper)
    decreases |ts| - from
  {
    if from < |ts| {
      assert TransitionsChecks(ts, from, upper) == TransitionChecks(ts[from], from, upper) + TransitionsChecks(ts, from + 1, upper);
      TransitionsChecksEmpty(ts, from + 1, upper);
    }
  }

  lemma {:induction false} ArcsChecksEmpty(arcs: seq<Arc>, from: nat, upper: string -> string)
    ensures ArcsChecks(arcs, from, upper) == [] <==> forall i :: from <= i < |arcs| ==> !StartsLowerCase(arcs[i].name, upper)
    decreases |arcs| - from
  {
    if from < |arcs| {
      assert ArcsChecks(arcs, from, upper) == ArcChecks(arcs[from], from, upper) + ArcsChecks(arcs, from + 1, upper);
      ArcsChecksEmpty(arcs, from + 1, upper);
    }
  }

  /** The validator is silent exactly on well-formed nets. */
  lemma ValidateEmpty(net: ArcNet, upper: string -> string)
    ensures Validate(net, upper) == [] <==> WellFormed(net, upper)
  {
    DuplicateErrorsEmpty(Symbols(net));
    PlacesChecksEmpty(net.places, 0, upper);
    TransitionsChecksEmpty(net.transitions, 0, upper);
    ArcsChecksEmpty(net.arcs, 0, upper);
  }

  // ---------------------------------------------------------------------
  // With ASCII upper-casing
  // ---------------------------------------------------------------------

  /** Upper-casing restricted to ASCII letters. */
  function AsciiUpper(s: string): (r: string)
    ensures |r| == |s|
    ensures forall k :: 0 <= k < |s| && !('a' <= s[k] <= 'z') ==> r[k] == s[k]
    ensures forall k :: 0 <= k < |s| && 'a' <= s[k] <= 'z' ==> 'A' <= r[k] <= 'Z'
  {
    seq(|s|, k requires 0 <= k < |s| => if 'a' <= s[k] <= 'z' then (s[k] as int - 32) as char else s[k])
  }

  /** Negative token counts and capacities pass this validator unnoticed,
      as long as the count does not exceed the capacity. */
  lemma NegativeCountsAccepted()
    ensures Validate(ArcNet("net", [ArcPlace("P", -1, -3)], [], []), AsciiUpper) == []
  {
    var net := ArcNet("net", [ArcPlace("P", -1, -3)], [], []);
    assert AsciiUpper("P") == "P";
    ValidateEmpty(net, AsciiUpper);
  }

  /** A lower-case place name draws the warning. */
  lemma LowerCasePlaceWarned()
    ensures PlaceChecks(ArcPlace("p", 1, 0), 0, AsciiUpper) == [CapitalWarning("Place", PlaceNode(0))]
  {
    assert AsciiUpper("p")[0] == 'P';
  }
}

=== FILE: ast.dfy ===
/** The static model produced by the parser of the current grammar:
    a net of places and transitions, each transition holding ordered lists of
    weighted source and destination edges. Objects are identified by their
    position in the net: place `i` is `net.places[i]`. */
module Ast {
  import opened Outcomes

  /** 0-based position in the source text, as the concrete syntax tree has it. */
  datatype Position = Position(line: nat, character: nat)

  /** Source span of a concrete syntax node. */
  datatype Range = Range(start: Position, end: Position)

  /** A cross reference: unresolved, or resolved to the element at `index`
      of the list it refers into. A resolved index outside the net's place
      list is a place the runtime has no state for. */
  datatype Ref = Unresolved | Resolved(index: nat)

  datatype Edge = Edge(place: Ref, weight: int)

  /** `cst` is the concrete syntax node the parser attached, if any. */
  datatype Place = Place(name: string, maxCapacity: int, initialTokenNumber: int, cst: Option<Range>)

  datatype Transition = Transition(name: string, sources: seq<Edge>, destinations: seq<Edge>, cst: Option<Range>)

  datatype PetriNet = PetriNet(name: string, places: seq<Place>, transitions: seq<Transition>)
}

=== FILE: builder.dfy ===
/** `ModelElementBuilder` (src/server/modelElementBuilder.ts): turns the
    static model and the runtime state into the generic tree of model
    elements the protocol exchanges. Every element carries the registry id
    of the object it stands for, so each builder threads the registry and
    hands back the one it leaves behind, also when it throws. */
module Builder {
  import opened Outcomes
  import opened Ast
  import Marking
  import Registry
  import Locator
  import CachedEngine

  /** An attribute value; `Undefined` is what a `void` call yields. */
  datatype Scalar = Str(text: string) | Num(number: int) | Bool(flag: bool) | Undefined

  datatype ModelElement = ModelElement(id: Registry.Id, elementType: string,
                                       children: map<string, seq<ModelElement>>,
                                       refs: map<string, Registry.Id>,
                                       attributes: map<string, Scalar>,
                                       location: Option<Locator.Location>)

  // ---------------------------------------------------------------------
  // Locations

  /** A location the builder can produce: 1-based lines, 0-based columns. */
  predicate WellFormed(loc: Locator.Location) {
    loc.line >= 1 && loc.endLine >= 1 && loc.column >= 0 && loc.endColumn >= 0
  }

  /** The range a builder location was computed from. */
  function RangeOf(loc: Locator.Location): Range
    requires WellFormed(loc)
  {
    Range(Position(loc.line - 1, loc.column), Position(loc.endLine - 1, loc.endColumn))
  }

  /** The builder's own `getLocation`: throws 'Location expected.' for a node
      without a CST node; otherwise 1-based lines and the raw columns. Its end
      column is one less than the one `AstNodeLocator.getLocation` reports
      for the same node. */
  function GetLocation(cst: Option<Range>): (r: Result<Locator.Location>)
    ensures r.Err? <==> cst.None?
    ensures r.Err? ==> r.error == LocationExpected
    ensures r.Ok? ==> WellFormed(r.value) && RangeOf(r.value) == cst.value
    ensures r.Ok? ==> Locator.GetLocation(cst) == Some(r.value.(endColumn := r.value.endColumn + 1))
  {
    match cst
    case None => Err(LocationExpected)
    case Some(range) =>
      Ok(Locator.Location(range.start.line + 1, range.start.character, range.end.line + 1, range.end.character))
  }

  // ---------------------------------------------------------------------
  // What a built element says about the object it stands for

  ghost predicate HasAstId(reg: Registry.Registry, e: ModelElement, k: Registry.AstKey) {
    k in reg.ast && e.id == reg.ast[k]
  }

  ghost predicate EncodesEdge(reg: Registry.Registry, e: ModelElement, t: nat, isDestination: bool, i: nat, edge: Edge) {
    && HasAstId(reg, e, Registry.EdgeNode(t, isDestination, i))
    && e.elementType == "Edge" && e.children == map[] && e.location.None?
    && edge.place.Resolved? && Registry.PlaceNode(edge.place.index) in reg.ast
    && e.refs == map["place" := reg.ast[Registry.PlaceNode(edge.place.index)]]
    && e.attributes == map["weight" := Num(edge.weight)]
  }

  lemma EncodesEdgeLift(r1: Registry.Registry, r2: Registry.Registry, e: ModelElement, t: nat, isDestination: bool, i: nat, edge: Edge)
    requires Registry.Extends(r1, r2) && EncodesEdge(r1, e, t, isDestination, i, edge)
    ensures EncodesEdge(r2, e, t, isDestination, i, edge)
  {
  }

  lemma EncodesEdgesCons(reg: Registry.Registry, head: ModelElement, tail: seq<ModelElement>, t: nat, isDestination: bool, edges: seq<Edge>, from: nat)
    requires from < |edges| && |tail| == |edges| - from - 1
    requires EncodesEdge(reg, head, t, isDestination, from, edges[from])
    requires EncodesEdgesFrom(reg, tail, t, isDestination, edges, from + 1)
    ensures EncodesEdgesFrom(reg, [head] + tail, t, isDestination, edges, from)
  {
    forall i | 0 <= i < |tail| + 1
      ensures EncodesEdge(reg, ([head] + tail)[i], t, isDestination, from + i, edges[from + i])
    {
      if i > 0 {
        assert ([head] + tail)[i] == tail[i - 1];
      }
    }
  }

  /** Position `i` of the element list encodes edge `from + i`, for every
      edge from `from` on. */
  ghost predicate EncodesEdgesFrom(reg: Registry.Registry, es: seq<ModelElement>, t: nat, isDestination: bool, edges: seq<Edge>, from: nat) {
    |es| + from == |edges| && forall i :: 0 <= i < |es| ==> EncodesEdge(reg, es[i], t, isDestination, from + i, edges[from + i])
  }

  ghost predicate EncodesEdges(reg: Registry.Registry, es: seq<ModelElement>, t: nat, isDestination: bool, edges: seq<Edge>) {
    EncodesEdgesFrom(reg, es, t, isDestination, edges, 0)
  }

  ghost predicate EncodesPlace(reg: Registry.Registry, e: ModelElement, i: nat, p: Place) {
    && HasAstId(reg, e, Registry.PlaceNode(i))
    && e.elementType == "Place" && e.children == map[] && e.refs == map[]
    && e.attributes == map["placeName" := Str(p.name), "placeCapacity" := Num(p.maxCapacity),
                           "placeInitTokenNumber" := Num(p.initialTokenNumber)]
    && e.location.Some? && GetLocation(p.cst) == Ok(e.location.value)
  }

  ghost predicate EncodesTransition(reg: Registry.Registry, e: ModelElement, t: nat, tr: Transition) {
    && HasAstId(reg, e, Registry.TransitionNode(t))
    && e.elementType == "Transition" && e.refs == map[]
    && e.attributes == map["transitionName" := Str(tr.name)]
    && e.location.Some? && GetLocation(tr.cst) == Ok(e.location.value)
    && "sources" in e.children && EncodesEdges(reg, e.children["sources"], t, false, tr.sources)
    && "destinations" in e.children && EncodesEdges(reg, e.children["destinations"], t, true, tr.destinations)
  }

  ghost predicate EncodesPlacesFrom(reg: Registry.Registry, es: seq<ModelElement>, net: PetriNet, from: nat) {
    |es| + from == |net.places| && forall i :: 0 <= i < |es| ==> EncodesPlace(reg, es[i], from + i, net.places[from + i])
  }

  ghost predicate EncodesTransitionsFrom(reg: Registry.Registry, es: seq<ModelElement>, net: PetriNet, from: nat) {
    |es| + from == |net.transitions| && forall t :: 0 <= t < |es| ==> EncodesTransition(reg, es[t], from + t, net.transitions[from + t])
  }

  ghost predicate EncodesNet(reg: Registry.Registry, e: ModelElement, net: PetriNet) {
    && HasAstId(reg, e, Registry.NetNode)
    && e.elementType == "PetriNet" && e.refs == map[] && e.location.None?
    && e.attributes == map["name" := Str(net.name)]
    && "places" in e.children && EncodesPlacesFrom(reg, e.children["places"], net, 0)
    && "transitions" in e.children && EncodesTransitionsFrom(reg, e.children["transitions"], net, 0)
  }

  /** Every edge from position `from` on has a resolved reference. */
  predicate ResolvedFrom(edges: seq<Edge>, from: nat) {
    forall i :: from <= i < |edges| ==> edges[i].place.Resolved?
  }

  /** Every reference of the transition resolves. */
  predicate EdgesResolved(tr: Transition) {
    ResolvedFrom(tr.sources, 0) && ResolvedFrom(tr.destinations, 0)
  }

  /** What `fromTransition` needs: a CST node and resolved references. */
  predicate TransitionSerialisable(tr: Transition) {
    tr.cst.Some? && EdgesResolved(tr)
  }

  predicate PlacesLocatedFrom(net: PetriNet, from: nat) {
    forall i :: from <= i < |net.places| ==> net.places[i].cst.Some?
  }

  predicate TransitionsSerialisableFrom(net: PetriNet, from: nat) {
    forall t :: from <= t < |net.transitions| ==> TransitionSerialisable(net.transitions[t])
  }

  /** Everything the static builders need: a CST node on every place and
      transition, and every reference resolved. */
  predicate Serialisable(net: PetriNet) {
    PlacesLocatedFrom(net, 0) && TransitionsSerialisableFrom(net, 0)
  }

  // ---------------------------------------------------------------------
  // Building from the static model

  /** `fromEdge`: the edge's id first, then its target place, which must
      resolve ('Undefined reference.'), then the target's id. */
  function FromEdge(reg: Registry.Registry, t: nat, isDestination: bool, i: nat, edge: Edge): (r: Effect<Registry.Registry, ModelElement>)
    ensures r.Threw? <==> edge.place.Unresolved?
    ensures r.Threw? ==> r.error == UndefinedReferenceTarget
  {
    var (id, reg1) := Registry.GetOrCreateAstId(reg, Registry.EdgeNode(t, isDestination, i));
    match edge.place
    case Unresolved => Threw(reg1, UndefinedReferenceTarget)
    case Resolved(k) =>
      var (target, reg2) := Registry.GetOrCreateAstId(reg1, Registry.PlaceNode(k));
      Returned(reg2, ModelElement(id, "Edge", map[], map["place" := target], map["weight" := Num(edge.weight)], None))
  }

  /** The loop over one edge list, from position `from` on. */
  function FromEdges(reg: Registry.Registry, t: nat, isDestination: bool, edges: seq<Edge>, from: nat): (r: Effect<Registry.Registry, seq<ModelElement>>)
    requires from <= |edges|
    ensures r.Threw? <==> !ResolvedFrom(edges, from)
    ensures r.Threw? ==> r.error == UndefinedReferenceTarget
    ensures r.Returned? ==> |r.value| == |edges| - from
    decreases |edges| - from
  {
    if from == |edges| then Returned(reg, [])
    else match FromEdge(reg, t, isDestination, from, edges[from])
      case Threw(reg1, e) => Threw(reg1, e)
      case Returned(reg1, head) =>
        match FromEdges(reg1, t, isDestination, edges, from + 1)
        case Threw(reg2, e) => Threw(reg2, e)
        case Returned(reg2, tail) => Returned(reg2, [head] + tail)
  }

  /** `fromPlace`: the place's id, then its attributes, then its location. */
  function FromPlace(reg: Registry.Registry, net: PetriNet, i: nat): (r: Effect<Registry.Registry, ModelElement>)
    requires i < |net.places|
    ensures r.Threw? <==> net.places[i].cst.None?
    ensures r.Threw? ==> r.error == LocationExpected
  {
    var p := net.places[i];
    var (id, reg1) := Registry.GetOrCreateAstId(reg, Registry.PlaceNode(i));
    match GetLocation(p.cst)
    case Err(e) => Threw(reg1, e)
    case Ok(loc) =>
      Returned(reg1, ModelElement(id, "Place", map[], map[],
                                  map["placeName" := Str(p.name), "placeCapacity" := Num(p.maxCapacity),
                                      "placeInitTokenNumber" := Num(p.initialTokenNumber)],
                                  Some(loc)))
  }

  /** `fromTransition`: the source edges, then the destination edges, then
      the transition's id, its name and its location. An unresolved
      reference is reported before a missing location. */
  function FromTransition(reg: Registry.Registry, net: PetriNet, t: nat): (r: Effect<Registry.Registry, ModelElement>)
    requires t < |net.transitions|
    ensures r.Threw? <==> !TransitionSerialisable(net.transitions[t])
    ensures r.Threw? ==> (r.error == UndefinedReferenceTarget <==> !EdgesResolved(net.transitions[t]))
    ensures r.Threw? ==> r.error in {UndefinedReferenceTarget, LocationExpected}
  {
    var tr := net.transitions[t];
    match FromEdges(reg, t, false, tr.sources, 0)
    case Threw(reg1, e) => Threw(reg1, e)
    case Returned(reg1, sources) =>
      match FromEdges(reg1, t, true, tr.destinations, 0)
      case Threw(reg2, e) => Threw(reg2, e)
      case Returned(reg2, destinations) =>
        var (id, reg3) := Registry.GetOrCreateAstId(reg2, Registry.TransitionNode(t));
        match GetLocation(tr.cst)
        case Err(e) => Threw(reg3, e)
        case Ok(loc) =>
          Returned(reg3, ModelElement(id, "Transition", map["sources" := sources, "destinations" := destinations],
                                      map[], map["transitionName" := Str(tr.name)], Some(loc)))
  }

  function FromPlaces(reg: Registry.Registry, net: PetriNet, from: nat): (r: Effect<Registry.Registry, seq<ModelElement>>)
    requires from <= |net.places|
    ensures r.Threw? <==> !PlacesLocatedFrom(net, from)
    ensures r.Threw? ==> r.error == LocationExpected
    ensures r.Returned? ==> |r.value| == |net.places| - from
    decreases |net.places| - from
  {
    if from == |net.places| then Returned(reg, [])
    else match FromPlace(reg, net, from)
      case Threw(reg1, e) => Threw(reg1, e)
      case Returned(reg1, head) =>
        match FromPlaces(reg1, net, from + 1)
        case Threw(reg2, e) => Threw(reg2, e)
        case Returned(reg2, tail) => Returned(reg2, [head] + tail)
  }

  function FromTransitions(reg: Registry.Registry, net: PetriNet, from: nat): (r: Effect<Registry.Registry, seq<ModelElement>>)
    requires from <= |net.transitions|
    ensures r.Threw? <==> !TransitionsSerialisableFrom(net, from)
    ensures r.Returned? ==> |r.value| == |net.transitions| - from
    decreases |net.transitions| - from
  {
    if from == |net.transitions| then Returned(reg, [])
    else match FromTransition(reg, net, from)
      case Threw(reg1, e) => Threw(reg1, e)
      case Returned(reg1, head) =>
        match FromTransitions(reg1, net, from + 1)
        case Threw(reg2, e) => Threw(reg2, e)
        case Returned(reg2, tail) => Returned(reg2, [head] + tail)
  }

  /** `fromPetriNet`: the places, then the transitions, then the net's own
      id and name. It throws exactly when some place or transition has no
      CST node or some reference does not resolve. */
  function FromPetriNet(reg: Registry.Registry, net: PetriNet): (r: Effect<Registry.Registry, ModelElement>)
    ensures r.Threw? <==> !Serialisable(net)
  {
    match FromPlaces(reg, net, 0)
    case Threw(reg1, e) => Threw(reg1, e)
    case Returned(reg1, places) =>
      match FromTransitions(reg1, net, 0)
      case Threw(reg2, e) => Threw(reg2, e)
      case Returned(reg2, transitions) =>
        var (id, reg3) := Registry.GetOrCreateAstId(reg2, Registry.NetNode);
        Returned(reg3, ModelElement(id, "PetriNet", map["places" := places, "transitions" := transitions],
                                    map[], map["name" := Str(net.name)], None))
  }

  // ---------------------------------------------------------------------
  // The registry a static builder leaves behind

  /** `fromEdge` keeps the registry valid and every id it held, also when it
      throws; a built edge element carries the ids of the edge and of its
      target place. */
  lemma FromEdgeKeeps(reg: Registry.Registry, t: nat, isDestination: bool, i: nat, edge: Edge)
    requires Registry.Valid(reg)
    ensures var r := FromEdge(reg, t, isDestination, i, edge);
      && Registry.Valid(r.state) && Registry.Extends(reg, r.state)
      && (r.Returned? ==> EncodesEdge(r.state, r.value, t, isDestination, i, edge))
  {
    var key := Registry.EdgeNode(t, isDestination, i);
    Registry.GetOrCreateAstIdKeeps(reg, key);
    var reg1 := Registry.GetOrCreateAstId(reg, key).1;
    if edge.place.Resolved? {
      Registry.GetOrCreateAstIdKeeps(reg1, Registry.PlaceNode(edge.place.index));
    }
  }

  lemma {:induction false} FromEdgesKeeps(reg: Registry.Registry, t: nat, isDestination: bool, edges: seq<Edge>, from: nat)
    requires Registry.Valid(reg) && from <= |edges|
    ensures var r := FromEdges(reg, t, isDestination, edges, from);
      Registry.Valid(r.state) && Registry.Extends(reg, r.state)
    decreases |edges| - from
  {
    if from < |edges| {
      var h := FromEdge(reg, t, isDestination, from, edges[from]);
      FromEdgeKeeps(reg, t, isDestination, from, edges[from]);
      if h.Returned? {
        FromEdgesKeeps(h.state, t, isDestination, edges, from + 1);
        Registry.ExtendsTransitive(reg, h.state, FromEdges(h.state, t, isDestination, edges, from + 1).state);
      }
    }
  }

  lemma FromPlaceKeeps(reg: Registry.Registry, net: PetriNet, i: nat)
    requires Registry.Valid(reg) && i < |net.places|
    ensures var r := FromPlace(reg, net, i);
      && Registry.Valid(r.state) && Registry.Extends(reg, r.state)
      && (r.Returned? ==> EncodesPlace(r.state, r.value, i, net.places[i]))
  {
    Registry.GetOrCreateAstIdKeeps(reg, Registry.PlaceNode(i));
  }

  lemma FromPlacesKeeps(reg: Registry.Registry, net: PetriNet, from: nat)
    requires Registry.Valid(reg) && from <= |net.places|
    ensures var r := FromPlaces(reg, net, from);
      Registry.Valid(r.state) && Registry.Extends(reg, r.state)
    decreases |net.places| - from
  {
    if from < |net.places| {
      var h := FromPlace(reg, net, from);
      FromPlaceKeeps(reg, net, from);
      if h.Returned? {
        FromPlacesKeeps(h.state, net, from + 1);
        Registry.ExtendsTransitive(reg, h.state, FromPlaces(h.state, net, from + 1).state);
      }
    }
  }

  /** What `fromTransition` returns, one stage at a time. */
  lemma FromTransitionStep(reg: Registry.Registry, net: PetriNet, t: nat)
    requires t < |net.transitions| && FromTransition(reg, net, t).Returned?
    ensures var tr := net.transitions[t];
      var s := FromEdges(reg, t, false, tr.sources, 0);
      && s.Returned?
      && var d := FromEdges(s.state, t, true, tr.destinations, 0);
      && d.Returned?
      && var (id, reg3) := Registry.GetOrCreateAstId(d.state, Registry.TransitionNode(t));
      && GetLocation(tr.cst).Ok?
      && FromTransition(reg, net, t) ==
         Returned(reg3, ModelElement(id, "Transition", map["sources" := s.value, "destinations" := d.value],
                                     map[], map["transitionName" := Str(tr.name)], Some(GetLocation(tr.cst).value)))
  {
  }

  lemma FromTransitionKeeps(reg: Registry.Registry, net: PetriNet, t: nat)
    requires Registry.Valid(reg) && t < |net.transitions|
    ensures var r := FromTransition(reg, net, t);
      Registry.Valid(r.state) && Registry.Extends(reg, r.state)
  {
    var tr := net.transitions[t];
    var s := FromEdges(reg, t, false, tr.sources, 0);
    FromEdgesKeeps(reg, t, false, tr.sources, 0);
    if s.Returned? {
      var d := FromEdges(s.state, t, true, tr.destinations, 0);
      FromEdgesKeeps(s.state, t, true, tr.destinations, 0);
      Registry.ExtendsTransitive(reg, s.state, d.state);
      if d.Returned? {
        Registry.GetOrCreateAstIdKeeps(d.state, Registry.TransitionNode(t));
        Registry.ExtendsTransitive(reg, d.state, Registry.GetOrCreateAstId(d.state, Registry.TransitionNode(t)).1);
      }
    }
  }

  lemma FromTransitionsKeeps(reg: Registry.Registry, net: PetriNet, from: nat)
    requires Registry.Valid(reg) && from <= |net.transitions|
    ensures var r := FromTransitions(reg, net, from);
      Registry.Valid(r.state) && Registry.Extends(reg, r.state)
    decreases |net.transitions| - from
  {
    if from < |net.transitions| {
      var h := FromTransition(reg, net, from);
      FromTransitionKeeps(reg, net, from);
      if h.Returned? {
        FromTransitionsKeeps(h.state, net, from + 1);
        Registry.ExtendsTransitive(reg, h.state, FromTransitions(h.state, net, from + 1).state);
      }
    }
  }

  /** `fromPetriNet` keeps the registry valid and every id it held, also
      when it throws halfway. */
  lemma FromPetriNetKeeps(reg: Registry.Registry, net: PetriNet)
    requires Registry.Valid(reg)
    ensures var r := FromPetriNet(reg, net);
      Registry.Valid(r.state) && Registry.Extends(reg, r.state)
  {
    var ps := FromPlaces(reg, net, 0);
    FromPlacesKeeps(reg, net, 0);
    if ps.Returned? {
      var ts := FromTransitions(ps.state, net, 0);
      FromTransitionsKeeps(ps.state, net, 0);
      Registry.ExtendsTransitive(reg, ps.state, ts.state);
      if ts.Returned? {
        Registry.GetOrCreateAstIdKeeps(ts.state, Registry.NetNode);
        Registry.ExtendsTransitive(reg, ts.state, Registry.GetOrCreateAstId(ts.state, Registry.NetNode).1);
      }
    }
  }

  // ---------------------------------------------------------------------
  // What the built tree encodes

  lemma EncodesPlaceLift(r1: Registry.Registry, r2: Registry.Registry, e: ModelElement, i: nat, p: Place)
    requires Registry.Extends(r1, r2) && EncodesPlace(r1, e, i, p)
    ensures EncodesPlace(r2, e, i, p)
  {
  }

  lemma EncodesEdgesLift(r1: Registry.Registry, r2: Registry.Registry, es: seq<ModelElement>, t: nat, isDestination: bool, edges: seq<Edge>)
    requires Registry.Extends(r1, r2) && EncodesEdges(r1, es, t, isDestination, edges)
    ensures EncodesEdges(r2, es, t, isDestination, edges)
  {
    forall i | 0 <= i < |es| ensures EncodesEdge(r2, es[i], t, isDestination, i, edges[i]) {
      EncodesEdgeLift(r1, r2, es[i], t, isDestination, i, edges[i]);
    }
  }

  lemma EncodesTransitionLift(r1: Registry.Registry, r2: Registry.Registry, e: ModelElement, t: nat, tr: Transition)
    requires Registry.Extends(r1, r2) && EncodesTransition(r1, e, t, tr)
    ensures EncodesTransition(r2, e, t, tr)
  {
    EncodesEdgesLift(r1, r2, e.children["sources"], t, false, tr.sources);
    EncodesEdgesLift(r1, r2, e.children["destinations"], t, true, tr.destinations);
  }

  /** One step of the edge loop: the head element, then the rest. */
  lemma FromEdgesStep(reg: Registry.Registry, t: nat, isDestination: bool, edges: seq<Edge>, from: nat)
    requires from < |edges| && FromEdges(reg, t, isDestination, edges, from).Returned?
    ensures var h := FromEdge(reg, t, isDestination, from, edges[from]);
      && h.Returned? && FromEdges(h.state, t, isDestination, edges, from + 1).Returned?
      && FromEdges(reg, t, isDestination, edges, from) ==
         Returned(FromEdges(h.state, t, isDestination, edges, from + 1).state,
                  [h.value] + FromEdges(h.state, t, isDestination, edges, from + 1).value)
  {
  }

  lemma {:induction false} FromEdgesEncodes(reg: Registry.Registry, t: nat, isDestination: bool, edges: seq<Edge>, from: nat)
    requires Registry.Valid(reg) && from <= |edges| && FromEdges(reg, t, isDestination, edges, from).Returned?
    ensures EncodesEdgesFrom(FromEdges(reg, t, isDestination, edges, from).state,
                             FromEdges(reg, t, isDestination, edges, from).value, t, isDestination, edges, from)
    decreases |edges| - from
  {
    if from < |edges| {
      FromEdgesStep(reg, t, isDestination, edges, from);
      var h := FromEdge(reg, t, isDestination, from, edges[from]);
      FromEdgeKeeps(reg, t, isDestination, from, edges[from]);
      var rest := FromEdges(h.state, t, isDestination, edges, from + 1);
      FromEdgesEncodes(h.state, t, isDestination, edges, from + 1);
      FromEdgesKeeps(h.state, t, isDestination, edges, from + 1);
      EncodesEdgeLift(h.state, rest.state, h.value, t, isDestination, from, edges[from]);
      EncodesEdgesCons(rest.state, h.value, rest.value, t, isDestination, edges, from);
    }
  }

  lemma FromPlacesStep(reg: Registry.Registry, net: PetriNet, from: nat)
    requires from < |net.places| && FromPlaces(reg, net, from).Returned?
    ensures var h := FromPlace(reg, net, from);
      && h.Returned? && FromPlaces(h.state, net, from + 1).Returned?
      && FromPlaces(reg, net, from) ==
         Returned(FromPlaces(h.state, net, from + 1).state, [h.value] + FromPlaces(h.state, net, from + 1).value)
  {
  }

  lemma EncodesPlacesCons(reg: Registry.Registry, head: ModelElement, tail: seq<ModelElement>, net: PetriNet, from: nat)
    requires from < |net.places|
    requires EncodesPlace(reg, head, from, net.places[from]) && EncodesPlacesFrom(reg, tail, net, from + 1)
    ensures EncodesPlacesFrom(reg, [head] + tail, net, from)
  {
    forall i | 0 <= i < |tail| + 1 ensures EncodesPlace(reg, ([head] + tail)[i], from + i, net.places[from + i]) {
      if i > 0 { assert ([head] + tail)[i] == tail[i - 1]; }
    }
  }

  /** The inductive step of `FromPlacesEncodes`: the head element, lifted
      to the final registry, in front of the encoded rest. */
  lemma {:induction false} FromPlacesEncodesStep(reg: Registry.Registry, net: PetriNet, from: nat)
    requires Registry.Valid(reg) && from < |net.places| && FromPlaces(reg, net, from).Returned?
    ensures EncodesPlacesFrom(FromPlaces(reg, net, from).state, FromPlaces(reg, net, from).value, net, from)
    decreases |net.places| - from, 0
  {
    FromPlacesStep(reg, net, from);
    var h := FromPlace(reg, net, from);
    FromPlaceKeeps(reg, net, from);
    var rest := FromPlaces(h.state, net, from + 1);
    FromPlacesEncodes(h.state, net, from + 1);
    FromPlacesKeeps(h.state, net, from + 1);
    EncodesPlaceLift(h.state, rest.state, h.value, from, net.places[from]);
    EncodesPlacesCons(rest.state, h.value, rest.value, net, from);
  }

  lemma {:induction false} FromPlacesEncodes(reg: Registry.Registry, net: PetriNet, from: nat)
    requires Registry.Valid(reg) && from <= |net.places| && FromPlaces(reg, net, from).Returned?
    ensures EncodesPlacesFrom(FromPlaces(reg, net, from).state, FromPlaces(reg, net, from).value, net, from)
    decreases |net.places| - from, 1
  {
    if from < |net.places| {
      FromPlacesEncodesStep(reg, net, from);
    }
  }

  lemma FromTransitionEncodes(reg: Registry.Registry, net: PetriNet, t: nat)
    requires Registry.Valid(reg) && t < |net.transitions| && FromTransition(reg, net, t).Returned?
    ensures EncodesTransition(FromTransition(reg, net, t).state, FromTransition(reg, net, t).value, t, net.transitions[t])
  {
    var tr := net.transitions[t];
    FromTransitionStep(reg, net, t);
    var s := FromEdges(reg, t, false, tr.sources, 0);
    FromEdgesEncodes(reg, t, false, tr.sources, 0);
    FromEdgesKeeps(reg, t, false, tr.sources, 0);
    var d := FromEdges(s.state, t, true, tr.destinations, 0);
    FromEdgesEncodes(s.state, t, true, tr.destinations, 0);
    FromEdgesKeeps(s.state, t, true, tr.destinations, 0);
    Registry.GetOrCreateAstIdKeeps(d.state, Registry.TransitionNode(t));
    var r := FromTransition(reg, net, t);
    Registry.ExtendsTransitive(s.state, d.state, r.state);
    EncodesEdgesLift(s.state, r.state, s.value, t, false, tr.sources);
    EncodesEdgesLift(d.state, r.state, d.value, t, true, tr.destinations);
  }

  lemma FromTransitionsStep(reg: Registry.Registry, net: PetriNet, from: nat)
    requires from < |net.transitions| && FromTransitions(reg, net, from).Returned?
    ensures var h := FromTransition(reg, net, from);
      && h.Returned? && FromTransitions(h.state, net, from + 1).Returned?
      && FromTransitions(reg, net, from) ==
         Returned(FromTransitions(h.state, net, from + 1).state, [h.value] + FromTransitions(h.state, net, from + 1).value)
  {
  }

  lemma EncodesTransitionsCons(reg: Registry.Registry, head: ModelElement, tail: seq<ModelElement>, net: PetriNet, from: nat)
    requires from < |net.transitions|
    requires EncodesTransition(reg, head, from, net.transitions[from]) && EncodesTransitionsFrom(reg, tail, net, from + 1)
    ensures EncodesTransitionsFrom(reg, [head] + tail, net, from)
  {
    forall t | 0 <= t < |tail| + 1 ensures EncodesTransition(reg, ([head] + tail)[t], from + t, net.transitions[from + t]) {
      if t > 0 { assert ([head] + tail)[t] == tail[t - 1]; }
    }
  }

  /** The inductive step of `FromTransitionsEncodes`: the head element,
      lifted to the final registry, in front of the encoded rest. */
  lemma {:induction false} FromTransitionsEncodesStep(reg: Registry.Registry, net: PetriNet, from: nat)
    requires Registry.Valid(reg) && from < |net.transitions| && FromTransitions(reg, net, from).Returned?
    ensures EncodesTransitionsFrom(FromTransitions(reg, net, from).state, FromTransitions(reg, net, from).value, net, from)
    decreases |net.transitions| - from, 0
  {
    FromTransitionsStep(reg, net, from);
    var h := FromTransition(reg, net, from);
    FromTransitionKeeps(reg, net, from);
    FromTransitionEncodes(reg, net, from);
    var rest := FromTransitions(h.state, net, from + 1);
    FromTransitionsEncodes(h.state, net, from + 1);
    FromTransitionsKeeps(h.state, net, from + 1);
    EncodesTransitionLift(h.state, rest.state, h.value, from, net.transitions[from]);
    EncodesTransitionsCons(rest.state, h.value, rest.value, net, from);
  }

  lemma {:induction false} FromTransitionsEncodes(reg: Registry.Registry, net: PetriNet, from: nat)
    requires Registry.Valid(reg) && from <= |net.transitions| && FromTransitions(reg, net, from).Returned?
    ensures EncodesTransitionsFrom(FromTransitions(reg, net, from).state, FromTransitions(reg, net, from).value, net, from)
    decreases |net.transitions| - from, 1
  {
    if from < |net.transitions| {
      FromTransitionsEncodesStep(reg, net, from);
    }
  }

  lemma FromPetriNetStep(reg: Registry.Registry, net: PetriNet)
    requires FromPetriNet(reg, net).Returned?
    ensures var ps := FromPlaces(reg, net, 0);
      && ps.Returned?
      && var ts := FromTransitions(ps.state, net, 0);
      && ts.Returned?
      && var (id, reg3) := Registry.GetOrCreateAstId(ts.state, Registry.NetNode);
      && FromPetriNet(reg, net) ==
         Returned(reg3, ModelElement(id, "PetriNet", map["places" := ps.value, "transitions" := ts.value],
                                     map[], map["name" := Str(net.name)], None))
  {
  }

  lemma EncodesPlacesLift(r1: Registry.Registry, r2: Registry.Registry, es: seq<ModelElement>, net: PetriNet)
    requires Registry.Extends(r1, r2) && EncodesPlacesFrom(r1, es, net, 0)
    ensures EncodesPlacesFrom(r2, es, net, 0)
  {
    forall i | 0 <= i < |es| ensures EncodesPlace(r2, es[i], 0 + i, net.places[0 + i]) {
      EncodesPlaceLift(r1, r2, es[i], i, net.places[i]);
    }
  }

  lemma EncodesTransitionsLift(r1: Registry.Registry, r2: Registry.Registry, es: seq<ModelElement>, net: PetriNet)
    requires Registry.Extends(r1, r2) && EncodesTransitionsFrom(r1, es, net, 0)
    ensures EncodesTransitionsFrom(r2, es, net, 0)
  {
    forall t | 0 <= t < |es| ensures EncodesTransition(r2, es[t], 0 + t, net.transitions[0 + t]) {
      EncodesTransitionLift(r1, r2, es[t], t, net.transitions[t]);
    }
  }

  /** A completed `fromPetriNet` describes the whole net: one place element
      per place and one transition element per transition, in order, each
      under the registry id of its object, with its attributes, its
      location and, for an edge, the id of its target place. */
  lemma FromPetriNetEncodes(reg: Registry.Registry, net: PetriNet)
    requires Registry.Valid(reg) && FromPetriNet(reg, net).Returned?
    ensures EncodesNet(FromPetriNet(reg, net).state, FromPetriNet(reg, net).value, net)
  {
    FromPetriNetStep(reg, net);
    var ps := FromPlaces(reg, net, 0);
    FromPlacesEncodes(reg, net, 0);
    FromPlacesKeeps(reg, net, 0);
    var ts := FromTransitions(ps.state, net, 0);
    FromTransitionsEncodes(ps.state, net, 0);
    FromTransitionsKeeps(ps.state, net, 0);
    Registry.GetOrCreateAstIdKeeps(ts.state, Registry.NetNode);
    var r := FromPetriNet(reg, net);
    Registry.ExtendsTransitive(ps.state, ts.state, r.state);
    EncodesPlacesLift(ps.state, r.state, ps.value, net);
    EncodesTransitionsLift(ts.state, r.state, ts.value, net);
  }

  // ---------------------------------------------------------------------
  // Reading a net back from its elements

  /** The AST object that holds `id`, through the registry's inverse. */
  function AstKeyOf(reg: Registry.Registry, id: Registry.Id): (k: Option<Registry.AstKey>)
    ensures k.Some? ==> k.value in reg.ast && reg.ast[k.value] == id
  {
    match Registry.OwnerOf(reg, id)
    case Some(AstOwner(key)) => Some(key)
    case _ => None
  }

  /** In a valid registry every AST object is found again from its id. */
  lemma AstKeyOfId(reg: Registry.Registry, k: Registry.AstKey)
    requires Registry.Valid(reg) && k in reg.ast
    ensures AstKeyOf(reg, reg.ast[k]) == Some(k)
  {
    Registry.OwnerOfAst(reg, k);
  }

  function PlaceWithId(reg: Registry.Registry, id: Registry.Id): Option<nat> {
    match AstKeyOf(reg, id)
    case Some(PlaceNode(k)) => Some(k)
    case _ => None
  }

  function TransitionWithId(reg: Registry.Registry, id: Registry.Id): Option<nat> {
    match AstKeyOf(reg, id)
    case Some(TransitionNode(t)) => Some(t)
    case _ => None
  }

  /** Decodes every element of a list, or none when one of them fails. */
  function DecodeAll<T>(es: seq<ModelElement>, decode: ModelElement -> Option<T>): (r: Option<seq<T>>)
    ensures r.Some? <==> forall i :: 0 <= i < |es| ==> decode(es[i]).Some?
    ensures r.Some? ==> |r.value| == |es| && forall i :: 0 <= i < |es| ==> decode(es[i]) == Some(r.value[i])
  {
    if forall i :: 0 <= i < |es| ==> decode(es[i]).Some? then
      Some(seq(|es|, i requires 0 <= i < |es| => decode(es[i]).value))
    else None
  }

  /** A list whose every element decodes to the matching entry of `xs`
      decodes to `xs`. */
  lemma DecodeAllOf<T>(es: seq<ModelElement>, decode: ModelElement -> Option<T>, xs: seq<T>)
    requires |es| == |xs| && forall i :: 0 <= i < |es| ==> decode(es[i]) == Some(xs[i])
    ensures DecodeAll(es, decode) == Some(xs)
  {
    assert DecodeAll(es, decode).value == xs;
  }

  function ToEdge(reg: Registry.Registry, e: ModelElement): Option<Edge> {
    if "place" in e.refs && "weight" in e.attributes && e.attributes["weight"].Num? then
      match PlaceWithId(reg, e.refs["place"])
      case None => None
      case Some(k) => Some(Edge(Resolved(k), e.attributes["weight"].number))
    else None
  }

  function ToEdges(reg: Registry.Registry, es: seq<ModelElement>): Option<seq<Edge>> {
    DecodeAll(es, e => ToEdge(reg, e))
  }

  function ToPlace(e: ModelElement): Option<Place> {
    if && "placeName" in e.attributes && e.attributes["placeName"].Str?
       && "placeCapacity" in e.attributes && e.attributes["placeCapacity"].Num?
       && "placeInitTokenNumber" in e.attributes && e.attributes["placeInitTokenNumber"].Num?
       && e.location.Some? && WellFormed(e.location.value)
    then Some(Place(e.attributes["placeName"].text, e.attributes["placeCapacity"].number,
                    e.attributes["placeInitTokenNumber"].number, Some(RangeOf(e.location.value))))
    else None
  }

  function ToTransition(reg: Registry.Registry, e: ModelElement): Option<Transition> {
    if && "transitionName" in e.attributes && e.attributes["transitionName"].Str?
       && e.location.Some? && WellFormed(e.location.value)
       && "sources" in e.children && ToEdges(reg, e.children["sources"]).Some?
       && "destinations" in e.children && ToEdges(reg, e.children["destinations"]).Some?
    then Some(Transition(e.attributes["transitionName"].text, ToEdges(reg, e.children["sources"]).value,
                         ToEdges(reg, e.children["destinations"]).value, Some(RangeOf(e.location.value))))
    else None
  }

  /** The net an element tree describes, ids read back through `reg`. */
  function ToNet(reg: Registry.Registry, e: ModelElement): Option<PetriNet> {
    if && "name" in e.attributes && e.attributes["name"].Str?
       && "places" in e.children && DecodeAll(e.children["places"], ToPlace).Some?
       && "transitions" in e.children && DecodeAll(e.children["transitions"], x => ToTransition(reg, x)).Some?
    then Some(PetriNet(e.attributes["name"].text, DecodeAll(e.children["places"], ToPlace).value,
                       DecodeAll(e.children["transitions"], x => ToTransition(reg, x)).value))
    else None
  }

  lemma DecodeEdges(reg: Registry.Registry, es: seq<ModelElement>, t: nat, isDestination: bool, edges: seq<Edge>)
    requires Registry.Valid(reg) && EncodesEdges(reg, es, t, isDestination, edges)
    ensures ToEdges(reg, es) == Some(edges)
  {
    forall i | 0 <= i < |es| ensures ToEdge(reg, es[i]) == Some(edges[i]) {
      assert EncodesEdge(reg, es[i], t, isDestination, 0 + i, edges[0 + i]);
      AstKeyOfId(reg, Registry.PlaceNode(edges[i].place.index));
    }
    DecodeAllOf(es, e => ToEdge(reg, e), edges);
  }

  lemma DecodeTransition(reg: Registry.Registry, e: ModelElement, t: nat, tr: Transition)
    requires Registry.Valid(reg) && EncodesTransition(reg, e, t, tr)
    ensures ToTransition(reg, e) == Some(tr)
  {
    DecodeEdges(reg, e.children["sources"], t, false, tr.sources);
    DecodeEdges(reg, e.children["destinations"], t, true, tr.destinations);
  }

  /** Reading back an element tree that encodes a net gives that net. */
  lemma DecodeNet(reg: Registry.Registry, e: ModelElement, net: PetriNet)
    requires Registry.Valid(reg) && EncodesNet(reg, e, net)
    ensures ToNet(reg, e) == Some(net)
  {
    var places := e.children["places"];
    forall i | 0 <= i < |places| ensures ToPlace(places[i]) == Some(net.places[i]) {
      assert EncodesPlace(reg, places[i], 0 + i, net.places[0 + i]);
    }
    DecodeAllOf(places, ToPlace, net.places);
    var transitions := e.children["transitions"];
    forall t | 0 <= t < |transitions| ensures ToTransition(reg, transitions[t]) == Some(net.transitions[t]) {
      assert EncodesTransition(reg, transitions[t], 0 + t, net.transitions[0 + t]);
      DecodeTransition(reg, transitions[t], t, net.transitions[t]);
    }
    DecodeAllOf(transitions, x => ToTransition(reg, x), net.transitions);
  }

  /** Building the elements of a net and reading them back gives the net:
      names, capacities, initial token numbers, weights, the place every
      edge points at and the source range of every place and transition
      all survive the trip. */
  lemma FromPetriNetRoundTrip(reg: Registry.Registry, net: PetriNet)
    requires Registry.Valid(reg) && FromPetriNet(reg, net).Returned?
    ensures ToNet(FromPetriNet(reg, net).state, FromPetriNet(reg, net).value) == Some(net)
  {
    FromPetriNetKeeps(reg, net);
    FromPetriNetEncodes(reg, net);
    DecodeNet(FromPetriNet(reg, net).state, FromPetriNet(reg, net).value, net);
  }
}

=== FILE: cached_engine.dfy ===
/** The firing engine of src/runtimeState.ts, the one the step classes call:
    each transition state caches a triggerable flag that is refreshed for
    every transition after each firing, `canEvolve` stops at an iteration
    bound, and `trigger` moves tokens without checking the flag first. */
module CachedEngine {
  import opened Outcomes
  import opened Ast
  import opened Marking

  /** `maxIterations`. */
  const MaxIterations: nat := 50

  /** The state of the transition at index `transition`, with its cached flag. */
  datatype TransitionState = TransitionState(transition: nat, triggerable: bool)

  datatype State = State(net: PetriNet, currentIteration: nat, placeStates: seq<PlaceState>,
                         transitionStates: seq<TransitionState>)

  /** Transition state `j` belongs to transition `j`, for every transition. */
  ghost predicate TransitionsAligned(net: PetriNet, ts: seq<TransitionState>) {
    |ts| == |net.transitions| && forall j :: 0 <= j < |ts| ==> ts[j].transition == j
  }

  ghost predicate Valid(st: State) {
    Aligned(st.net, st.placeStates) && TransitionsAligned(st.net, st.transitionStates)
  }

  /** Every reference of the transition resolves to a place with a state. */
  ghost predicate Resolves(ps: seq<PlaceState>, tr: Transition) {
    AllResolved(ps, tr.sources) && AllResolved(ps, tr.destinations)
  }

  /** Every cached flag is the triggerability rule applied to the marking. */
  ghost predicate FlagsCurrent(st: State)
    requires Valid(st)
  {
    forall j :: 0 <= j < |st.transitionStates| ==>
      st.transitionStates[j].triggerable == Enabled(st.net, st.placeStates, st.net.transitions[j])
  }

  lemma EnabledResolves(net: PetriNet, ps: seq<PlaceState>, tr: Transition)
    requires Aligned(net, ps) && Enabled(net, ps, tr)
    ensures Resolves(ps, tr)
  {
    forall i | 0 <= i < |tr.sources| ensures SourceOk(ps, tr.sources[i]) { }
    forall i | 0 <= i < |tr.destinations| ensures DestinationOk(net, ps, tr.destinations[i]) { }
  }

  /** `TransitionState.computeTriggerable`: sets the flag to the conjunction
      of the source checks and, only when those all pass, the destination
      checks. An unresolved reference returns early and leaves the flag as
      it was; a resolved place without a state throws. */
  function ComputeTriggerable(net: PetriNet, ps: seq<PlaceState>, ts: TransitionState): (r: Result<TransitionState>)
    requires Aligned(net, ps) && ts.transition < |net.transitions|
    ensures r.Err? ==> r.error == NoPlaceState
    ensures r.Ok? ==> r.value.transition == ts.transition
    ensures CheckEdges(net, ps, net.transitions[ts.transition].sources, false).Fail? ==> r == Ok(ts.(triggerable := false))
  {
    var tr := net.transitions[ts.transition];
    match CheckEdges(net, ps, tr.sources, false)
    case Dangling => Ok(ts)
    case Stateless(_) => Err(NoPlaceState)
    case Fail => Ok(ts.(triggerable := false))
    case Pass =>
      match CheckEdges(net, ps, tr.destinations, true)
      case Dangling => Ok(ts)
      case Stateless(_) => Err(NoPlaceState)
      case Fail => Ok(ts.(triggerable := false))
      case Pass => Ok(ts.(triggerable := true))
  }

  /** The flag `computeTriggerable` leaves is the triggerability rule
      whenever every reference resolves to a place with a state; it throws
      only when one does not, and then an unresolved reference can only
      clear the flag, never set it. */
  lemma ComputeTriggerableRule(net: PetriNet, ps: seq<PlaceState>, ts: TransitionState)
    requires Aligned(net, ps) && ts.transition < |net.transitions|
    ensures var r := ComputeTriggerable(net, ps, ts);
      && (r.Err? ==> !Resolves(ps, net.transitions[ts.transition]))
      && (Resolves(ps, net.transitions[ts.transition]) ==>
            r == Ok(ts.(triggerable := Enabled(net, ps, net.transitions[ts.transition]))))
      && (r.Ok? && !Resolves(ps, net.transitions[ts.transition]) ==> r.value.triggerable ==> ts.triggerable)
  {
    var tr := net.transitions[ts.transition];
    CheckEdgesFirstBad(net, ps, tr.sources, false);
    CheckEdgesFirstBad(net, ps, tr.destinations, true);
  }

  /** `refreshTransitions`: recomputes every flag in order; a throw leaves
      the flags before the throwing transition already refreshed. */
  function Refresh(net: PetriNet, ps: seq<PlaceState>, ts: seq<TransitionState>, from: nat): (r: Effect<seq<TransitionState>, ()>)
    requires Aligned(net, ps) && TransitionsAligned(net, ts) && from <= |ts|
    ensures TransitionsAligned(net, r.state)
    ensures forall j :: 0 <= j < from ==> r.state[j] == ts[j]
    ensures r.Returned? ==> forall j :: from <= j < |ts| && Resolves(ps, net.transitions[j]) ==>
      r.state[j].triggerable == Enabled(net, ps, net.transitions[j])
    ensures r.Returned? ==> forall j :: from <= j < |ts| && !Resolves(ps, net.transitions[j]) ==>
      r.state[j].triggerable ==> ts[j].triggerable
    ensures r.Threw? ==> r.error == NoPlaceState
    ensures r.Threw? ==> exists j :: from <= j < |ts| && !Resolves(ps, net.transitions[j])
    decreases |ts| - from
  {
    if from == |ts| then Returned(ts, ())
    else
      ComputeTriggerableRule(net, ps, ts[from]);
      match ComputeTriggerable(net, ps, ts[from])
      case Err(e) => Threw(ts, e)
      case Ok(t) => Refresh(net, ps, ts[from := t], from + 1)
  }

  /** The constructor: one place state per place holding its initial tokens,
      one transition state per transition with its flag computed on the
      initial marking. It throws when a flag computation throws. */
  function Init(net: PetriNet): (r: Result<State>)
    ensures r.Ok? ==> Valid(r.value) && r.value.net == net && r.value.currentIteration == 0
    ensures r.Ok? ==> r.value.placeStates == InitialPlaceStates(net)
    ensures r.Ok? ==> FlagsCurrent(r.value)
    ensures r.Err? ==> exists j :: 0 <= j < |net.transitions| && !Resolves(InitialPlaceStates(net), net.transitions[j])
  {
    var ps := InitialPlaceStates(net);
    var ts := seq(|net.transitions|, j requires 0 <= j < |net.transitions| => TransitionState(j, false));
    match Refresh(net, ps, ts, 0)
    case Threw(_, e) => Err(e)
    case Returned(ts', _) =>
      assert forall j :: 0 <= j < |ts'| && !Resolves(ps, net.transitions[j]) ==> !Enabled(net, ps, net.transitions[j]) by {
        forall j | 0 <= j < |ts'| && Enabled(net, ps, net.transitions[j]) ensures Resolves(ps, net.transitions[j]) {
          EnabledResolves(net, ps, net.transitions[j]);
        }
      }
      Ok(State(net, 0, ps, ts'))
  }

  /** `canEvolve`: false once the iteration bound is reached, whatever the
      marking; below it, true iff some cached flag is set. */
  function CanEvolve(st: State): (r: bool)
    ensures st.currentIteration >= MaxIterations ==> !r
    ensures st.currentIteration < MaxIterations ==>
      (r <==> exists j :: 0 <= j < |st.transitionStates| && st.transitionStates[j].triggerable)
  {
    if st.currentIteration >= MaxIterations then false
    else AnyFlag(st.transitionStates, 0)
  }

  function AnyFlag(ts: seq<TransitionState>, from: nat): (r: bool)
    requires from <= |ts|
    ensures r <==> exists j :: from <= j < |ts| && ts[j].triggerable
    decreases |ts| - from
  {
    if from == |ts| then false
    else if ts[from].triggerable then true
    else AnyFlag(ts, from + 1)
  }

  /** `trigger`: removes tokens along the source edges, then adds tokens
      along the destination edges, then refreshes every flag and counts the
      iteration. An unresolved reference returns false on the spot, after
      the earlier edges have already moved tokens; a place without a state
      throws. It never looks at the cached flag. */
  function Trigger(st: State, t: nat): (r: Effect<State, bool>)
    requires Valid(st) && t < |st.net.transitions|
    ensures Valid(r.state) && r.state.net == st.net
    ensures r.Returned? && r.value ==> r.state.currentIteration == st.currentIteration + 1
    ensures r.Returned? && r.value ==> Resolves(st.placeStates, st.net.transitions[t])
    ensures r.Returned? && r.value ==> r.state.placeStates == FireTokens(st.placeStates, st.net.transitions[t], t)
    ensures !(r.Returned? && r.value) ==> r.state.currentIteration == st.currentIteration
    ensures r.Returned? && !r.value ==> r.state.transitionStates == st.transitionStates
  {
    var tr := st.net.transitions[t];
    FireEffect(st.net, st.placeStates, tr, t);
    var (ps1, stop1) := Consume(st.placeStates, tr.sources);
    ConsumeEffect(st.net, st.placeStates, tr.sources);
    match stop1
    case Some(StopUnresolved) => Returned(st.(placeStates := ps1), false)
    case Some(StopNoState(_)) => Threw(st.(placeStates := ps1), NoPlaceState)
    case None =>
      var (ps2, stop2) := Produce(ps1, tr.destinations, t);
      match stop2
      case Some(StopUnresolved) => Returned(st.(placeStates := ps2), false)
      case Some(StopNoState(_)) => Threw(st.(placeStates := ps2), NoPlaceState)
      case None =>
        match Refresh(st.net, ps2, st.transitionStates, 0)
        case Threw(ts', e) => Threw(st.(placeStates := ps2, transitionStates := ts'), e)
        case Returned(ts', _) => Returned(State(st.net, st.currentIteration + 1, ps2, ts'), true)
  }

  /** Resolution depends only on how many place states there are. */
  lemma ResolvesSameLength(a: seq<PlaceState>, b: seq<PlaceState>, tr: Transition)
    requires |a| == |b|
    ensures Resolves(a, tr) <==> Resolves(b, tr)
  {
  }

  /** After construction and after every firing that completes, each cached
      flag equals the triggerability rule on the current marking: a
      transition with an unresolved reference starts unset and is never set. */
  lemma TriggerKeepsFlagsCurrent(st: State, t: nat)
    requires Valid(st) && FlagsCurrent(st) && t < |st.net.transitions|
    requires Trigger(st, t).Returned? && Trigger(st, t).value
    ensures Valid(Trigger(st, t).state) && FlagsCurrent(Trigger(st, t).state)
  {
    var st' := Trigger(st, t).state;
    forall j | 0 <= j < |st'.transitionStates|
      ensures st'.transitionStates[j].triggerable == Enabled(st.net, st'.placeStates, st.net.transitions[j])
    {
      var tr := st.net.transitions[j];
      ResolvesSameLength(st.placeStates, st'.placeStates, tr);
      if !Resolves(st'.placeStates, tr) {
        if Enabled(st.net, st.placeStates, tr) { EnabledResolves(st.net, st.placeStates, tr); }
        if Enabled(st.net, st'.placeStates, tr) { EnabledResolves(st.net, st'.placeStates, tr); }
      }
    }
  }

  /** A completed `trigger` moves exactly the tokens its edges name: each
      place loses its oldest `min(source weight, length)` tokens and gains
      its destination weight in tokens tagged with the fired transition. */
  lemma TriggerMovesTokens(st: State, t: nat)
    requires Valid(st) && t < |st.net.transitions|
    requires Trigger(st, t).Returned? && Trigger(st, t).value
    ensures forall k :: 0 <= k < |st.placeStates| ==>
      Trigger(st, t).state.placeStates[k].tokens ==
        st.placeStates[k].tokens[Min(Weight(st.net.transitions[t].sources, k), |st.placeStates[k].tokens|)..]
        + Fresh(Weight(st.net.transitions[t].destinations, k), t)
  {
    FireEffect(st.net, st.placeStates, st.net.transitions[t], t);
  }

  /** A small net: place P0 (capacity 5, two tokens) and transition T0 with
      one source edge from P0 and one destination edge whose reference did
      not resolve. */
  function DanglingNet(): PetriNet {
    PetriNet("net", [Place("P0", 5, 2, None)],
             [Transition("T0", [Edge(Resolved(0), 1)], [Edge(Unresolved, 1)], None)])
  }

  /** `trigger` is not all-or-nothing: on the net above it reports failure,
      yet P0 has already lost a token. */
  lemma TriggerNotAllOrNothing()
    ensures Init(DanglingNet()).Ok?
    ensures var st := Init(DanglingNet()).value;
      Valid(st) && Trigger(st, 0) == Returned(st.(placeStates := [PlaceState(0, [Token(None)])]), false)
      && |st.placeStates[0].tokens| == 2
  {
    var net := DanglingNet();
    var ps := InitialPlaceStates(net);
    assert |ps| == 1 && ps[0].place == 0;
    assert ps[0].tokens == [Token(None), Token(None)];
    assert ps == [PlaceState(0, [Token(None), Token(None)])];
    var tr := net.transitions[0];
    assert CheckEdges(net, ps, tr.sources, false) == Pass;
    assert CheckEdges(net, ps, tr.destinations, true) == Dangling;
    var st := Init(net).value;
    FindAligned(net, ps, 0);
    assert RemoveTokens(ps[0], 1) == PlaceState(0, [Token(None)]);
    assert tr.sources[1..] == [];
    assert ps[0 := RemoveTokens(ps[0], 1)] == [PlaceState(0, [Token(None)])];
    assert Consume(ps, tr.sources) == Consume([PlaceState(0, [Token(None)])], []);
  }

  /** `trigger` does not consult the triggerability rule: firing a
      transition whose source place holds fewer tokens than the edge weight
      still completes, emptying the place. */
  lemma TriggerIgnoresFlag()
    ensures var net := PetriNet("net", [Place("P0", 5, 1, None)], [Transition("T0", [Edge(Resolved(0), 3)], [], None)]);
      Init(net).Ok? && !Init(net).value.transitionStates[0].triggerable
      && Trigger(Init(net).value, 0).Returned? && Trigger(Init(net).value, 0).value
      && Trigger(Init(net).value, 0).state.placeStates[0].tokens == []
  {
    var net := PetriNet("net", [Place("P0", 5, 1, None)], [Transition("T0", [Edge(Resolved(0), 3)], [], None)]);
    var ps := InitialPlaceStates(net);
    assert |ps| == 1 && ps[0].place == 0;
    assert ps[0].tokens == [Token(None)];
    assert ps == [PlaceState(0, [Token(None)])];
    assert CheckEdges(net, ps, net.transitions[0].sources, false) == Fail;
    var st := Init(net).value;
    FindAligned(net, ps, 0);
    assert RemoveTokens(ps[0], 3) == PlaceState(0, []);
    assert net.transitions[0].sources[1..] == [];
    assert ps[0 := RemoveTokens(ps[0], 3)] == [PlaceState(0, [])];
    assert Consume(ps, net.transitions[0].sources) == Consume([PlaceState(0, [])], []);
    assert FireTokens(ps, net.transitions[0], 0) == [PlaceState(0, [])];
  }
}


=== FILE: diagnostics.dfy ===
/** Validation diagnostics as the language framework collects them: a
    severity, a message, and the AST node and node property the diagnostic is
    attached to. Nodes are named by their position in the net. */
module Diagnostics {

  datatype Severity = ErrorLevel | WarningLevel

  /** Which edge list of a transition an edge node belongs to. */
  datatype Side = Sources | Destinations

  datatype Node =
    | NetNode
    | PlaceNode(place: nat)
    | TransitionNode(transition: nat)
    | EdgeNode(transition: nat, side: Side, edge: nat)
    | ArcNode(arc: nat)

  datatype Diagnostic = Diagnostic(severity: Severity, message: string, node: Node, property: string)

  /** How many of `ds` are attached to node `n`. */
  function Reported(ds: seq<Diagnostic>, n: Node): nat
  {
    if |ds| == 0 then 0
    else (if ds[0].node == n then 1 else 0) + Reported(ds[1..], n)
  }

  lemma {:induction false} ReportedAppend(a: seq<Diagnostic>, b: seq<Diagnostic>, n: Node)
    ensures Reported(a + b, n) == Reported(a, n) + Reported(b, n)
  {
    if |a| == 0 {
      assert a + b == b;
    } else {
      assert (a + b)[1..] == a[1..] + b;
      ReportedAppend(a[1..], b, n);
    }
  }

  /** A node is reported exactly when some diagnostic is attached to it. */
  lemma {:induction false} ReportedPositive(ds: seq<Diagnostic>, n: Node)
    ensures Reported(ds, n) > 0 <==> exists d :: d in ds && d.node == n
  {
    if |ds| > 0 {
      ReportedPositive(ds[1..], n);
      assert forall d :: d in ds <==> d == ds[0] || d in ds[1..];
    }
  }
}

=== FILE: locator.dfy ===
/** Conversion of 0-based concrete-syntax ranges into the 1-based line
    numbers of a protocol `Location` (src/server/locator.ts). */
module Locator {
  import opened Outcomes
  import opened Ast

  datatype Location = Location(line: int, column: int, endLine: int, endColumn: int)

  /** The range a protocol location was computed from: lines go back to
      0-based, and the end column loses the one the locator adds. */
  function ToRange(loc: Location): Range
    requires loc.line >= 1 && loc.endLine >= 1 && loc.column >= 0 && loc.endColumn >= 1
  {
    Range(Position(loc.line - 1, loc.column), Position(loc.endLine - 1, loc.endColumn - 1))
  }

  /** `AstNodeLocator.getLocation`: no location for a node without a CST node;
      otherwise 1-based lines, the raw start column, and an end column one
      past the end character. */
  function GetLocation(cst: Option<Range>): (r: Option<Location>)
    ensures r.None? <==> cst.None?
    ensures r.Some? ==> r.value.line >= 1 && r.value.endLine >= 1
    ensures r.Some? ==> r.value.column >= 0 && r.value.endColumn >= 1
    ensures r.Some? ==> ToRange(r.value) == cst.value
  {
    match cst
    case None => None
    case Some(range) =>
      Some(Location(range.start.line + 1, range.start.character,
                    range.end.line + 1, range.end.character + 1))
  }

  /** A range whose start line is not after its end line gives a location
      whose first line is not after its last. */
  lemma LinesOrdered(range: Range)
    requires range.start.line <= range.end.line
    ensures GetLocation(Some(range)).value.line <= GetLocation(Some(range)).value.endLine
  {
  }

  /** Two ranges get the same location only if they are the same range. */
  lemma GetLocationInjective(a: Range, b: Range)
    requires GetLocation(Some(a)) == GetLocation(Some(b))
    ensures a == b
  {
    assert ToRange(GetLocation(Some(a)).value) == a;
  }
}

=== FILE: marking.dfy ===
/** Place and token state shared by the two firing engines that use the
    current grammar (src/server/runtimeState.ts and src/runtimeState.ts
    declare identical `PlaceState`, `TokenState` and
    `findPlaceStateFromPlace`). A marking is the list of place states; token
    lists are kept in arrival order. */
module Marking {
  import opened Outcomes
  import opened Ast

  /** A token, tagged with the transition (by index) that produced it;
      `None` for a token present since initialisation. */
  datatype Token = Token(source: Option<nat>)

  /** The runtime state of the place at index `place`. */
  datatype PlaceState = PlaceState(place: nat, tokens: seq<Token>)

  /** Place state `k` belongs to place `k`, for every place of the net: the
      shape every engine constructor builds and every operation keeps. */
  ghost predicate Aligned(net: PetriNet, ps: seq<PlaceState>) {
    |ps| == |net.places| && forall k :: 0 <= k < |ps| ==> ps[k].place == k
  }

  /** Every place holds at most its capacity. */
  ghost predicate Bounded(net: PetriNet, ps: seq<PlaceState>) {
    Aligned(net, ps) && forall k :: 0 <= k < |ps| ==> |ps[k].tokens| <= net.places[k].maxCapacity
  }

  /** `findPlaceStateFromPlace`: position of the first state of place `p`,
      or `None` when no state belongs to it (see `FindFirst`). */
  function FindPlaceState(p: nat, ps: seq<PlaceState>): (r: Option<nat>)
    ensures r.Some? ==> r.value < |ps| && ps[r.value].place == p
  {
    FindFrom(p, ps, 0)
  }

  function FindFrom(p: nat, ps: seq<PlaceState>, from: nat): (r: Option<nat>)
    requires from <= |ps|
    ensures r.Some? ==> from <= r.value < |ps| && ps[r.value].place == p
    decreases |ps| - from
  {
    if from == |ps| then None
    else if ps[from].place == p then Some(from)
    else FindFrom(p, ps, from + 1)
  }

  /** The search from `from` finds the first state of place `p` at or after
      `from`, and finds nothing exactly when there is none. */
  lemma {:induction false} FindFromFirst(p: nat, ps: seq<PlaceState>, from: nat)
    requires from <= |ps|
    ensures FindFrom(p, ps, from).Some? ==> forall k :: from <= k < FindFrom(p, ps, from).value ==> ps[k].place != p
    ensures FindFrom(p, ps, from).None? <==> forall k :: from <= k < |ps| ==> ps[k].place != p
    decreases |ps| - from
  {
    if from < |ps| && ps[from].place != p {
      FindFromFirst(p, ps, from + 1);
    }
  }

  /** `findPlaceStateFromPlace` returns the first state of place `p`, and
      `None` exactly when no state belongs to it. */
  lemma FindFirst(p: nat, ps: seq<PlaceState>)
    ensures FindPlaceState(p, ps).Some? ==> forall k :: 0 <= k < FindPlaceState(p, ps).value ==> ps[k].place != p
    ensures FindPlaceState(p, ps).None? <==> forall k :: 0 <= k < |ps| ==> ps[k].place != p
  {
    FindFromFirst(p, ps, 0);
  }

  /** In an aligned marking the state of place `p` is at position `p`. */
  lemma FindAligned(net: PetriNet, ps: seq<PlaceState>, p: nat)
    requires Aligned(net, ps)
    ensures FindPlaceState(p, ps) == if p < |ps| then Some(p) else None
  {
    FindFirst(p, ps);
    if p < |ps| {
      assert ps[p].place == p;
    }
  }

  /** `n` tokens produced by transition `t`; a negative count produces none. */
  function Fresh(n: int, t: nat): (r: seq<Token>)
    ensures |r| == Max(n, 0)
    ensures forall i :: 0 <= i < |r| ==> r[i].source == Some(t)
  {
    seq(Max(n, 0), _ => Token(Some(t)))
  }

  /** `PlaceState.addTokens`: appends `n` tokens tagged with `t`. */
  function AddTokens(s: PlaceState, n: int, t: nat): (r: PlaceState)
    ensures r.place == s.place
    ensures |r.tokens| == |s.tokens| + Max(n, 0)
    ensures r.tokens[..|s.tokens|] == s.tokens
    ensures forall i :: |s.tokens| <= i < |r.tokens| ==> r.tokens[i].source == Some(t)
  {
    PlaceState(s.place, s.tokens + Fresh(n, t))
  }

  /** `PlaceState.removeTokens` (`splice(0, n)`): drops the oldest
      `min(n, length)` tokens; a negative count drops none. */
  function RemoveTokens(s: PlaceState, n: int): (r: PlaceState)
    ensures r.place == s.place
    ensures |r.tokens| == Max(|s.tokens| - Max(n, 0), 0)
    ensures forall i :: 0 <= i < |r.tokens| ==> r.tokens[i] == s.tokens[i + |s.tokens| - |r.tokens|]
  {
    PlaceState(s.place, s.tokens[Min(Max(n, 0), |s.tokens|)..])
  }

  /** The initial marking: place `k` holds `initialTokenNumber` untagged
      tokens (none when that number is negative). */
  function InitialPlaceStates(net: PetriNet): (r: seq<PlaceState>)
    ensures Aligned(net, r)
    ensures forall k :: 0 <= k < |r| ==> |r[k].tokens| == Max(net.places[k].initialTokenNumber, 0)
    ensures forall k, i :: 0 <= k < |r| && 0 <= i < |r[k].tokens| ==> r[k].tokens[i].source == None
  {
    seq(|net.places|, k requires 0 <= k < |net.places| =>
      PlaceState(k, seq(Max(net.places[k].initialTokenNumber, 0), _ => Token(None))))
  }

  // ---------------------------------------------------------------------
  // The triggerability rule

  /** A source edge lets the transition fire: its place resolves, has a
      state, and holds at least `weight` tokens. */
  ghost predicate SourceOk(ps: seq<PlaceState>, e: Edge) {
    e.place.Resolved? && e.place.index < |ps| && e.weight <= |ps[e.place.index].tokens|
  }

  /** A destination edge lets the transition fire: its place resolves, has a
      state, and has room for `weight` more tokens. */
  ghost predicate DestinationOk(net: PetriNet, ps: seq<PlaceState>, e: Edge)
    requires Aligned(net, ps)
  {
    && e.place.Resolved? && e.place.index < |ps|
    && |ps[e.place.index].tokens| + e.weight <= net.places[e.place.index].maxCapacity
  }

  /** Reference definition of "triggerable": every check of every edge,
      all measured on the same (pre-firing) marking. */
  ghost predicate Enabled(net: PetriNet, ps: seq<PlaceState>, tr: Transition)
    requires Aligned(net, ps)
  {
    && (forall i :: 0 <= i < |tr.sources| ==> SourceOk(ps, tr.sources[i]))
    && (forall i :: 0 <= i < |tr.destinations| ==> DestinationOk(net, ps, tr.destinations[i]))
  }

  // ---------------------------------------------------------------------
  // Moving tokens along a list of edges

  /** Why a walk over the edges stopped before the end. */
  datatype Stop = StopUnresolved | StopNoState(place: nat)

  /** The source loop of a firing: removes `weight` tokens from each source
      place in turn, stopping at the first edge whose place does not resolve
      or has no state; the removals already done stay done. */
  function Consume(ps: seq<PlaceState>, edges: seq<Edge>): (r: (seq<PlaceState>, Option<Stop>))
    ensures |r.0| == |ps|
    ensures forall k :: 0 <= k < |ps| ==> r.0[k].place == ps[k].place
    decreases |edges|
  {
    if |edges| == 0 then (ps, None)
    else match edges[0].place
      case Unresolved => (ps, Some(StopUnresolved))
      case Resolved(p) =>
        match FindPlaceState(p, ps)
        case None => (ps, Some(StopNoState(p)))
        case Some(k) => Consume(ps[k := RemoveTokens(ps[k], edges[0].weight)], edges[1..])
  }

  /** The destination loop of a firing: appends `weight` tokens tagged `t`
      to each destination place in turn, with the same stopping rule. */
  function Produce(ps: seq<PlaceState>, edges: seq<Edge>, t: nat): (r: (seq<PlaceState>, Option<Stop>))
    ensures |r.0| == |ps|
    ensures forall k :: 0 <= k < |ps| ==> r.0[k].place == ps[k].place
    decreases |edges|
  {
    if |edges| == 0 then (ps, None)
    else match edges[0].place
      case Unresolved => (ps, Some(StopUnresolved))
      case Resolved(p) =>
        match FindPlaceState(p, ps)
        case None => (ps, Some(StopNoState(p)))
        case Some(k) => Produce(ps[k := AddTokens(ps[k], edges[0].weight, t)], edges[1..], t)
  }

  /** Total (non-negative) weight of the edges that point at place `p`. */
  function Weight(edges: seq<Edge>, p: nat): nat
    decreases |edges|
  {
    if |edges| == 0 then 0
    else (if edges[0].place == Resolved(p) then Max(edges[0].weight, 0) else 0) + Weight(edges[1..], p)
  }

  /** Every edge points at a place that has a state. */
  ghost predicate AllResolved(ps: seq<PlaceState>, edges: seq<Edge>) {
    forall i :: 0 <= i < |edges| ==> edges[i].place.Resolved? && edges[i].place.index < |ps|
  }

  lemma SliceSlice<T>(s: seq<T>, a: nat, b: nat)
    requires a <= |s| && b <= |s| - a
    ensures s[a..][b..] == s[a + b..]
  {
  }

  /** A list of edges resolves exactly when its first edge does and the
      rest of it resolves; only the number of place states matters. */
  lemma AllResolvedCons(ps: seq<PlaceState>, ps1: seq<PlaceState>, edges: seq<Edge>)
    requires |edges| > 0 && |ps1| == |ps|
    ensures AllResolved(ps, edges) <==>
      edges[0].place.Resolved? && edges[0].place.index < |ps| && AllResolved(ps1, edges[1..])
  {
    if edges[0].place.Resolved? && edges[0].place.index < |ps| && AllResolved(ps1, edges[1..]) {
      forall i | 0 <= i < |edges| ensures edges[i].place.Resolved? && edges[i].place.index < |ps| {
        if i > 0 { assert edges[i] == edges[1..][i - 1]; }
      }
    }
  }

  /** The walk over source edges completes exactly when every edge resolves
      to a place with a state. */
  lemma {:induction false} ConsumeCompletes(net: PetriNet, ps: seq<PlaceState>, edges: seq<Edge>)
    requires Aligned(net, ps)
    ensures Consume(ps, edges).1.None? <==> AllResolved(ps, edges)
    decreases |edges|
  {
    if |edges| > 0 {
      match edges[0].place
      case Unresolved =>
      case Resolved(p) =>
        FindAligned(net, ps, p);
        var ps1 := if p < |ps| then ps[p := RemoveTokens(ps[p], edges[0].weight)] else ps;
        AllResolvedCons(ps, ps1, edges);
        if p < |ps| {
          assert Aligned(net, ps1);
          ConsumeCompletes(net, ps1, edges[1..]);
        }
    }
  }

  /** A completed walk over source edges leaves place `k` without its
      oldest `min(total weight, length)` tokens. */
  lemma {:induction false} ConsumeTokens(net: PetriNet, ps: seq<PlaceState>, edges: seq<Edge>, k: nat)
    requires Aligned(net, ps) && Consume(ps, edges).1.None? && k < |ps|
    ensures Consume(ps, edges).0[k].tokens == ps[k].tokens[Min(Weight(edges, k), |ps[k].tokens|)..]
    decreases |edges|
  {
    if |edges| > 0 {
      assert edges[0].place.Resolved?;
      var p := edges[0].place.index;
      FindAligned(net, ps, p);
      var ps1 := ps[p := RemoveTokens(ps[p], edges[0].weight)];
      var rest := edges[1..];
      assert Consume(ps, edges) == Consume(ps1, rest);
      assert Weight(edges, k) == (if k == p then Max(edges[0].weight, 0) else 0) + Weight(rest, k);
      assert Aligned(net, ps1);
      ConsumeTokens(net, ps1, rest, k);
      if k == p {
        var len := |ps[k].tokens|;
        var a := Min(Max(edges[0].weight, 0), len);
        assert ps1[k].tokens == ps[k].tokens[a..];
        SliceSlice(ps[k].tokens, a, Min(Weight(rest, k), len - a));
        assert a + Min(Weight(rest, k), len - a) == Min(Weight(edges, k), len);
      } else {
        assert ps1[k] == ps[k];
      }
    }
  }

  /** The walk over source edges completes exactly when every edge resolves
      to a place with a state, and then each place has lost its oldest
      `min(total weight, length)` tokens. */
  lemma ConsumeEffect(net: PetriNet, ps: seq<PlaceState>, edges: seq<Edge>)
    requires Aligned(net, ps)
    ensures Consume(ps, edges).1.None? <==> AllResolved(ps, edges)
    ensures Consume(ps, edges).1.None? ==>
      forall k :: 0 <= k < |ps| ==>
        Consume(ps, edges).0[k].tokens == ps[k].tokens[Min(Weight(edges, k), |ps[k].tokens|)..]
  {
    ConsumeCompletes(net, ps, edges);
    if Consume(ps, edges).1.None? {
      forall k | 0 <= k < |ps|
        ensures Consume(ps, edges).0[k].tokens == ps[k].tokens[Min(Weight(edges, k), |ps[k].tokens|)..]
      {
        ConsumeTokens(net, ps, edges, k);
      }
    }
  }

  /** The walk over destination edges completes exactly when every edge
      resolves to a place with a state. */
  lemma {:induction false} ProduceCompletes(net: PetriNet, ps: seq<PlaceState>, edges: seq<Edge>, t: nat)
    requires Aligned(net, ps)
    ensures Produce(ps, edges, t).1.None? <==> AllResolved(ps, edges)
    decreases |edges|
  {
    if |edges| > 0 {
      match edges[0].place
      case Unresolved =>
      case Resolved(p) =>
        FindAligned(net, ps, p);
        var ps1 := if p < |ps| then ps[p := AddTokens(ps[p], edges[0].weight, t)] else ps;
        AllResolvedCons(ps, ps1, edges);
        if p < |ps| {
          assert Aligned(net, ps1);
          ProduceCompletes(net, ps1, edges[1..], t);
        }
    }
  }

  /** A completed walk over destination edges appends to place `k` its
      total weight in tokens tagged `t`, after the tokens it had. */
  lemma {:induction false} ProduceTokens(net: PetriNet, ps: seq<PlaceState>, edges: seq<Edge>, t: nat, k: nat)
    requires Aligned(net, ps) && Produce(ps, edges, t).1.None? && k < |ps|
    ensures Produce(ps, edges, t).0[k].tokens == ps[k].tokens + Fresh(Weight(edges, k), t)
    decreases |edges|
  {
    if |edges| == 0 {
      assert ps[k].tokens == ps[k].tokens + Fresh(0, t);
    } else {
      var p := edges[0].place.index;
      FindAligned(net, ps, p);
      var ps1 := ps[p := AddTokens(ps[p], edges[0].weight, t)];
      assert Aligned(net, ps1);
      ProduceTokens(net, ps1, edges[1..], t, k);
      if k == p {
        var a := Max(edges[0].weight, 0);
        var b := Weight(edges[1..], k);
        assert Fresh(a, t) + Fresh(b, t) == Fresh(a + b, t);
      } else {
        assert ps1[k] == ps[k];
      }
    }
  }

  /** The walk over destination edges completes exactly when every edge
      resolves to a place with a state, and then each place has gained its
      total weight in tokens tagged `t`, appended after the tokens it had. */
  lemma ProduceEffect(net: PetriNet, ps: seq<PlaceState>, edges: seq<Edge>, t: nat)
    requires Aligned(net, ps)
    ensures Produce(ps, edges, t).1.None? <==> AllResolved(ps, edges)
    ensures Produce(ps, edges, t).1.None? ==>
      forall k :: 0 <= k < |ps| ==> Produce(ps, edges, t).0[k].tokens == ps[k].tokens + Fresh(Weight(edges, k), t)
  {
    ProduceCompletes(net, ps, edges, t);
    if Produce(ps, edges, t).1.None? {
      forall k | 0 <= k < |ps| ensures Produce(ps, edges, t).0[k].tokens == ps[k].tokens + Fresh(Weight(edges, k), t) {
        ProduceTokens(net, ps, edges, t, k);
      }
    }
  }

  // ---------------------------------------------------------------------
  // Checking a list of edges against the triggerability rule

  /** What a walk over edges that checks each one concludes. */
  datatype Verdict = Pass | Fail | Dangling | Stateless(place: nat)

  ghost predicate EdgeOk(net: PetriNet, ps: seq<PlaceState>, e: Edge, isDestination: bool)
    requires Aligned(net, ps)
  {
    if isDestination then DestinationOk(net, ps, e) else SourceOk(ps, e)
  }

  /** The edge loop of the triggerability test: looks each edge's place up,
      and stops at the first edge that is unresolved, has no state, or fails
      its count check (at least `weight` tokens for a source, room for
      `weight` more for a destination). */
  function CheckEdges(net: PetriNet, ps: seq<PlaceState>, edges: seq<Edge>, isDestination: bool): (r: Verdict)
    requires Aligned(net, ps)
    ensures |edges| == 0 ==> r.Pass?
    decreases |edges|
  {
    if |edges| == 0 then Pass
    else match edges[0].place
      case Unresolved => Dangling
      case Resolved(p) =>
        match FindPlaceState(p, ps)
        case None => Stateless(p)
        case Some(k) =>
          var count := |ps[k].tokens|;
          var fails := if isDestination then count + edges[0].weight > net.places[ps[k].place].maxCapacity
                       else edges[0].weight > count;
          if fails then Fail
          else CheckEdges(net, ps, edges[1..], isDestination)
  }

  /** The verdict of the edge loop is decided by the first edge that is not
      fine: a failed count check, an unresolved reference, or a place
      without a state, in that edge's position, all earlier edges passing. */
  lemma {:induction false} CheckEdgesFirstBad(net: PetriNet, ps: seq<PlaceState>, edges: seq<Edge>, isDestination: bool)
    requires Aligned(net, ps)
    ensures CheckEdges(net, ps, edges, isDestination).Pass? <==> forall i :: 0 <= i < |edges| ==> EdgeOk(net, ps, edges[i], isDestination)
    ensures CheckEdges(net, ps, edges, isDestination).Fail? ==>
      exists i :: (0 <= i < |edges| && edges[i].place.Resolved? && edges[i].place.index < |ps|
        && !EdgeOk(net, ps, edges[i], isDestination)
        && forall j :: 0 <= j < i ==> EdgeOk(net, ps, edges[j], isDestination))
    ensures CheckEdges(net, ps, edges, isDestination).Dangling? ==>
      exists i :: (0 <= i < |edges| && edges[i].place.Unresolved?
        && forall j :: 0 <= j < i ==> EdgeOk(net, ps, edges[j], isDestination))
    ensures CheckEdges(net, ps, edges, isDestination).Stateless? ==>
      var p := CheckEdges(net, ps, edges, isDestination).place;
      p >= |ps| && exists i :: (0 <= i < |edges| && edges[i].place == Resolved(p)
        && forall j :: 0 <= j < i ==> EdgeOk(net, ps, edges[j], isDestination))
    ensures AllResolved(ps, edges) ==> CheckEdges(net, ps, edges, isDestination) in {Pass, Fail}
    decreases |edges|
  {
    if |edges| > 0 {
      var rest := edges[1..];
      assert forall i :: 0 <= i < |rest| ==> rest[i] == edges[i + 1];
      match edges[0].place
      case Unresolved =>
        assert edges[0].place.Unresolved?;
      case Resolved(p) =>
        FindAligned(net, ps, p);
        if p < |ps| {
          if EdgeOk(net, ps, edges[0], isDestination) {
            CheckEdgesFirstBad(net, ps, rest, isDestination);
            var r := CheckEdges(net, ps, rest, isDestination);
            if r.Dangling? {
              var i :| 0 <= i < |rest| && rest[i].place.Unresolved?
                && forall j :: 0 <= j < i ==> EdgeOk(net, ps, rest[j], isDestination);
              assert edges[i + 1].place.Unresolved?;
              assert forall j :: 0 <= j < i + 1 ==> EdgeOk(net, ps, edges[j], isDestination) by {
                forall j | 0 <= j < i + 1 ensures EdgeOk(net, ps, edges[j], isDestination) {
                  if j > 0 { assert edges[j] == rest[j - 1]; }
                }
              }
            } else if r.Stateless? {
              var i :| 0 <= i < |rest| && rest[i].place == Resolved(r.place)
                && forall j :: 0 <= j < i ==> EdgeOk(net, ps, rest[j], isDestination);
              assert edges[i + 1].place == Resolved(r.place);
              assert forall j :: 0 <= j < i + 1 ==> EdgeOk(net, ps, edges[j], isDestination) by {
                forall j | 0 <= j < i + 1 ensures EdgeOk(net, ps, edges[j], isDestination) {
                  if j > 0 { assert edges[j] == rest[j - 1]; }
                }
              }
            } else if r.Fail? {
              var i :| 0 <= i < |rest| && rest[i].place.Resolved? && rest[i].place.index < |ps|
                && !EdgeOk(net, ps, rest[i], isDestination)
                && forall j :: 0 <= j < i ==> EdgeOk(net, ps, rest[j], isDestination);
              assert edges[i + 1] == rest[i];
              assert forall j :: 0 <= j < i + 1 ==> EdgeOk(net, ps, edges[j], isDestination) by {
                forall j | 0 <= j < i + 1 ensures EdgeOk(net, ps, edges[j], isDestination) {
                  if j > 0 { assert edges[j] == rest[j - 1]; }
                }
              }
            }
          }
        } else {
          assert edges[0].place == Resolved(p);
        }
    }
  }

  // ---------------------------------------------------------------------
  // Firing

  /** The token movement of a firing that completes: the source loop, then
      the destination loop on the marking the source loop left. */
  function FireTokens(ps: seq<PlaceState>, tr: Transition, t: nat): seq<PlaceState> {
    Produce(Consume(ps, tr.sources).0, tr.destinations, t).0
  }

  /** Both edge loops complete exactly when every edge of the transition
      resolves to a place with a state; then each place has lost its oldest
      `min(source weight, length)` tokens and gained its destination weight
      in tokens tagged `t`. */
  lemma FireEffect(net: PetriNet, ps: seq<PlaceState>, tr: Transition, t: nat)
    requires Aligned(net, ps)
    ensures Consume(ps, tr.sources).1.None? && Produce(Consume(ps, tr.sources).0, tr.destinations, t).1.None?
      <==> AllResolved(ps, tr.sources) && AllResolved(ps, tr.destinations)
    ensures AllResolved(ps, tr.sources) && AllResolved(ps, tr.destinations) ==>
      Aligned(net, FireTokens(ps, tr, t)) &&
      forall k :: 0 <= k < |ps| ==>
        FireTokens(ps, tr, t)[k].tokens ==
          ps[k].tokens[Min(Weight(tr.sources, k), |ps[k].tokens|)..] + Fresh(Weight(tr.destinations, k), t)
  {
    ConsumeEffect(net, ps, tr.sources);
    var ps1 := Consume(ps, tr.sources).0;
    assert Aligned(net, ps1);
    ProduceEffect(net, ps1, tr.destinations, t);
  }

  /** No two destination edges point at the same place. */
  ghost predicate DistinctPlaces(edges: seq<Edge>) {
    forall i, j :: 0 <= i < j < |edges| && edges[i].place.Resolved? ==> edges[i].place != edges[j].place
  }

  lemma {:induction false} WeightOfAbsent(edges: seq<Edge>, p: nat)
    requires forall i :: 0 <= i < |edges| ==> edges[i].place != Resolved(p)
    ensures Weight(edges, p) == 0
    decreases |edges|
  {
    if |edges| > 0 {
      assert forall i :: 0 <= i < |edges| - 1 ==> edges[1..][i] == edges[i + 1];
      WeightOfAbsent(edges[1..], p);
    }
  }

  /** With distinct places, the weight a place receives is the weight of the
      one edge that points at it. */
  lemma {:induction false} WeightOfDistinct(edges: seq<Edge>, p: nat)
    requires DistinctPlaces(edges)
    ensures Weight(edges, p) > 0 ==>
      exists i :: 0 <= i < |edges| && edges[i].place == Resolved(p) && Weight(edges, p) == edges[i].weight
    decreases |edges|
  {
    if |edges| > 0 {
      var rest := edges[1..];
      assert forall i :: 0 <= i < |rest| ==> rest[i] == edges[i + 1];
      if edges[0].place == Resolved(p) {
        WeightOfAbsent(rest, p);
        if Weight(edges, p) > 0 {
          assert edges[0].place == Resolved(p) && Weight(edges, p) == edges[0].weight;
        }
      } else {
        WeightOfDistinct(rest, p);
        if Weight(edges, p) > 0 {
          var i :| 0 <= i < |rest| && rest[i].place == Resolved(p) && Weight(rest, p) == rest[i].weight;
          assert edges[i + 1].place == Resolved(p) && Weight(edges, p) == edges[i + 1].weight;
        }
      }
    }
  }

  /** Firing an enabled transition keeps every place within its capacity,
      provided no place appears on two of its destination edges: each
      destination edge is checked on its own against the pre-firing count. */
  lemma FiringKeepsCapacity(net: PetriNet, ps: seq<PlaceState>, tr: Transition, t: nat)
    requires Bounded(net, ps) && Enabled(net, ps, tr)
    requires DistinctPlaces(tr.destinations)
    ensures Bounded(net, FireTokens(ps, tr, t))
  {
    assert AllResolved(ps, tr.sources) && AllResolved(ps, tr.destinations) by {
      forall i | 0 <= i < |tr.sources| ensures SourceOk(ps, tr.sources[i]) { }
      forall i | 0 <= i < |tr.destinations| ensures DestinationOk(net, ps, tr.destinations[i]) { }
    }
    FireEffect(net, ps, tr, t);
    var ps' := FireTokens(ps, tr, t);
    forall k | 0 <= k < |ps'|
      ensures |ps'[k].tokens| <= net.places[k].maxCapacity
    {
      var len := |ps[k].tokens|;
      var supply := Weight(tr.destinations, k);
      assert |ps'[k].tokens| <= len + supply;
      WeightOfDistinct(tr.destinations, k);
      if supply > 0 {
        var i :| 0 <= i < |tr.destinations| && tr.destinations[i].place == Resolved(k) && supply == tr.destinations[i].weight;
        assert DestinationOk(net, ps, tr.destinations[i]);
      }
    }
  }
}

=== FILE: name_groups.dfy ===
/** Duplicate-name detection as both validators perform it: every symbol is
    added to a multimap keyed by its name, the groups are visited in the order
    their names were first added, and each member of a group with more than
    one member is reported once, with the group's name in the message.
    Inside the grouping, symbols are identified by their position. */
module NameGroups {
  import opened Diagnostics

  /** A named AST element and the node its diagnostics attach to. */
  datatype Symbol = Symbol(name: string, node: Node)

  predicate Distinct<T(==)>(s: seq<T>)
  {
    forall a, b :: 0 <= a < b < |s| ==> s[a] != s[b]
  }

  function Names(syms: seq<Symbol>): (names: seq<string>)
    ensures |names| == |syms|
    ensures forall j :: 0 <= j < |syms| ==> names[j] == syms[j].name
  {
    seq(|syms|, j requires 0 <= j < |syms| => syms[j].name)
  }

  /** Position `i` carries a name that another position carries too. */
  predicate Clashes(names: seq<string>, i: nat)
  {
    i < |names| && exists j :: 0 <= j < |names| && j != i && names[j] == names[i]
  }

  // ---------------------------------------------------------------------
  // The multimap
  // ---------------------------------------------------------------------

  /** The group of `k`, restricted to positions at or after `from`, in
      insertion order. */
  function GroupFrom(names: seq<string>, k: string, from: nat): seq<nat>
    decreases |names| - from
  {
    if from >= |names| then []
    else (if names[from] == k then [from] else []) + GroupFrom(names, k, from + 1)
  }

  /** A group holds each position carrying its name once, and nothing else. */
  lemma {:induction false} GroupFromMembers(names: seq<string>, k: string, from: nat, e: nat)
    ensures multiset(GroupFrom(names, k, from))[e] == if from <= e < |names| && names[e] == k then 1 else 0
    decreases |names| - from
  {
    if from < |names| {
      var head: seq<nat> := if names[from] == k then [from] else [];
      var rest := GroupFrom(names, k, from + 1);
      GroupFromMembers(names, k, from + 1, e);
      assert GroupFrom(names, k, from) == head + rest;
      assert multiset(head + rest) == multiset(head) + multiset(rest);
    }
  }

  /** The keys of the multimap: each name once, in order of first insertion. */
  function Keys(names: seq<string>): seq<string>
  {
    if |names| == 0 then []
    else
      var ks := Keys(names[..|names| - 1]);
      if names[|names| - 1] in ks then ks else ks + [names[|names| - 1]]
  }

  lemma {:induction false} KeysCover(names: seq<string>)
    ensures forall k :: k in Keys(names) <==> k in names
    ensures Distinct(Keys(names))
  {
    if |names| > 0 {
      var prefix := names[..|names| - 1];
      KeysCover(prefix);
      assert names == prefix + [names[|names| - 1]];
    }
  }

  /** Membership in a group, as a plain fact about positions. */
  lemma InGroup(names: seq<string>, k: string, e: nat)
    ensures e in GroupFrom(names, k, 0) <==> e < |names| && names[e] == k
  {
    GroupFromMembers(names, k, 0, e);
  }

  /** A group with two members starts with two different positions. */
  lemma GroupHeadsDiffer(names: seq<string>, k: string)
    requires |GroupFrom(names, k, 0)| > 1
    ensures GroupFrom(names, k, 0)[0] != GroupFrom(names, k, 0)[1]
  {
    var g := GroupFrom(names, k, 0);
    GroupFromMembers(names, k, 0, g[0]);
    assert g == [g[0], g[1]] + g[2..];
    assert multiset(g)[g[0]] >= if g[0] == g[1] then 2 else 1;
  }

  /** A group has more than one member exactly when its names clash. */
  lemma GroupSize(names: seq<string>, i: nat)
    requires i < |names|
    ensures |GroupFrom(names, names[i], 0)| > 1 <==> Clashes(names, i)
  {
    var g := GroupFrom(names, names[i], 0);
    InGroup(names, names[i], i);
    if Clashes(names, i) {
      var j :| 0 <= j < |names| && j != i && names[j] == names[i];
      InGroup(names, names[i], j);
    }
    if |g| > 1 {
      GroupHeadsDiffer(names, names[i]);
      var j := if g[0] != i then g[0] else g[1];
      assert j in g;
      InGroup(names, names[i], j);
      assert j != i && names[j] == names[i];
    }
  }

  // ---------------------------------------------------------------------
  // The report
  // ---------------------------------------------------------------------

  /** The positions reported when the groups of `ks` are visited in order. */
  function Clashing(names: seq<string>, ks: seq<string>): seq<nat>
  {
    if |ks| == 0 then []
    else
      var g := GroupFrom(names, ks[0], 0);
      (if |g| > 1 then g else []) + Clashing(names, ks[1..])
  }

  function DuplicateReport(names: seq<string>): seq<nat>
  {
    Clashing(names, Keys(names))
  }

  lemma {:induction false} ClashingCount(names: seq<string>, ks: seq<string>, i: nat)
    requires Distinct(ks)
    ensures multiset(Clashing(names, ks))[i] == if Clashes(names, i) && names[i] in ks then 1 else 0
  {
    if |ks| > 0 {
      ClashingCount(names, ks[1..], i);
      GroupFromMembers(names, ks[0], 0, i);
      if i < |names| && names[i] == ks[0] {
        GroupSize(names, i);
        assert names[i] !in ks[1..];
      }
    }
  }

  /** Every position whose name clashes is reported exactly once, every
      other position never. */
  lemma DuplicateReportCount(names: seq<string>, i: nat)
    ensures multiset(DuplicateReport(names))[i] == if Clashes(names, i) then 1 else 0
  {
    KeysCover(names);
    ClashingCount(names, Keys(names), i);
  }

  /** Nothing is reported exactly when all names are distinct. */
  lemma DuplicateReportEmpty(names: seq<string>)
    ensures DuplicateReport(names) == [] <==> Distinct(names)
  {
    var r := DuplicateReport(names);
    if r != [] {
      DuplicateReportCount(names, r[0]);
      var j :| 0 <= j < |names| && j != r[0] && names[j] == names[r[0]];
      if j < r[0] {
        assert !Distinct(names) by { assert names[j] == names[r[0]]; }
      } else {
        assert !Distinct(names) by { assert names[r[0]] == names[j]; }
      }
    }
    if !Distinct(names) {
      var a, b :| 0 <= a < b < |names| && names[a] == names[b];
      DuplicateReportCount(names, a);
      assert Clashes(names, a);
    }
  }

  // ---------------------------------------------------------------------
  // Diagnostics
  // ---------------------------------------------------------------------

  function DuplicateError(s: Symbol): Diagnostic
  {
    Diagnostic(ErrorLevel, "Duplicate identifier name: " + s.name, s.node, "name")
  }

  /** The error for each position of `idx`, in order. */
  function ErrorsFor(syms: seq<Symbol>, idx: seq<nat>): seq<Diagnostic>
  {
    if |idx| == 0 then []
    else (if idx[0] < |syms| then [DuplicateError(syms[idx[0]])] else []) + ErrorsFor(syms, idx[1..])
  }

  /** The duplicate-name errors for `syms`: the multimap's groups in key
      order, each clashing group's members in insertion order. */
  function DuplicateErrors(syms: seq<Symbol>): seq<Diagnostic>
  {
    ErrorsFor(syms, DuplicateReport(Names(syms)))
  }

  predicate DistinctNodes(syms: seq<Symbol>)
  {
    forall a, b :: 0 <= a < b < |syms| ==> syms[a].node != syms[b].node
  }

  lemma {:induction false} ErrorsForReported(syms: seq<Symbol>, idx: seq<nat>, i: nat)
    requires DistinctNodes(syms) && i < |syms|
    ensures Reported(ErrorsFor(syms, idx), syms[i].node) == multiset(idx)[i]
  {
    if |idx| > 0 {
      ErrorsForReported(syms, idx[1..], i);
      assert idx == [idx[0]] + idx[1..];
      ReportedAppend(if idx[0] < |syms| then [DuplicateError(syms[idx[0]])] else [], ErrorsFor(syms, idx[1..]), syms[i].node);
    }
  }

  lemma {:induction false} ErrorsForShape(syms: seq<Symbol>, idx: seq<nat>, d: Diagnostic)
    requires d in ErrorsFor(syms, idx)
    ensures exists e :: e in idx && e < |syms| && d == DuplicateError(syms[e])
  {
    if |idx| > 0 && !(idx[0] < |syms| && d == DuplicateError(syms[idx[0]])) {
      ErrorsForShape(syms, idx[1..], d);
      var e :| e in idx[1..] && e < |syms| && d == DuplicateError(syms[e]);
      assert e in idx;
    }
  }

  /** Each symbol whose name another symbol shares gets exactly one
      duplicate error, every other symbol none. */
  lemma DuplicateErrorsReported(syms: seq<Symbol>, i: nat)
    requires DistinctNodes(syms) && i < |syms|
    ensures Reported(DuplicateErrors(syms), syms[i].node) == if Clashes(Names(syms), i) then 1 else 0
  {
    ErrorsForReported(syms, DuplicateReport(Names(syms)), i);
    DuplicateReportCount(Names(syms), i);
  }

  /** Every duplicate error is an error on the `name` property of a symbol
      whose name clashes, naming that name. */
  lemma DuplicateErrorsShape(syms: seq<Symbol>, d: Diagnostic)
    requires d in DuplicateErrors(syms)
    ensures d.severity == ErrorLevel && d.property == "name"
    ensures exists j :: 0 <= j < |syms| && Clashes(Names(syms), j) && d == DuplicateError(syms[j])
  {
    ErrorsForShape(syms, DuplicateReport(Names(syms)), d);
    var e :| e in DuplicateReport(Names(syms)) && e < |syms| && d == DuplicateError(syms[e]);
    DuplicateReportCount(Names(syms), e);
  }

  /** The duplicate-name check is silent exactly when all names are distinct. */
  lemma DuplicateErrorsEmpty(syms: seq<Symbol>)
    ensures DuplicateErrors(syms) == [] <==> Distinct(Names(syms))
  {
    var r := DuplicateReport(Names(syms));
    DuplicateReportEmpty(Names(syms));
    if r != [] {
      DuplicateReportCount(Names(syms), r[0]);
      assert r[0] < |syms|;
      assert ErrorsFor(syms, r)[0] == DuplicateError(syms[r[0]]);
    }
  }
}

=== FILE: outcomes.dfy ===
/** Failure-carrying result types shared by every module of the model.

    The interpreter reports failures by throwing. A throw that happens after
    the runtime object was already changed leaves that change visible to the
    caller, so an `Effect` carries the state the object is left in on both the
    normal and the exceptional path. */
module Outcomes {

  datatype Option<+T> = None | Some(value: T)

  /** Every exception the modelled code can raise, one constructor per kind. */
  datatype Error =
    | UndefinedReference                 // an edge's place reference did not resolve
    | UndefinedState(place: nat)         // a resolved place has no PlaceState
    | UndefinedStep(stepId: nat)         // a step id that is not in the cache
    | UndefinedBreakpointType(typeId: string)
    | StepMustBeAtomic
    | StepMustBeComposite
    | NoPlaceState                       // 'No place state associated.'
    | LocationExpected                   // builder: node without a CST node
    | UndefinedReferenceTarget           // builder: 'Undefined reference.'
    | TypeError                          // a method called on `undefined`

  datatype Result<+T> = Ok(value: T) | Err(error: Error)

  /** The outcome of an operation on a mutable runtime object: it either
      returned a value, or threw, and in both cases `state` is what the object
      looks like afterwards. */
  datatype Effect<+S, +V> = Returned(state: S, value: V) | Threw(state: S, error: Error)

  function Min(a: int, b: int): int { if a <= b then a else b }

  function Max(a: int, b: int): int { if a <= b then b else a }
}

=== FILE: registry.dfy ===
/** The identifier registry, modelled abstractly: two maps from objects to ids
    plus a counter that mints fresh ids. AST objects keep their id for the
    whole session; runtime objects are forgotten after every mutation. The
    registry implementation itself is not part of this model; only the
    guarantees its callers rely on are. */
module Registry {
  import opened Outcomes

  type Id = nat

  /** Static-model objects, by position in the net. */
  datatype AstKey =
    | NetNode
    | PlaceNode(place: nat)
    | TransitionNode(transition: nat)
    | EdgeNode(transition: nat, isDestination: bool, edge: nat)

  /** Runtime objects, by position in the current runtime snapshot. */
  datatype RuntimeKey =
    | NetStateObj
    | PlaceStateObj(place: nat)
    | TransitionStateObj(transition: nat)
    | TokenObj(place: nat, token: nat)

  /** The object an id was minted for. */
  datatype Owner = AstOwner(astKey: AstKey) | RuntimeOwner(runtimeKey: RuntimeKey)

  /** `owners` is the inverse of the two id maps. */
  datatype Registry = Registry(ast: map<AstKey, Id>, runtime: map<RuntimeKey, Id>, owners: map<Id, Owner>, next: Id)

  /** Every id was minted by the counter for exactly the object that holds
      it: the owner map inverts both id maps, so no id is given to two
      objects. */
  ghost predicate Valid(r: Registry) {
    && (forall k :: k in r.ast ==> r.ast[k] < r.next && r.ast[k] in r.owners && r.owners[r.ast[k]] == AstOwner(k))
    && (forall k :: k in r.runtime ==> r.runtime[k] < r.next && r.runtime[k] in r.owners && r.owners[r.runtime[k]] == RuntimeOwner(k))
    && (forall id :: id in r.owners ==> id < r.next)
  }

  /** `r2` remembers every id `r1` handed out. */
  ghost predicate Extends(r1: Registry, r2: Registry) {
    && (forall k :: k in r1.ast ==> k in r2.ast && r2.ast[k] == r1.ast[k])
    && (forall k :: k in r1.runtime ==> k in r2.runtime && r2.runtime[k] == r1.runtime[k])
    && r1.next <= r2.next
  }

  function Empty(): (r: Registry)
    ensures Valid(r) && r.ast == map[] && r.runtime == map[]
  {
    Registry(map[], map[], map[], 0)
  }

  /** Lookup without creation: `None` for an object never registered. */
  function GetAstId(r: Registry, k: AstKey): Option<Id> {
    if k in r.ast then Some(r.ast[k]) else None
  }

  /** The object holding `id`, if any: the inverse of the two lookups. */
  function OwnerOf(r: Registry, id: Id): (o: Option<Owner>)
    ensures o.Some? && o.value.AstOwner? ==> o.value.astKey in r.ast && r.ast[o.value.astKey] == id
    ensures o.Some? && o.value.RuntimeOwner? ==> o.value.runtimeKey in r.runtime && r.runtime[o.value.runtimeKey] == id
  {
    if id in r.owners && (r.owners[id].AstOwner? ==> r.owners[id].astKey in r.ast && r.ast[r.owners[id].astKey] == id)
                      && (r.owners[id].RuntimeOwner? ==> r.owners[id].runtimeKey in r.runtime && r.runtime[r.owners[id].runtimeKey] == id)
    then Some(r.owners[id]) else None
  }

  /** In a valid registry the owner map finds every AST object back from
      its id ... */
  lemma OwnerOfAst(r: Registry, k: AstKey)
    requires Valid(r) && k in r.ast
    ensures OwnerOf(r, r.ast[k]) == Some(AstOwner(k))
  {
  }

  /** ... and every runtime object. */
  lemma OwnerOfRuntime(r: Registry, k: RuntimeKey)
    requires Valid(r) && k in r.runtime
    ensures OwnerOf(r, r.runtime[k]) == Some(RuntimeOwner(k))
  {
  }

  /** The id already assigned to `k`, or a freshly minted one. */
  function GetOrCreateAstId(r: Registry, k: AstKey): (res: (Id, Registry))
    ensures k in res.1.ast && res.1.ast[k] == res.0
    ensures k in r.ast ==> res.1 == r
    ensures res.1.runtime == r.runtime && r.next <= res.1.next
  {
    if k in r.ast then (r.ast[k], r)
    else (r.next, Registry(r.ast[k := r.next], r.runtime, r.owners[r.next := AstOwner(k)], r.next + 1))
  }

  function GetOrCreateRuntimeId(r: Registry, k: RuntimeKey): (res: (Id, Registry))
    ensures k in res.1.runtime && res.1.runtime[k] == res.0
    ensures k in r.runtime ==> res.1 == r
    ensures res.1.ast == r.ast && r.next <= res.1.next
  {
    if k in r.runtime then (r.runtime[k], r)
    else (r.next, Registry(r.ast, r.runtime[k := r.next], r.owners[r.next := RuntimeOwner(k)], r.next + 1))
  }

  /** Registering an object, in any registry, forgets no id already given. */
  lemma GetOrCreateAstIdGrows(r: Registry, k: AstKey)
    ensures Extends(r, GetOrCreateAstId(r, k).1)
  {
  }

  lemma GetOrCreateRuntimeIdGrows(r: Registry, k: RuntimeKey)
    ensures Extends(r, GetOrCreateRuntimeId(r, k).1)
  {
  }

  /** Registering an AST object keeps the registry valid, forgets nothing,
      touches no runtime id, and a new id is one nobody holds yet. */
  lemma GetOrCreateAstIdKeeps(r: Registry, k: AstKey)
    requires Valid(r)
    ensures var res := GetOrCreateAstId(r, k);
      && Valid(res.1) && Extends(r, res.1)
      && res.1.runtime == r.runtime && res.1.ast.Keys == r.ast.Keys + {k}
      && (k !in r.ast ==> res.0 !in r.ast.Values && res.0 !in r.runtime.Values)
  {
  }

  lemma GetOrCreateRuntimeIdKeeps(r: Registry, k: RuntimeKey)
    requires Valid(r)
    ensures var res := GetOrCreateRuntimeId(r, k);
      && Valid(res.1) && Extends(r, res.1)
      && res.1.ast == r.ast && res.1.runtime.Keys == r.runtime.Keys + {k}
      && (k !in r.runtime ==> res.0 !in r.ast.Values && res.0 !in r.runtime.Values)
  {
  }

  /** Forgets every runtime id, keeping AST ids and the counter. */
  function ClearRuntimeIds(r: Registry): (res: Registry)
    requires Valid(r)
    ensures Valid(res) && res.runtime == map[]
    ensures res.ast == r.ast && r.next <= res.next
  {
    Registry(r.ast, map[], map id | id in r.owners && r.owners[id].AstOwner? :: r.owners[id], r.next)
  }

  /** No id is held by two objects. */
  lemma Injective(r: Registry, a: AstKey, b: AstKey)
    requires Valid(r) && a in r.ast && b in r.ast && r.ast[a] == r.ast[b]
    ensures a == b
  {
    assert r.owners[r.ast[a]] == AstOwner(a);
  }

  /** Asking twice for the same object gives the same id, and asking for two
      different objects gives two different ids. */
  lemma AstIdsStableAndDistinct(r: Registry, a: AstKey, b: AstKey)
    requires Valid(r)
    ensures GetOrCreateAstId(GetOrCreateAstId(r, a).1, a).0 == GetOrCreateAstId(r, a).0
    ensures a != b ==> GetOrCreateAstId(GetOrCreateAstId(r, a).1, b).0 != GetOrCreateAstId(r, a).0
  {
    var (ia, r1) := GetOrCreateAstId(r, a);
    GetOrCreateAstIdKeeps(r, a);
    var (ib, r2) := GetOrCreateAstId(r1, b);
    GetOrCreateAstIdKeeps(r1, b);
    assert r2.ast[a] == ia && r2.ast[b] == ib;
    if a != b && ia == ib {
      Injective(r2, a, b);
    }
  }

  /** Ids already issued are kept by any registry that extends the current one. */
  lemma ExtendsTransitive(r1: Registry, r2: Registry, r3: Registry)
    requires Extends(r1, r2) && Extends(r2, r3)
    ensures Extends(r1, r3)
  {
  }
}

=== FILE: server_engine.dfy ===
/** The firing engine of src/server/runtimeState.ts: triggerability is
    decided on demand from the current marking, firing throws on a dangling
    reference, and the engine keeps the cache of available steps (one
    transition step per triggerable transition, keyed by step id) that the
    protocol layer queries, enters, executes and checks breakpoints on. */
module ServerEngine {
  import opened Outcomes
  import opened Ast
  import opened Marking
  import Steps
  import Registry
  import CachedEngine

  /** `maxIterations`: declared, and never consulted by any operation. */
  const MaxIterations: nat := 50

  /** The state of the transition at index `transition`. */
  datatype TransitionState = TransitionState(transition: nat)

  /** `nextStepId` is the fresh-id counter standing in for random UUIDs. */
  datatype State = State(net: PetriNet, currentIteration: nat, placeStates: seq<PlaceState>,
                         transitionStates: seq<TransitionState>, availableSteps: map<nat, Steps.Step>,
                         ongoingCompositeStep: Option<Steps.Step>, nextStepId: nat)

  ghost predicate TransitionsAligned(net: PetriNet, ts: seq<TransitionState>) {
    |ts| == |net.transitions| && forall j :: 0 <= j < |ts| ==> ts[j].transition == j
  }

  /** Every cached step is keyed by its own id, drawn from the counter, and
      names a transition of the net. */
  ghost predicate CacheWellFormed(net: PetriNet, cache: map<nat, Steps.Step>, next: nat) {
    forall id :: id in cache ==> cache[id].id == id && id < next && Steps.StepOf(net, cache[id])
  }

  ghost predicate Valid(st: State) {
    && Aligned(st.net, st.placeStates)
    && TransitionsAligned(st.net, st.transitionStates)
    && CacheWellFormed(st.net, st.availableSteps, st.nextStepId)
  }

  ghost predicate HasUnresolved(tr: Transition) {
    || (exists i :: 0 <= i < |tr.sources| && tr.sources[i].place.Unresolved?)
    || (exists i :: 0 <= i < |tr.destinations| && tr.destinations[i].place.Unresolved?)
  }

  ghost predicate RefersTo(tr: Transition, p: nat) {
    || (exists i :: 0 <= i < |tr.sources| && tr.sources[i].place == Resolved(p))
    || (exists i :: 0 <= i < |tr.destinations| && tr.destinations[i].place == Resolved(p))
  }

  /** `TransitionState.isTriggerable`: true iff every source place holds at
      least `weight` tokens and every destination place has room for
      `weight` more, both on the current marking. Checking stops at the first
      failing edge; an unresolved reference reached before that throws
      `UndefinedReferenceError`, a resolved place without a state throws
      `UndefinedStateError`. */
  function IsTriggerable(net: PetriNet, ps: seq<PlaceState>, t: nat): (r: Result<bool>)
    requires Aligned(net, ps) && t < |net.transitions|
    ensures r.Ok? ==> r.value == Enabled(net, ps, net.transitions[t])
    ensures Enabled(net, ps, net.transitions[t]) ==> r == Ok(true)
    ensures r.Err? ==> r.error == UndefinedReference || r.error.UndefinedState?
    ensures r.Err? && r.error == UndefinedReference ==> HasUnresolved(net.transitions[t])
    ensures r.Err? && r.error.UndefinedState? ==>
      r.error.place >= |ps| && RefersTo(net.transitions[t], r.error.place)
  {
    var tr := net.transitions[t];
    CheckEdgesFirstBad(net, ps, tr.sources, false);
    CheckEdgesFirstBad(net, ps, tr.destinations, true);
    match CheckEdges(net, ps, tr.sources, false)
    case Dangling => Err(UndefinedReference)
    case Stateless(p) => Err(UndefinedState(p))
    case Fail => Ok(false)
    case Pass =>
      match CheckEdges(net, ps, tr.destinations, true)
      case Dangling => Err(UndefinedReference)
      case Stateless(p) => Err(UndefinedState(p))
      case Fail => Ok(false)
      case Pass => Ok(true)
  }

  /** `triggerTransition`: removes `weight` tokens (the oldest) from each
      source place, then appends `weight` tokens tagged with the transition
      to each destination place, then counts one iteration. An unresolved
      reference or a place without a state throws, leaving the edges already
      walked applied. The iteration bound is not consulted. */
  function TriggerTransition(st: State, t: nat): (r: Effect<State, ()>)
    requires Valid(st) && t < |st.net.transitions|
    ensures Valid(r.state)
    ensures r.state == st.(placeStates := r.state.placeStates, currentIteration := r.state.currentIteration)
    ensures r.Returned? <==> AllResolved(st.placeStates, st.net.transitions[t].sources)
                             && AllResolved(st.placeStates, st.net.transitions[t].destinations)
    ensures r.Returned? ==> r.state.currentIteration == st.currentIteration + 1
    ensures r.Threw? ==> r.state.currentIteration == st.currentIteration
    ensures r.Threw? ==> r.error == UndefinedReference || r.error.UndefinedState?
  {
    var tr := st.net.transitions[t];
    FireEffect(st.net, st.placeStates, tr, t);
    ConsumeEffect(st.net, st.placeStates, tr.sources);
    var (ps1, stop1) := Consume(st.placeStates, tr.sources);
    match stop1
    case Some(StopUnresolved) => Threw(st.(placeStates := ps1), UndefinedReference)
    case Some(StopNoState(p)) => Threw(st.(placeStates := ps1), UndefinedState(p))
    case None =>
      var (ps2, stop2) := Produce(ps1, tr.destinations, t);
      match stop2
      case Some(StopUnresolved) => Threw(st.(placeStates := ps2), UndefinedReference)
      case Some(StopNoState(p)) => Threw(st.(placeStates := ps2), UndefinedState(p))
      case None => Returned(st.(placeStates := ps2, currentIteration := st.currentIteration + 1), ())
  }

  // ---------------------------------------------------------------------
  // The available-steps cache

  /** The cache holds exactly one fresh, pending, parentless transition step
      per triggerable transition, keyed by the step's id, every id drawn
      from `[lo, hi)`. */
  ghost predicate StepsFor(net: PetriNet, ps: seq<PlaceState>, cache: map<nat, Steps.Step>, lo: nat, hi: nat)
    requires Aligned(net, ps)
  {
    && (forall id :: id in cache ==>
          && lo <= id < hi && cache[id].id == id && !cache[id].completed && cache[id].parent.None?
          && cache[id].kind.TransitionStep? && cache[id].kind.transition < |net.transitions|
          && IsTriggerable(net, ps, cache[id].kind.transition) == Ok(true))
    && (forall j :: 0 <= j < |net.transitions| && IsTriggerable(net, ps, j) == Ok(true) ==>
          exists id :: id in cache && cache[id].kind == Steps.TransitionStep(j))
    && (forall a, b :: a in cache && b in cache && cache[a].kind == cache[b].kind ==> a == b)
  }

  /** The steps a walk from `from` added to `acc`: fresh ids from `[lo, hi)`,
      pending, parentless, each naming a triggerable transition at or after
      `from`. */
  ghost predicate AddedSteps(net: PetriNet, ps: seq<PlaceState>, acc: map<nat, Steps.Step>,
                             m: map<nat, Steps.Step>, from: nat, lo: nat, hi: nat)
    requires Aligned(net, ps)
  {
    forall id :: id in m && id !in acc ==>
      && lo <= id < hi && m[id].id == id && !m[id].completed
      && m[id].parent.None? && m[id].kind.TransitionStep?
      && from <= m[id].kind.transition < |net.transitions|
      && IsTriggerable(net, ps, m[id].kind.transition) == Ok(true)
  }

  function Collect(net: PetriNet, ps: seq<PlaceState>, ts: seq<TransitionState>, from: nat,
                   acc: map<nat, Steps.Step>, next: nat): (r: Result<(map<nat, Steps.Step>, nat)>)
    requires Aligned(net, ps) && TransitionsAligned(net, ts) && from <= |ts|
    requires forall id :: id in acc ==> id < next
    ensures r.Ok? ==> next <= r.value.1
    ensures r.Ok? ==> forall id :: id in acc ==> id in r.value.0 && r.value.0[id] == acc[id]
    ensures r.Ok? ==> AddedSteps(net, ps, acc, r.value.0, from, next, r.value.1)
    ensures r.Err? <==> exists j :: from <= j < |ts| && IsTriggerable(net, ps, j).Err?
    decreases |ts| - from
  {
    if from == |ts| then Ok((acc, next))
    else
      var t := ts[from].transition;
      match IsTriggerable(net, ps, t)
      case Err(e) => Err(e)
      case Ok(false) => Collect(net, ps, ts, from + 1, acc, next)
      case Ok(true) =>
        var (s, next') := Steps.NewTransitionStep(net, t, next);
        Collect(net, ps, ts, from + 1, acc[s.id := s], next')
  }

  /** Every triggerable transition from `from` on gets a step of its own. */
  lemma {:induction false} CollectCovers(net: PetriNet, ps: seq<PlaceState>, ts: seq<TransitionState>, from: nat,
                                         acc: map<nat, Steps.Step>, next: nat)
    requires Aligned(net, ps) && TransitionsAligned(net, ts) && from <= |ts|
    requires forall id :: id in acc ==> id < next
    requires Collect(net, ps, ts, from, acc, next).Ok?
    ensures var m := Collect(net, ps, ts, from, acc, next).value.0;
      forall j :: from <= j < |ts| && IsTriggerable(net, ps, j) == Ok(true) ==>
        exists id :: id in m && id !in acc && m[id].kind == Steps.TransitionStep(j)
    ensures var m := Collect(net, ps, ts, from, acc, next).value.0;
      forall a, b ::
        (a in m && b in m && a !in acc && b !in acc && m[a].kind == m[b].kind) ==> a == b
    decreases |ts| - from
  {
    if from < |ts| {
      var m := Collect(net, ps, ts, from, acc, next).value.0;
      match IsTriggerable(net, ps, from)
      case Ok(false) =>
        CollectCovers(net, ps, ts, from + 1, acc, next);
      case Ok(true) =>
        var (s, next') := Steps.NewTransitionStep(net, from, next);
        var acc' := acc[s.id := s];
        CollectCovers(net, ps, ts, from + 1, acc', next');
        assert s.id in m && s.id !in acc && m[s.id].kind == Steps.TransitionStep(from);
        forall a, b | a in m && b in m && a !in acc && b !in acc && m[a].kind == m[b].kind
          ensures a == b
        {
          if a == s.id || b == s.id {
            assert m[a].kind.transition == from && m[b].kind.transition == from;
          }
        }
    }
  }

  /** `computeAvailableSteps`: walks the transition states in order and
      makes one new transition step, with a fresh id, for each triggerable
      transition; a throwing triggerability test aborts the walk. */
  function ComputeAvailableSteps(net: PetriNet, ps: seq<PlaceState>, ts: seq<TransitionState>, next: nat): (r: Result<(map<nat, Steps.Step>, nat)>)
    requires Aligned(net, ps) && TransitionsAligned(net, ts)
    ensures r.Ok? ==> next <= r.value.1 && StepsFor(net, ps, r.value.0, next, r.value.1)
    ensures r.Ok? ==> CacheWellFormed(net, r.value.0, r.value.1)
    ensures r.Err? <==> exists j :: 0 <= j < |ts| && IsTriggerable(net, ps, j).Err?
  {
    var r := Collect(net, ps, ts, 0, map[], next);
    if r.Ok? then CollectCovers(net, ps, ts, 0, map[], next); r else r
  }

  /** The constructor: one place state per place, in order, holding the
      place's initial (untagged) tokens; one transition state per transition;
      iteration 0; the available steps computed on the initial marking. */
  function Init(net: PetriNet): (r: Result<State>)
    ensures r.Ok? ==> Valid(r.value) && r.value.net == net && r.value.currentIteration == 0
    ensures r.Ok? ==> r.value.placeStates == InitialPlaceStates(net)
    ensures r.Ok? ==> |r.value.transitionStates| == |net.transitions| && r.value.ongoingCompositeStep.None?
    ensures r.Ok? ==> StepsFor(net, r.value.placeStates, r.value.availableSteps, 0, r.value.nextStepId)
    ensures r.Err? <==> exists j :: 0 <= j < |net.transitions| && IsTriggerable(net, InitialPlaceStates(net), j).Err?
  {
    var ps := InitialPlaceStates(net);
    var ts := seq(|net.transitions|, j requires 0 <= j < |net.transitions| => TransitionState(j));
    match ComputeAvailableSteps(net, ps, ts, 0)
    case Err(e) => Err(e)
    case Ok((cache, next)) => Ok(State(net, 0, ps, ts, cache, None, next))
  }

  /** `enterCompositeStep`: an unknown id throws before anything changes;
      otherwise the available steps are recomputed and the selected step
      becomes the ongoing composite step. The step's kind is not checked. */
  function EnterCompositeStep(st: State, id: nat): (r: Effect<State, ()>)
    requires Valid(st)
    ensures Valid(r.state)
    ensures id !in st.availableSteps ==> r == Threw(st, UndefinedStep(id))
    ensures r.Threw? ==> r.state == st
    ensures r.Returned? ==> id in st.availableSteps && r.state.ongoingCompositeStep == Some(st.availableSteps[id])
    ensures r.Returned? ==> StepsFor(st.net, st.placeStates, r.state.availableSteps, st.nextStepId, r.state.nextStepId)
    ensures r.Returned? ==> r.state.placeStates == st.placeStates && r.state.currentIteration == st.currentIteration
  {
    if id !in st.availableSteps then Threw(st, UndefinedStep(id))
    else match ComputeAvailableSteps(st.net, st.placeStates, st.transitionStates, st.nextStepId)
      case Err(e) => Threw(st, e)
      case Ok((cache, next)) =>
        Returned(st.(availableSteps := cache, nextStepId := next, ongoingCompositeStep := Some(st.availableSteps[id])), ())
  }

  /** `executeAtomicStep` as the source writes it: a transition step built
      by this engine fires through a `trigger` method that this engine does
      not have, so every atomic step throws before the step is marked and
      before anything changes. */
  function ExecuteAtomicStepAsWritten(st: State, id: nat): (r: Effect<State, Steps.Step>)
    requires Valid(st)
    ensures r.Threw? && r.state == st
    ensures id !in st.availableSteps ==> r.error == UndefinedStep(id)
    ensures id in st.availableSteps && st.availableSteps[id].IsComposite() ==> r.error == StepMustBeAtomic
    ensures ExecuteAtomicStep(st, id).Returned? ==> r.error == TypeError
  {
    if id !in st.availableSteps then Threw(st, UndefinedStep(id))
    else match st.availableSteps[id].kind
      case CompositeStep(_) => Threw(st, StepMustBeAtomic)
      case TransitionStep(_) => Threw(st, TypeError)
  }

  /** `executeAtomicStep`: an unknown id throws before anything changes, and
      so does a composite step. A transition step fires its transition and
      becomes completed (the cached step object is the one marked); then the
      available steps are recomputed on the new marking and the ongoing
      composite step becomes the executed step's nearest pending step. */
  function ExecuteAtomicStep(st: State, id: nat): (r: Effect<State, Steps.Step>)
    requires Valid(st)
    ensures Valid(r.state)
    ensures id !in st.availableSteps ==> r == Threw(st, UndefinedStep(id))
    ensures id in st.availableSteps && st.availableSteps[id].IsComposite() ==> r == Threw(st, StepMustBeAtomic)
    ensures r.Returned? ==> id in st.availableSteps && r.value == st.availableSteps[id].(completed := true)
    ensures r.Returned? ==> r.state.currentIteration == st.currentIteration + 1
    ensures r.Returned? ==> r.state.ongoingCompositeStep == Steps.FindOngoingStep(r.value)
    ensures r.Returned? ==> id !in r.state.availableSteps
    ensures r.Returned? ==> StepsFor(r.state.net, r.state.placeStates, r.state.availableSteps, st.nextStepId, r.state.nextStepId)
    ensures r.Returned? ==>
      r.state.placeStates == FireTokens(st.placeStates, st.net.transitions[st.availableSteps[id].kind.transition], st.availableSteps[id].kind.transition)
  {
    if id !in st.availableSteps then Threw(st, UndefinedStep(id))
    else
      var s := st.availableSteps[id];
      match s.kind
      case CompositeStep(_) => Threw(st, StepMustBeAtomic)
      case TransitionStep(t) =>
        match TriggerTransition(st, t)
        case Threw(st1, e) => Threw(st1, e)
        case Returned(st1, _) =>
          FireEffect(st.net, st.placeStates, st.net.transitions[t], t);
          ConsumeEffect(st.net, st.placeStates, st.net.transitions[t].sources);
          var done := s.(completed := true);
          var st2 := st1.(availableSteps := st1.availableSteps[id := done]);
          match ComputeAvailableSteps(st2.net, st2.placeStates, st2.transitionStates, st2.nextStepId)
          case Err(e) => Threw(st2, e)
          case Ok((cache, next)) =>
            Returned(st2.(availableSteps := cache, nextStepId := next,
                          ongoingCompositeStep := Steps.FindOngoingStep(done)), done)
  }

  /** `checkBreakpoint`: an unknown id throws; otherwise the cached step
      answers on the current marking. Nothing in the state changes. */
  function CheckBreakpoint(st: State, typeId: string, id: nat, bindings: map<string, nat>, reg: Registry.Registry): (r: Result<Option<string>>)
    requires Valid(st)
    ensures id !in st.availableSteps ==> r == Err(UndefinedStep(id))
    ensures id in st.availableSteps ==>
      r == Steps.CheckBreakpoint(st.availableSteps[id], typeId, bindings, reg, st.net, st.placeStates)
  {
    if id !in st.availableSteps then Err(UndefinedStep(id))
    else Steps.CheckBreakpoint(st.availableSteps[id], typeId, bindings, reg, st.net, st.placeStates)
  }

  // ---------------------------------------------------------------------
  // Properties

  /** A completed firing takes the oldest `weight` tokens out of every source
      place (clamped at what is there) and appends `weight` tokens tagged with
      the transition to every destination place; other places keep theirs. */
  lemma TriggerTransitionMovesTokens(st: State, t: nat)
    requires Valid(st) && t < |st.net.transitions|
    requires TriggerTransition(st, t).Returned?
    ensures forall k :: 0 <= k < |st.placeStates| ==>
      TriggerTransition(st, t).state.placeStates[k].tokens ==
        st.placeStates[k].tokens[Min(Weight(st.net.transitions[t].sources, k), |st.placeStates[k].tokens|)..]
        + Fresh(Weight(st.net.transitions[t].destinations, k), t)
  {
    var tr := st.net.transitions[t];
    FireEffect(st.net, st.placeStates, tr, t);
    ConsumeEffect(st.net, st.placeStates, tr.sources);
    var ps1 := Consume(st.placeStates, tr.sources).0;
    ProduceEffect(st.net, ps1, tr.destinations, t);
  }

  /** A transition found triggerable fires without throwing, and when its
      destination places are pairwise distinct no place exceeds its capacity
      afterwards. */
  lemma TriggerableFiresWithinCapacity(st: State, t: nat)
    requires Valid(st) && t < |st.net.transitions|
    requires IsTriggerable(st.net, st.placeStates, t) == Ok(true)
    ensures TriggerTransition(st, t).Returned?
    ensures Bounded(st.net, st.placeStates) && DistinctPlaces(st.net.transitions[t].destinations) ==>
      Bounded(st.net, TriggerTransition(st, t).state.placeStates)
  {
    var tr := st.net.transitions[t];
    CachedEngine.EnabledResolves(st.net, st.placeStates, tr);
    FireEffect(st.net, st.placeStates, tr, t);
    ConsumeEffect(st.net, st.placeStates, tr.sources);
    if Bounded(st.net, st.placeStates) && DistinctPlaces(tr.destinations) {
      FiringKeepsCapacity(st.net, st.placeStates, tr, t);
    }
  }

  /** The net of the capacity counterexample: one empty place of capacity 1
      and a transition with two destination edges to it. */
  function DoubleDestinationNet(): (net: PetriNet)
    ensures |net.places| == 1 && |net.transitions| == 1
    ensures !DistinctPlaces(net.transitions[0].destinations)
  {
    var net := PetriNet("net", [Place("P0", 1, 0, None)],
                        [Transition("T0", [], [Edge(Resolved(0), 1), Edge(Resolved(0), 1)], None)]);
    assert net.transitions[0].destinations[0].place == net.transitions[0].destinations[1].place;
    net
  }

  /** The counterexample net starts with its place empty, and its
      transition is triggerable there: each destination edge alone fits. */
  lemma DoubleDestinationStarts()
    ensures var net := DoubleDestinationNet();
      && Init(net).Ok? && Init(net).value.placeStates == [PlaceState(0, [])]
      && IsTriggerable(net, [PlaceState(0, [])], 0) == Ok(true)
  {
    var net := DoubleDestinationNet();
    var ps := InitialPlaceStates(net);
    assert |ps| == 1 && ps[0].place == 0 && ps[0].tokens == [];
    assert ps == [PlaceState(0, [])];
    var tr := net.transitions[0];
    assert DestinationOk(net, ps, tr.destinations[0]) && DestinationOk(net, ps, tr.destinations[1]);
    assert Enabled(net, ps, tr);
    var ts := seq(|net.transitions|, j requires 0 <= j < |net.transitions| => TransitionState(j));
    assert ComputeAvailableSteps(net, ps, ts, 0).Ok?;
  }

  /** Firing that transition from the empty place puts two tokens in it. */
  lemma DoubleDestinationFires(st: State)
    requires Valid(st) && st.net == DoubleDestinationNet() && st.placeStates == [PlaceState(0, [])]
    requires IsTriggerable(st.net, st.placeStates, 0) == Ok(true)
    ensures TriggerTransition(st, 0).Returned? && |TriggerTransition(st, 0).state.placeStates[0].tokens| == 2
  {
    var tr := st.net.transitions[0];
    TriggerableFiresWithinCapacity(st, 0);
    TriggerTransitionMovesTokens(st, 0);
    assert tr.destinations[1..][1..] == [];
    assert Weight(tr.destinations, 0) == 2;
    assert Weight(tr.sources, 0) == 0;
  }

  /** Each destination edge is checked against the marking on its own, so
      two edges into the same place are both accepted and the firing puts
      two tokens into a place of capacity 1. */
  lemma RepeatedDestinationOverfills()
    ensures var net := DoubleDestinationNet();
      Init(net).Ok? && Bounded(net, Init(net).value.placeStates)
      && IsTriggerable(net, Init(net).value.placeStates, 0) == Ok(true)
      && TriggerTransition(Init(net).value, 0).Returned?
      && !Bounded(net, TriggerTransition(Init(net).value, 0).state.placeStates)
  {
    var net := DoubleDestinationNet();
    DoubleDestinationStarts();
    var st := Init(net).value;
    DoubleDestinationFires(st);
  }
}

=== FILE: state_builder.dfy ===
/** The runtime half of `ModelElementBuilder` (src/server/modelElementBuilder.ts,
    `fromPetriNetState` and below): the state of the engine of
    src/runtimeState.ts as a tree of model elements. Runtime objects get
    runtime ids, and each element points at the static object it belongs
    to through that object's AST id. */
module StateBuilder {
  import opened Outcomes
  import opened Ast
  import opened Marking
  import Registry
  import CachedEngine
  import opened Builder

  // ---------------------------------------------------------------------
  // What a built element says about the runtime object it stands for

  ghost predicate HasRuntimeId(reg: Registry.Registry, e: ModelElement, k: Registry.RuntimeKey) {
    k in reg.runtime && e.id == reg.runtime[k]
  }

  /** Token `i` of place state `k`; its `source` reference is present
      exactly when the token was produced by a transition. */
  ghost predicate EncodesToken(reg: Registry.Registry, e: ModelElement, k: nat, i: nat, tok: Token) {
    && HasRuntimeId(reg, e, Registry.TokenObj(k, i))
    && e.elementType == "TokenState" && e.children == map[] && e.attributes == map[] && e.location.None?
    && (tok.source.None? ==> e.refs == map[])
    && (tok.source.Some? ==> Registry.TransitionNode(tok.source.value) in reg.ast
                             && e.refs == map["source" := reg.ast[Registry.TransitionNode(tok.source.value)]])
  }

  ghost predicate EncodesTokensFrom(reg: Registry.Registry, es: seq<ModelElement>, k: nat, tokens: seq<Token>, from: nat) {
    |es| + from == |tokens| && forall i :: 0 <= i < |es| ==> EncodesToken(reg, es[i], k, from + i, tokens[from + i])
  }

  ghost predicate EncodesPlaceState(reg: Registry.Registry, e: ModelElement, k: nat, s: PlaceState) {
    && HasRuntimeId(reg, e, Registry.PlaceStateObj(k))
    && e.elementType == "PlaceState" && e.attributes == map[] && e.location.None?
    && "tokens" in e.children && EncodesTokensFrom(reg, e.children["tokens"], k, s.tokens, 0)
    && Registry.PlaceNode(s.place) in reg.ast && e.refs == map["place" := reg.ast[Registry.PlaceNode(s.place)]]
  }

  ghost predicate EncodesPlaceStatesFrom(reg: Registry.Registry, es: seq<ModelElement>, ps: seq<PlaceState>, from: nat) {
    |es| + from == |ps| && forall k :: 0 <= k < |es| ==> EncodesPlaceState(reg, es[k], from + k, ps[from + k])
  }

  ghost predicate EncodesTransitionState(reg: Registry.Registry, e: ModelElement, j: nat, ts: CachedEngine.TransitionState) {
    && HasRuntimeId(reg, e, Registry.TransitionStateObj(j))
    && e.elementType == "TransitionState" && e.children == map[] && e.location.None?
    && Registry.TransitionNode(ts.transition) in reg.ast
    && e.refs == map["transition" := reg.ast[Registry.TransitionNode(ts.transition)]]
    && e.attributes == map["isTriggerable" := Bool(ts.triggerable)]
  }

  ghost predicate EncodesTransitionStatesFrom(reg: Registry.Registry, es: seq<ModelElement>, ts: seq<CachedEngine.TransitionState>, from: nat) {
    |es| + from == |ts| && forall j :: 0 <= j < |es| ==> EncodesTransitionState(reg, es[j], from + j, ts[from + j])
  }

  ghost predicate EncodesNetState(reg: Registry.Registry, e: ModelElement, st: CachedEngine.State) {
    && HasRuntimeId(reg, e, Registry.NetStateObj)
    && e.elementType == "PetriNetState" && e.attributes == map[] && e.location.None?
    && Registry.NetNode in reg.ast && e.refs == map["petrinet" := reg.ast[Registry.NetNode]]
    && "placesState" in e.children && EncodesPlaceStatesFrom(reg, e.children["placesState"], st.placeStates, 0)
    && "transitionsState" in e.children
    && EncodesTransitionStatesFrom(reg, e.children["transitionsState"], st.transitionStates, 0)
  }

  /** Every transition from `from` on has all its references resolved to
      places with a state, so computing its flag cannot throw. */
  ghost predicate ResolvesFrom(st: CachedEngine.State, from: nat) {
    forall j :: from <= j < |st.net.transitions| ==> CachedEngine.Resolves(st.placeStates, st.net.transitions[j])
  }

  // ---------------------------------------------------------------------
  // Building from the runtime state

  /** `fromTokenState`: the token's runtime id, then, for a token a
      transition produced, that transition's id. It cannot throw. */
  function FromTokenState(reg: Registry.Registry, k: nat, i: nat, tok: Token): (r: Effect<Registry.Registry, ModelElement>)
    ensures r.Returned?
  {
    var (id, reg1) := Registry.GetOrCreateRuntimeId(reg, Registry.TokenObj(k, i));
    match tok.source
    case None => Returned(reg1, ModelElement(id, "TokenState", map[], map[], map[], None))
    case Some(t) =>
      var (source, reg2) := Registry.GetOrCreateAstId(reg1, Registry.TransitionNode(t));
      Returned(reg2, ModelElement(id, "TokenState", map[], map["source" := source], map[], None))
  }

  function FromTokens(reg: Registry.Registry, k: nat, tokens: seq<Token>, from: nat): (r: Effect<Registry.Registry, seq<ModelElement>>)
    requires from <= |tokens|
    ensures r.Returned? && |r.value| == |tokens| - from
    decreases |tokens| - from
  {
    if from == |tokens| then Returned(reg, [])
    else
      var h := FromTokenState(reg, k, from, tokens[from]);
      var rest := FromTokens(h.state, k, tokens, from + 1);
      Returned(rest.state, [h.value] + rest.value)
  }

  /** `fromPlaceState`: the tokens, then the place state's runtime id, then
      the id of its place. It cannot throw. */
  function FromPlaceState(reg: Registry.Registry, k: nat, s: PlaceState): (r: Effect<Registry.Registry, ModelElement>)
    ensures r.Returned?
  {
    var tokens := FromTokens(reg, k, s.tokens, 0);
    var (id, reg1) := Registry.GetOrCreateRuntimeId(tokens.state, Registry.PlaceStateObj(k));
    var (place, reg2) := Registry.GetOrCreateAstId(reg1, Registry.PlaceNode(s.place));
    Returned(reg2, ModelElement(id, "PlaceState", map["tokens" := tokens.value], map["place" := place], map[], None))
  }

  function FromPlaceStates(reg: Registry.Registry, ps: seq<PlaceState>, from: nat): (r: Effect<Registry.Registry, seq<ModelElement>>)
    requires from <= |ps|
    ensures r.Returned? && |r.value| == |ps| - from
    decreases |ps| - from
  {
    if from == |ps| then Returned(reg, [])
    else
      var h := FromPlaceState(reg, from, ps[from]);
      var rest := FromPlaceStates(h.state, ps, from + 1);
      Returned(rest.state, [h.value] + rest.value)
  }

  /** `fromTransitionState` with the flag it evidently means to report: the
      runtime id, the transition's id, then the flag `computeTriggerable`
      computes on the current marking, whose throw propagates. */
  function FromTransitionState(reg: Registry.Registry, st: CachedEngine.State, j: nat): (r: Effect<Registry.Registry, ModelElement>)
    requires CachedEngine.Valid(st) && j < |st.transitionStates|
    ensures r.Threw? ==> r.error == NoPlaceState
    ensures r.Returned? ==> "isTriggerable" in r.value.attributes && r.value.attributes["isTriggerable"].Bool?
  {
    var ts := st.transitionStates[j];
    var (id, reg1) := Registry.GetOrCreateRuntimeId(reg, Registry.TransitionStateObj(j));
    var (transition, reg2) := Registry.GetOrCreateAstId(reg1, Registry.TransitionNode(ts.transition));
    match CachedEngine.ComputeTriggerable(st.net, st.placeStates, ts)
    case Err(e) => Threw(reg2, e)
    case Ok(now) =>
      Returned(reg2, ModelElement(id, "TransitionState", map[], map["transition" := transition],
                                  map["isTriggerable" := Bool(now.triggerable)], None))
  }

  /** `fromTransitionState` as written: the attribute is the value of
      `computeTriggerable()`, a `void` method, so it is always undefined. */
  function FromTransitionStateAsWritten(reg: Registry.Registry, st: CachedEngine.State, j: nat): (r: Effect<Registry.Registry, ModelElement>)
    requires CachedEngine.Valid(st) && j < |st.transitionStates|
    ensures r.Threw? ==> r.error == NoPlaceState
    ensures r.Returned? ==> r.value.attributes == map["isTriggerable" := Undefined]
  {
    var ts := st.transitionStates[j];
    var (id, reg1) := Registry.GetOrCreateRuntimeId(reg, Registry.TransitionStateObj(j));
    var (transition, reg2) := Registry.GetOrCreateAstId(reg1, Registry.TransitionNode(ts.transition));
    match CachedEngine.ComputeTriggerable(st.net, st.placeStates, ts)
    case Err(e) => Threw(reg2, e)
    case Ok(_) =>
      Returned(reg2, ModelElement(id, "TransitionState", map[], map["transition" := transition],
                                  map["isTriggerable" := Undefined], None))
  }

  /** The transition-state element: as the source writes it when
      `corrected` is false, with the recomputed flag when it is true. */
  function TransitionElement(reg: Registry.Registry, st: CachedEngine.State, j: nat, corrected: bool): (r: Effect<Registry.Registry, ModelElement>)
    requires CachedEngine.Valid(st) && j < |st.transitionStates|
    ensures r.Threw? ==> r.error == NoPlaceState
  {
    if corrected then FromTransitionState(reg, st, j) else FromTransitionStateAsWritten(reg, st, j)
  }

  function FromTransitionStates(reg: Registry.Registry, st: CachedEngine.State, from: nat, corrected: bool): (r: Effect<Registry.Registry, seq<ModelElement>>)
    requires CachedEngine.Valid(st) && from <= |st.transitionStates|
    ensures r.Threw? ==> r.error == NoPlaceState
    ensures r.Returned? ==> |r.value| == |st.transitionStates| - from
    decreases |st.transitionStates| - from
  {
    if from == |st.transitionStates| then Returned(reg, [])
    else match TransitionElement(reg, st, from, corrected)
      case Threw(reg1, e) => Threw(reg1, e)
      case Returned(reg1, head) =>
        match FromTransitionStates(reg1, st, from + 1, corrected)
        case Threw(reg2, e) => Threw(reg2, e)
        case Returned(reg2, tail) => Returned(reg2, [head] + tail)
  }

  /** The place states, then the transition states, then the state's
      runtime id and the id of its net. It throws only when a flag
      computation does. */
  function BuildNetState(reg: Registry.Registry, st: CachedEngine.State, corrected: bool): (r: Effect<Registry.Registry, ModelElement>)
    requires CachedEngine.Valid(st)
    ensures r.Threw? ==> r.error == NoPlaceState
  {
    var places := FromPlaceStates(reg, st.placeStates, 0);
    match FromTransitionStates(places.state, st, 0, corrected)
    case Threw(reg1, e) => Threw(reg1, e)
    case Returned(reg1, transitions) =>
      var (id, reg2) := Registry.GetOrCreateRuntimeId(reg1, Registry.NetStateObj);
      var (petrinet, reg3) := Registry.GetOrCreateAstId(reg2, Registry.NetNode);
      Returned(reg3, ModelElement(id, "PetriNetState", map["placesState" := places.value, "transitionsState" := transitions],
                                  map["petrinet" := petrinet], map[], None))
  }

  /** `fromPetriNetState` as the source writes it: every transition-state
      element carries an undefined flag. */
  function FromPetriNetState(reg: Registry.Registry, st: CachedEngine.State): (r: Effect<Registry.Registry, ModelElement>)
    requires CachedEngine.Valid(st)
    ensures r.Threw? ==> r.error == NoPlaceState
  {
    BuildNetState(reg, st, false)
  }

  /** `fromPetriNetState` with the corrected `fromTransitionState`. */
  function FromPetriNetStateCorrected(reg: Registry.Registry, st: CachedEngine.State): (r: Effect<Registry.Registry, ModelElement>)
    requires CachedEngine.Valid(st)
    ensures r.Threw? ==> r.error == NoPlaceState
  {
    BuildNetState(reg, st, true)
  }

  // ---------------------------------------------------------------------
  // When the runtime builders throw, and what flag they report

  /** A transition-state element reports the triggerability rule on the
      current marking whenever the transition's references all resolve to
      places with a state; it throws only when one does not. */
  lemma FromTransitionStateReports(reg: Registry.Registry, st: CachedEngine.State, j: nat)
    requires CachedEngine.Valid(st) && j < |st.transitionStates|
    ensures var r := FromTransitionState(reg, st, j);
      && (r.Threw? ==> !CachedEngine.Resolves(st.placeStates, st.net.transitions[j]))
      && (CachedEngine.Resolves(st.placeStates, st.net.transitions[j]) ==>
            r.Returned? && r.value.attributes == map["isTriggerable" := Bool(Enabled(st.net, st.placeStates, st.net.transitions[j]))])
  {
    assert st.transitionStates[j].transition == j;
    CachedEngine.ComputeTriggerableRule(st.net, st.placeStates, st.transitionStates[j]);
  }

  /** Both elements leave the same registry and throw on the same states;
      they differ only in the flag. */
  lemma AsWrittenAgrees(reg: Registry.Registry, st: CachedEngine.State, j: nat)
    requires CachedEngine.Valid(st) && j < |st.transitionStates|
    ensures var w := FromTransitionStateAsWritten(reg, st, j);
      var c := FromTransitionState(reg, st, j);
      && w.state == c.state && w.Returned? == c.Returned?
      && (w.Returned? ==> w.value == c.value.(attributes := map["isTriggerable" := Undefined]))
  {
  }

  /** A transition whose references all resolve yields an element, as
      written or corrected. */
  lemma TransitionElementReturns(reg: Registry.Registry, st: CachedEngine.State, j: nat, corrected: bool)
    requires CachedEngine.Valid(st) && j < |st.transitionStates| && CachedEngine.Resolves(st.placeStates, st.net.transitions[j])
    ensures TransitionElement(reg, st, j, corrected).Returned?
  {
    FromTransitionStateReports(reg, st, j);
    AsWrittenAgrees(reg, st, j);
  }

  /** One step of the transition-state loop, whatever its outcome. */
  lemma FromTransitionStatesCons(reg: Registry.Registry, st: CachedEngine.State, from: nat, corrected: bool)
    requires CachedEngine.Valid(st) && from < |st.transitionStates|
    ensures var h := TransitionElement(reg, st, from, corrected);
      h.Returned? && FromTransitionStates(h.state, st, from + 1, corrected).Returned? ==> FromTransitionStates(reg, st, from, corrected).Returned?
  {
  }

  /** The transition-state loop completes when every reference from
      `from` on resolves to a place with a state. */
  lemma {:induction false} FromTransitionStatesReturns(reg: Registry.Registry, st: CachedEngine.State, from: nat, corrected: bool)
    requires CachedEngine.Valid(st) && from <= |st.transitionStates| && ResolvesFrom(st, from)
    ensures FromTransitionStates(reg, st, from, corrected).Returned?
    decreases |st.transitionStates| - from
  {
    if from < |st.transitionStates| {
      var h := TransitionElement(reg, st, from, corrected);
      assert CachedEngine.Resolves(st.placeStates, st.net.transitions[from]);
      TransitionElementReturns(reg, st, from, corrected);
      FromTransitionStatesReturns(h.state, st, from + 1, corrected);
      FromTransitionStatesCons(reg, st, from, corrected);
    } else {
      assert FromTransitionStates(reg, st, from, corrected) == Returned(reg, []);
    }
  }

  /** `fromPetriNetState` throws only on a state where some transition has
      a reference to a place without a state. */
  lemma FromPetriNetStateReturns(reg: Registry.Registry, st: CachedEngine.State)
    requires CachedEngine.Valid(st) && ResolvesFrom(st, 0)
    ensures FromPetriNetState(reg, st).Returned?
    ensures FromPetriNetStateCorrected(reg, st).Returned?
  {
    FromTransitionStatesReturns(FromPlaceStates(reg, st.placeStates, 0).state, st, 0, false);
    FromTransitionStatesReturns(FromPlaceStates(reg, st.placeStates, 0).state, st, 0, true);
  }

  // ---------------------------------------------------------------------
  // The registry a runtime builder leaves behind, and what it encodes

  lemma FromTokenStateKeeps(reg: Registry.Registry, k: nat, i: nat, tok: Token)
    requires Registry.Valid(reg)
    ensures var r := FromTokenState(reg, k, i, tok);
      && Registry.Valid(r.state) && Registry.Extends(reg, r.state)
      && EncodesToken(r.state, r.value, k, i, tok)
  {
    Registry.GetOrCreateRuntimeIdKeeps(reg, Registry.TokenObj(k, i));
    var reg1 := Registry.GetOrCreateRuntimeId(reg, Registry.TokenObj(k, i)).1;
    if tok.source.Some? {
      Registry.GetOrCreateAstIdKeeps(reg1, Registry.TransitionNode(tok.source.value));
    }
  }

  lemma EncodesTokenLift(r1: Registry.Registry, r2: Registry.Registry, e: ModelElement, k: nat, i: nat, tok: Token)
    requires Registry.Extends(r1, r2) && EncodesToken(r1, e, k, i, tok)
    ensures EncodesToken(r2, e, k, i, tok)
  {
  }

  lemma EncodesTokensCons(reg: Registry.Registry, head: ModelElement, tail: seq<ModelElement>, k: nat, tokens: seq<Token>, from: nat)
    requires from < |tokens|
    requires EncodesToken(reg, head, k, from, tokens[from]) && EncodesTokensFrom(reg, tail, k, tokens, from + 1)
    ensures EncodesTokensFrom(reg, [head] + tail, k, tokens, from)
  {
    forall i | 0 <= i < |tail| + 1 ensures EncodesToken(reg, ([head] + tail)[i], k, from + i, tokens[from + i]) {
      if i > 0 { assert ([head] + tail)[i] == tail[i - 1]; }
    }
  }

  lemma EncodesTokensLift(r1: Registry.Registry, r2: Registry.Registry, es: seq<ModelElement>, k: nat, tokens: seq<Token>)
    requires Registry.Extends(r1, r2) && EncodesTokensFrom(r1, es, k, tokens, 0)
    ensures EncodesTokensFrom(r2, es, k, tokens, 0)
  {
    forall i | 0 <= i < |es| ensures EncodesToken(r2, es[i], k, 0 + i, tokens[0 + i]) {
      EncodesTokenLift(r1, r2, es[i], k, i, tokens[i]);
    }
  }

  /** The token loop keeps the registry valid and every id it held, and its
      elements encode the tokens in order. */
  lemma {:induction false} FromTokensKeeps(reg: Registry.Registry, k: nat, tokens: seq<Token>, from: nat)
    requires Registry.Valid(reg) && from <= |tokens|
    ensures var r := FromTokens(reg, k, tokens, from);
      && Registry.Valid(r.state) && Registry.Extends(reg, r.state)
      && EncodesTokensFrom(r.state, r.value, k, tokens, from)
    decreases |tokens| - from
  {
    if from < |tokens| {
      var h := FromTokenState(reg, k, from, tokens[from]);
      FromTokenStateKeeps(reg, k, from, tokens[from]);
      var rest := FromTokens(h.state, k, tokens, from + 1);
      FromTokensKeeps(h.state, k, tokens, from + 1);
      Registry.ExtendsTransitive(reg, h.state, rest.state);
      EncodesTokenLift(h.state, rest.state, h.value, k, from, tokens[from]);
      EncodesTokensCons(rest.state, h.value, rest.value, k, tokens, from);
    }
  }

  lemma FromPlaceStateKeeps(reg: Registry.Registry, k: nat, s: PlaceState)
    requires Registry.Valid(reg)
    ensures var r := FromPlaceState(reg, k, s);
      && Registry.Valid(r.state) && Registry.Extends(reg, r.state)
      && EncodesPlaceState(r.state, r.value, k, s)
  {
    var tokens := FromTokens(reg, k, s.tokens, 0);
    FromTokensKeeps(reg, k, s.tokens, 0);
    Registry.GetOrCreateRuntimeIdKeeps(tokens.state, Registry.PlaceStateObj(k));
    var reg1 := Registry.GetOrCreateRuntimeId(tokens.state, Registry.PlaceStateObj(k)).1;
    Registry.GetOrCreateAstIdKeeps(reg1, Registry.PlaceNode(s.place));
    var reg2 := Registry.GetOrCreateAstId(reg1, Registry.PlaceNode(s.place)).1;
    Registry.ExtendsTransitive(tokens.state, reg1, reg2);
    Registry.ExtendsTransitive(reg, tokens.state, reg2);
    EncodesTokensLift(tokens.state, reg2, tokens.value, k, s.tokens);
  }

  lemma EncodesPlaceStateLift(r1: Registry.Registry, r2: Registry.Registry, e: ModelElement, k: nat, s: PlaceState)
    requires Registry.Extends(r1, r2) && EncodesPlaceState(r1, e, k, s)
    ensures EncodesPlaceState(r2, e, k, s)
  {
    EncodesTokensLift(r1, r2, e.children["tokens"], k, s.tokens);
  }

  lemma EncodesPlaceStatesCons(reg: Registry.Registry, head: ModelElement, tail: seq<ModelElement>, ps: seq<PlaceState>, from: nat)
    requires from < |ps|
    requires EncodesPlaceState(reg, head, from, ps[from]) && EncodesPlaceStatesFrom(reg, tail, ps, from + 1)
    ensures EncodesPlaceStatesFrom(reg, [head] + tail, ps, from)
  {
    forall k | 0 <= k < |tail| + 1 ensures EncodesPlaceState(reg, ([head] + tail)[k], from + k, ps[from + k]) {
      if k > 0 { assert ([head] + tail)[k] == tail[k - 1]; }
    }
  }

  lemma {:induction false} FromPlaceStatesKeeps(reg: Registry.Registry, ps: seq<PlaceState>, from: nat)
    requires Registry.Valid(reg) && from <= |ps|
    ensures var r := FromPlaceStates(reg, ps, from);
      && Registry.Valid(r.state) && Registry.Extends(reg, r.state)
      && EncodesPlaceStatesFrom(r.state, r.value, ps, from)
    decreases |ps| - from
  {
    if from < |ps| {
      var h := FromPlaceState(reg, from, ps[from]);
      FromPlaceStateKeeps(reg, from, ps[from]);
      var rest := FromPlaceStates(h.state, ps, from + 1);
      FromPlaceStatesKeeps(h.state, ps, from + 1);
      Registry.ExtendsTransitive(reg, h.state, rest.state);
      EncodesPlaceStateLift(h.state, rest.state, h.value, from, ps[from]);
      EncodesPlaceStatesCons(rest.state, h.value, rest.value, ps, from);
    }
  }

  /** With every cached flag current, computing a flag again writes back
      the value it already holds: the side effect `fromTransitionState`
      has on the runtime state leaves that state as it was. */
  lemma RecomputeKeepsFlag(st: CachedEngine.State, j: nat)
    requires CachedEngine.Valid(st) && CachedEngine.FlagsCurrent(st) && j < |st.transitionStates|
    ensures var r := CachedEngine.ComputeTriggerable(st.net, st.placeStates, st.transitionStates[j]);
      r.Ok? ==> r.value == st.transitionStates[j]
  {
    var ts := st.transitionStates[j];
    assert ts.transition == j;
    CachedEngine.ComputeTriggerableRule(st.net, st.placeStates, ts);
    if Enabled(st.net, st.placeStates, st.net.transitions[j]) {
      CachedEngine.EnabledResolves(st.net, st.placeStates, st.net.transitions[j]);
    }
  }

  lemma FromTransitionStateKeeps(reg: Registry.Registry, st: CachedEngine.State, j: nat, corrected: bool)
    requires Registry.Valid(reg) && CachedEngine.Valid(st) && j < |st.transitionStates|
    ensures var r := TransitionElement(reg, st, j, corrected);
      Registry.Valid(r.state) && Registry.Extends(reg, r.state)
  {
    var ts := st.transitionStates[j];
    Registry.GetOrCreateRuntimeIdKeeps(reg, Registry.TransitionStateObj(j));
    var reg1 := Registry.GetOrCreateRuntimeId(reg, Registry.TransitionStateObj(j)).1;
    Registry.GetOrCreateAstIdKeeps(reg1, Registry.TransitionNode(ts.transition));
    AsWrittenAgrees(reg, st, j);
    assert TransitionElement(reg, st, j, corrected).state == Registry.GetOrCreateAstId(reg1, Registry.TransitionNode(ts.transition)).1;
  }

  /** Building a transition-state element, in any registry, forgets no id. */
  lemma FromTransitionStateGrows(reg: Registry.Registry, st: CachedEngine.State, j: nat, corrected: bool)
    requires CachedEngine.Valid(st) && j < |st.transitionStates|
    ensures Registry.Extends(reg, TransitionElement(reg, st, j, corrected).state)
  {
    var ts := st.transitionStates[j];
    Registry.GetOrCreateRuntimeIdGrows(reg, Registry.TransitionStateObj(j));
    var reg1 := Registry.GetOrCreateRuntimeId(reg, Registry.TransitionStateObj(j)).1;
    Registry.GetOrCreateAstIdGrows(reg1, Registry.TransitionNode(ts.transition));
    AsWrittenAgrees(reg, st, j);
    assert TransitionElement(reg, st, j, corrected).state == Registry.GetOrCreateAstId(reg1, Registry.TransitionNode(ts.transition)).1;
    Registry.ExtendsTransitive(reg, reg1, TransitionElement(reg, st, j, corrected).state);
  }

  /** With every flag current, a transition-state element reports the
      state's transition and the flag it already holds. */
  lemma FromTransitionStateEncodes(reg: Registry.Registry, st: CachedEngine.State, j: nat)
    requires CachedEngine.Valid(st) && CachedEngine.FlagsCurrent(st) && j < |st.transitionStates|
    requires FromTransitionState(reg, st, j).Returned?
    ensures EncodesTransitionState(FromTransitionState(reg, st, j).state, FromTransitionState(reg, st, j).value, j, st.transitionStates[j])
  {
    RecomputeKeepsFlag(st, j);
  }

  lemma EncodesTransitionStatesCons(reg: Registry.Registry, head: ModelElement, tail: seq<ModelElement>,
                                    ts: seq<CachedEngine.TransitionState>, from: nat)
    requires from < |ts|
    requires EncodesTransitionState(reg, head, from, ts[from]) && EncodesTransitionStatesFrom(reg, tail, ts, from + 1)
    ensures EncodesTransitionStatesFrom(reg, [head] + tail, ts, from)
  {
    forall j | 0 <= j < |tail| + 1 ensures EncodesTransitionState(reg, ([head] + tail)[j], from + j, ts[from + j]) {
      if j > 0 { assert ([head] + tail)[j] == tail[j - 1]; }
    }
  }

  lemma FromTransitionStatesStep(reg: Registry.Registry, st: CachedEngine.State, from: nat, corrected: bool)
    requires CachedEngine.Valid(st) && from < |st.transitionStates| && FromTransitionStates(reg, st, from, corrected).Returned?
    ensures var h := TransitionElement(reg, st, from, corrected);
      && h.Returned? && FromTransitionStates(h.state, st, from + 1, corrected).Returned?
      && FromTransitionStates(reg, st, from, corrected) ==
         Returned(FromTransitionStates(h.state, st, from + 1, corrected).state, [h.value] + FromTransitionStates(h.state, st, from + 1, corrected).value)
  {
  }

  lemma {:induction false} FromTransitionStatesKeeps(reg: Registry.Registry, st: CachedEngine.State, from: nat, corrected: bool)
    requires Registry.Valid(reg) && CachedEngine.Valid(st) && from <= |st.transitionStates|
    ensures var r := FromTransitionStates(reg, st, from, corrected);
      Registry.Valid(r.state) && Registry.Extends(reg, r.state)
    decreases |st.transitionStates| - from
  {
    if from < |st.transitionStates| {
      var h := TransitionElement(reg, st, from, corrected);
      FromTransitionStateKeeps(reg, st, from, corrected);
      if h.Returned? {
        FromTransitionStatesKeeps(h.state, st, from + 1, corrected);
        Registry.ExtendsTransitive(reg, h.state, FromTransitionStates(h.state, st, from + 1, corrected).state);
      }
    }
  }

  lemma EncodesTransitionStatesConsLift(r1: Registry.Registry, r2: Registry.Registry, head: ModelElement, tail: seq<ModelElement>,
                                        ts: seq<CachedEngine.TransitionState>, from: nat)
    requires from < |ts| && Registry.Extends(r1, r2)
    requires EncodesTransitionState(r1, head, from, ts[from]) && EncodesTransitionStatesFrom(r2, tail, ts, from + 1)
    ensures EncodesTransitionStatesFrom(r2, [head] + tail, ts, from)
  {
    assert EncodesTransitionState(r2, head, from, ts[from]);
    EncodesTransitionStatesCons(r2, head, tail, ts, from);
  }

  lemma {:induction false} FromTransitionStatesGrows(reg: Registry.Registry, st: CachedEngine.State, from: nat, corrected: bool)
    requires CachedEngine.Valid(st) && from <= |st.transitionStates|
    ensures Registry.Extends(reg, FromTransitionStates(reg, st, from, corrected).state)
    decreases |st.transitionStates| - from
  {
    if from < |st.transitionStates| {
      var h := TransitionElement(reg, st, from, corrected);
      FromTransitionStateGrows(reg, st, from, corrected);
      if h.Returned? {
        FromTransitionStatesGrows(h.state, st, from + 1, corrected);
        Registry.ExtendsTransitive(reg, h.state, FromTransitionStates(h.state, st, from + 1, corrected).state);
      }
    }
  }

  /** The inductive step of `FromTransitionStatesEncodes`: the head element. */
  lemma {:induction false} FromTransitionStatesEncodesStep(reg: Registry.Registry, st: CachedEngine.State, from: nat)
    requires CachedEngine.Valid(st) && CachedEngine.FlagsCurrent(st)
    requires from < |st.transitionStates| && FromTransitionStates(reg, st, from, true).Returned?
    ensures var r := FromTransitionStates(reg, st, from, true);
      EncodesTransitionStatesFrom(r.state, r.value, st.transitionStates, from)
    decreases |st.transitionStates| - from, 1
  {
    FromTransitionStatesStep(reg, st, from, true);
    FromTransitionStateEncodes(reg, st, from);
    var h := FromTransitionState(reg, st, from);
    FromTransitionStatesEncodesTail(h.state, st, from, h.value);
  }

  /** The inductive step of `FromTransitionStatesEncodes`: an element that
      encodes state `from` in some registry, followed by the loop from the
      next state on in that registry, encodes the states from `from` on. */
  lemma {:induction false} FromTransitionStatesEncodesTail(reg: Registry.Registry, st: CachedEngine.State, from: nat, head: ModelElement)
    requires CachedEngine.Valid(st) && CachedEngine.FlagsCurrent(st)
    requires from < |st.transitionStates| && FromTransitionStates(reg, st, from + 1, true).Returned?
    requires EncodesTransitionState(reg, head, from, st.transitionStates[from])
    ensures var rest := FromTransitionStates(reg, st, from + 1, true);
      EncodesTransitionStatesFrom(rest.state, [head] + rest.value, st.transitionStates, from)
    decreases |st.transitionStates| - from, 0
  {
    var rest := FromTransitionStates(reg, st, from + 1, true);
    FromTransitionStatesEncodes(reg, st, from + 1);
    FromTransitionStatesGrows(reg, st, from + 1, true);
    EncodesTransitionStatesConsLift(reg, rest.state, head, rest.value, st.transitionStates, from);
  }

  /** With every flag current, the transition-state elements report, in
      order, the transition of each state and its flag. */
  lemma {:induction false} FromTransitionStatesEncodes(reg: Registry.Registry, st: CachedEngine.State, from: nat)
    requires CachedEngine.Valid(st) && CachedEngine.FlagsCurrent(st)
    requires from <= |st.transitionStates| && FromTransitionStates(reg, st, from, true).Returned?
    ensures var r := FromTransitionStates(reg, st, from, true);
      EncodesTransitionStatesFrom(r.state, r.value, st.transitionStates, from)
    decreases |st.transitionStates| - from, 2
  {
    if from < |st.transitionStates| {
      FromTransitionStatesEncodesStep(reg, st, from);
    }
  }

  /** `fromPetriNetState`, as written or corrected, keeps the registry
      valid and every id it held, also when a flag computation throws
      halfway. */
  lemma FromPetriNetStateKeeps(reg: Registry.Registry, st: CachedEngine.State, corrected: bool)
    requires Registry.Valid(reg) && CachedEngine.Valid(st)
    ensures var r := BuildNetState(reg, st, corrected);
      Registry.Valid(r.state) && Registry.Extends(reg, r.state)
  {
    var places := FromPlaceStates(reg, st.placeStates, 0);
    FromPlaceStatesKeeps(reg, st.placeStates, 0);
    var ts := FromTransitionStates(places.state, st, 0, corrected);
    FromTransitionStatesKeeps(places.state, st, 0, corrected);
    Registry.ExtendsTransitive(reg, places.state, ts.state);
    if ts.Returned? {
      Registry.GetOrCreateRuntimeIdKeeps(ts.state, Registry.NetStateObj);
      var reg2 := Registry.GetOrCreateRuntimeId(ts.state, Registry.NetStateObj).1;
      Registry.GetOrCreateAstIdKeeps(reg2, Registry.NetNode);
      Registry.ExtendsTransitive(ts.state, reg2, Registry.GetOrCreateAstId(reg2, Registry.NetNode).1);
      Registry.ExtendsTransitive(reg, ts.state, Registry.GetOrCreateAstId(reg2, Registry.NetNode).1);
    }
  }

  lemma EncodesPlaceStatesLift(r1: Registry.Registry, r2: Registry.Registry, es: seq<ModelElement>, ps: seq<PlaceState>)
    requires Registry.Extends(r1, r2) && EncodesPlaceStatesFrom(r1, es, ps, 0)
    ensures EncodesPlaceStatesFrom(r2, es, ps, 0)
  {
    forall k | 0 <= k < |es| ensures EncodesPlaceState(r2, es[k], 0 + k, ps[0 + k]) {
      EncodesPlaceStateLift(r1, r2, es[k], k, ps[k]);
    }
  }

  lemma EncodesTransitionStatesLift(r1: Registry.Registry, r2: Registry.Registry, es: seq<ModelElement>,
                                    ts: seq<CachedEngine.TransitionState>)
    requires Registry.Extends(r1, r2) && EncodesTransitionStatesFrom(r1, es, ts, 0)
    ensures EncodesTransitionStatesFrom(r2, es, ts, 0)
  {
    forall j | 0 <= j < |es| ensures EncodesTransitionState(r2, es[j], 0 + j, ts[0 + j]) {
      assert EncodesTransitionState(r1, es[j], 0 + j, ts[0 + j]);
    }
  }

  lemma BuildNetStateStep(reg: Registry.Registry, st: CachedEngine.State, corrected: bool)
    requires CachedEngine.Valid(st) && BuildNetState(reg, st, corrected).Returned?
    ensures var places := FromPlaceStates(reg, st.placeStates, 0);
      var ts := FromTransitionStates(places.state, st, 0, corrected);
      && ts.Returned?
      && var (id, reg2) := Registry.GetOrCreateRuntimeId(ts.state, Registry.NetStateObj);
      && var (petrinet, reg3) := Registry.GetOrCreateAstId(reg2, Registry.NetNode);
      && BuildNetState(reg, st, corrected) ==
         Returned(reg3, ModelElement(id, "PetriNetState", map["placesState" := places.value, "transitionsState" := ts.value],
                                     map["petrinet" := petrinet], map[], None))
  {
  }

  /** The last steps of `fromPetriNetState`: registering the state and its
      net keeps the parts encoded, and the element built from them encodes
      the whole state. */
  lemma NetStateElementEncodes(r: Registry.Registry, st: CachedEngine.State, places: seq<ModelElement>, transitions: seq<ModelElement>)
    requires EncodesPlaceStatesFrom(r, places, st.placeStates, 0)
    requires EncodesTransitionStatesFrom(r, transitions, st.transitionStates, 0)
    ensures var (id, r2) := Registry.GetOrCreateRuntimeId(r, Registry.NetStateObj);
      var (petrinet, r3) := Registry.GetOrCreateAstId(r2, Registry.NetNode);
      EncodesNetState(r3, ModelElement(id, "PetriNetState", map["placesState" := places, "transitionsState" := transitions],
                                       map["petrinet" := petrinet], map[], None), st)
  {
    Registry.GetOrCreateRuntimeIdGrows(r, Registry.NetStateObj);
    var r2 := Registry.GetOrCreateRuntimeId(r, Registry.NetStateObj).1;
    Registry.GetOrCreateAstIdGrows(r2, Registry.NetNode);
    var r3 := Registry.GetOrCreateAstId(r2, Registry.NetNode).1;
    Registry.ExtendsTransitive(r, r2, r3);
    EncodesPlaceStatesLift(r, r3, places, st.placeStates);
    EncodesTransitionStatesLift(r, r3, transitions, st.transitionStates);
  }

  /** A completed corrected `fromPetriNetState` on a state whose flags are
      current describes that state: every place state with its tokens in
      order, every transition state with its flag, each under its runtime id
      and pointing at its static object. */
  lemma FromPetriNetStateCorrectedEncodes(reg: Registry.Registry, st: CachedEngine.State)
    requires Registry.Valid(reg) && CachedEngine.Valid(st) && CachedEngine.FlagsCurrent(st)
    requires FromPetriNetStateCorrected(reg, st).Returned?
    ensures EncodesNetState(FromPetriNetStateCorrected(reg, st).state, FromPetriNetStateCorrected(reg, st).value, st)
  {
    BuildNetStateStep(reg, st, true);
    var places := FromPlaceStates(reg, st.placeStates, 0);
    FromPlaceStatesKeeps(reg, st.placeStates, 0);
    var ts := FromTransitionStates(places.state, st, 0, true);
    FromTransitionStatesEncodes(places.state, st, 0);
    FromTransitionStatesGrows(places.state, st, 0, true);
    EncodesPlaceStatesLift(places.state, ts.state, places.value, st.placeStates);
    NetStateElementEncodes(ts.state, st, places.value, ts.value);
  }

  // ---------------------------------------------------------------------
  // Reading a runtime state back from its elements

  function ToToken(reg: Registry.Registry, e: ModelElement): Option<Token> {
    if "source" in e.refs then
      match TransitionWithId(reg, e.refs["source"])
      case None => None
      case Some(t) => Some(Token(Some(t)))
    else Some(Token(None))
  }

  function ToPlaceState(reg: Registry.Registry, e: ModelElement): Option<PlaceState> {
    if "place" in e.refs && "tokens" in e.children && DecodeAll(e.children["tokens"], x => ToToken(reg, x)).Some? then
      match PlaceWithId(reg, e.refs["place"])
      case None => None
      case Some(p) => Some(PlaceState(p, DecodeAll(e.children["tokens"], x => ToToken(reg, x)).value))
    else None
  }

  function ToTransitionState(reg: Registry.Registry, e: ModelElement): Option<CachedEngine.TransitionState> {
    if "transition" in e.refs && "isTriggerable" in e.attributes && e.attributes["isTriggerable"].Bool? then
      match TransitionWithId(reg, e.refs["transition"])
      case None => None
      case Some(t) => Some(CachedEngine.TransitionState(t, e.attributes["isTriggerable"].flag))
    else None
  }

  /** The marking and the transition states an element tree describes. */
  function ToNetState(reg: Registry.Registry, e: ModelElement): Option<(seq<PlaceState>, seq<CachedEngine.TransitionState>)> {
    if && "placesState" in e.children && DecodeAll(e.children["placesState"], x => ToPlaceState(reg, x)).Some?
       && "transitionsState" in e.children && DecodeAll(e.children["transitionsState"], x => ToTransitionState(reg, x)).Some?
    then Some((DecodeAll(e.children["placesState"], x => ToPlaceState(reg, x)).value,
               DecodeAll(e.children["transitionsState"], x => ToTransitionState(reg, x)).value))
    else None
  }

  lemma DecodePlaceState(reg: Registry.Registry, e: ModelElement, k: nat, s: PlaceState)
    requires Registry.Valid(reg) && EncodesPlaceState(reg, e, k, s)
    ensures ToPlaceState(reg, e) == Some(s)
  {
    var tokens := e.children["tokens"];
    forall i | 0 <= i < |tokens| ensures ToToken(reg, tokens[i]) == Some(s.tokens[i]) {
      assert EncodesToken(reg, tokens[i], k, 0 + i, s.tokens[0 + i]);
      if s.tokens[i].source.Some? {
        AstKeyOfId(reg, Registry.TransitionNode(s.tokens[i].source.value));
      }
    }
    DecodeAllOf(tokens, x => ToToken(reg, x), s.tokens);
    AstKeyOfId(reg, Registry.PlaceNode(s.place));
  }

  /** The marking alone, read back from the place-state elements. */
  function ToMarking(reg: Registry.Registry, e: ModelElement): (r: Option<seq<PlaceState>>)
    ensures r.Some? ==> ToNetState(reg, e).Some? ==> ToNetState(reg, e).value.0 == r.value
  {
    if "placesState" in e.children then DecodeAll(e.children["placesState"], x => ToPlaceState(reg, x)) else None
  }

  lemma DecodePlaceStates(reg: Registry.Registry, places: seq<ModelElement>, ps: seq<PlaceState>)
    requires Registry.Valid(reg) && EncodesPlaceStatesFrom(reg, places, ps, 0)
    ensures DecodeAll(places, x => ToPlaceState(reg, x)) == Some(ps)
  {
    forall k | 0 <= k < |places| ensures ToPlaceState(reg, places[k]) == Some(ps[k]) {
      assert EncodesPlaceState(reg, places[k], 0 + k, ps[0 + k]);
      DecodePlaceState(reg, places[k], k, ps[k]);
    }
    DecodeAllOf(places, x => ToPlaceState(reg, x), ps);
  }

  lemma DecodeNetState(reg: Registry.Registry, e: ModelElement, st: CachedEngine.State)
    requires Registry.Valid(reg) && EncodesNetState(reg, e, st)
    ensures ToNetState(reg, e) == Some((st.placeStates, st.transitionStates))
  {
    DecodePlaceStates(reg, e.children["placesState"], st.placeStates);
    var transitions := e.children["transitionsState"];
    forall j | 0 <= j < |transitions| ensures ToTransitionState(reg, transitions[j]) == Some(st.transitionStates[j]) {
      assert EncodesTransitionState(reg, transitions[j], 0 + j, st.transitionStates[0 + j]);
      AstKeyOfId(reg, Registry.TransitionNode(st.transitionStates[j].transition));
    }
    DecodeAllOf(transitions, x => ToTransitionState(reg, x), st.transitionStates);
  }

  /** Serialising a runtime state whose flags are current and reading the
      elements back gives the marking (every token with its producing
      transition, in order) and every transition state with its flag. */
  lemma FromPetriNetStateCorrectedRoundTrip(reg: Registry.Registry, st: CachedEngine.State)
    requires Registry.Valid(reg) && CachedEngine.Valid(st) && CachedEngine.FlagsCurrent(st)
    requires FromPetriNetStateCorrected(reg, st).Returned?
    ensures ToNetState(FromPetriNetStateCorrected(reg, st).state, FromPetriNetStateCorrected(reg, st).value) ==
            Some((st.placeStates, st.transitionStates))
  {
    FromPetriNetStateKeeps(reg, st, true);
    FromPetriNetStateCorrectedEncodes(reg, st);
    DecodeNetState(FromPetriNetStateCorrected(reg, st).state, FromPetriNetStateCorrected(reg, st).value, st);
  }

  /** Registering the state and its net forgets no id. */
  lemma NetStateRegisterGrows(r: Registry.Registry)
    ensures var r2 := Registry.GetOrCreateRuntimeId(r, Registry.NetStateObj).1;
      Registry.Extends(r, Registry.GetOrCreateAstId(r2, Registry.NetNode).1)
  {
    Registry.GetOrCreateRuntimeIdGrows(r, Registry.NetStateObj);
    var r2 := Registry.GetOrCreateRuntimeId(r, Registry.NetStateObj).1;
    Registry.GetOrCreateAstIdGrows(r2, Registry.NetNode);
    Registry.ExtendsTransitive(r, r2, Registry.GetOrCreateAstId(r2, Registry.NetNode).1);
  }

  /** The place-state elements of a completed build, as written or
      corrected, encode the marking in the final registry. */
  lemma BuildNetStatePlaces(reg: Registry.Registry, st: CachedEngine.State, corrected: bool)
    requires Registry.Valid(reg) && CachedEngine.Valid(st) && BuildNetState(reg, st, corrected).Returned?
    ensures var r := BuildNetState(reg, st, corrected);
      && Registry.Valid(r.state) && "placesState" in r.value.children
      && EncodesPlaceStatesFrom(r.state, r.value.children["placesState"], st.placeStates, 0)
  {
    var r := BuildNetState(reg, st, corrected);
    BuildNetStateStep(reg, st, corrected);
    FromPetriNetStateKeeps(reg, st, corrected);
    var places := FromPlaceStates(reg, st.placeStates, 0);
    FromPlaceStatesKeeps(reg, st.placeStates, 0);
    var ts := FromTransitionStates(places.state, st, 0, corrected);
    FromTransitionStatesGrows(places.state, st, 0, corrected);
    NetStateRegisterGrows(ts.state);
    Registry.ExtendsTransitive(places.state, ts.state, r.state);
    EncodesPlaceStatesLift(places.state, r.state, places.value, st.placeStates);
  }

  /** As written, the first transition-state element of a completed build
      cannot be read back. */
  lemma AsWrittenFirstUnreadable(reg: Registry.Registry, st: CachedEngine.State, reg': Registry.Registry)
    requires CachedEngine.Valid(st) && FromPetriNetState(reg, st).Returned? && |st.transitionStates| > 0
    ensures var e := FromPetriNetState(reg, st).value;
      "transitionsState" in e.children && |e.children["transitionsState"]| > 0
      && ToTransitionState(reg', e.children["transitionsState"][0]).None?
  {
    BuildNetStateStep(reg, st, false);
    var places := FromPlaceStates(reg, st.placeStates, 0);
    FromTransitionStatesStep(places.state, st, 0, false);
  }

  /** `fromPetriNetState` as written: the marking reads back whole (every
      token with its producing transition, in order), whatever the flags,
      but on a net with a transition the full state does not, since no
      transition-state element carries a boolean flag. */
  lemma FromPetriNetStateMarking(reg: Registry.Registry, st: CachedEngine.State)
    requires Registry.Valid(reg) && CachedEngine.Valid(st)
    requires FromPetriNetState(reg, st).Returned?
    ensures ToMarking(FromPetriNetState(reg, st).state, FromPetriNetState(reg, st).value) == Some(st.placeStates)
    ensures |st.transitionStates| > 0 ==> ToNetState(FromPetriNetState(reg, st).state, FromPetriNetState(reg, st).value).None?
  {
    var r := FromPetriNetState(reg, st);
    BuildNetStatePlaces(reg, st, false);
    DecodePlaceStates(r.state, r.value.children["placesState"], st.placeStates);
    if |st.transitionStates| > 0 {
      AsWrittenFirstUnreadable(reg, st, r.state);
    }
  }

  /** As written, no transition-state element carries a flag that can be
      read back: the round trip above fails for every transition. */
  lemma AsWrittenLosesFlag(reg: Registry.Registry, st: CachedEngine.State, j: nat)
    requires CachedEngine.Valid(st) && j < |st.transitionStates|
    requires FromTransitionStateAsWritten(reg, st, j).Returned?
    ensures ToTransitionState(FromTransitionStateAsWritten(reg, st, j).state, FromTransitionStateAsWritten(reg, st, j).value).None?
  {
  }
}

=== FILE: steps.dfy ===
/** The step abstraction of src/server/steps.ts: atomic steps (today only the
    transition step) and composite steps, each with a fresh id, a completion
    flag and an optional parent, plus the breakpoint predicates a transition
    step answers before it fires. The step classes type their runtime as the
    engine of src/runtimeState.ts, so execution goes through its `trigger`. */
module Steps {
  import opened Outcomes
  import opened Ast
  import opened Marking
  import Registry
  import Locator
  import CachedEngine

  /** `TransitionStep` binds the transition at index `transition`; a
      composite step carries the steps it contains. */
  datatype StepKind = TransitionStep(transition: nat) | CompositeStep(contained: seq<Step>)

  datatype Step = Step(id: nat, name: string, kind: StepKind, parent: Option<Step>,
                       location: Option<Locator.Location>, description: Option<string>, completed: bool)
  {
    predicate IsComposite() { kind.CompositeStep? }
  }

  /** A transition step names a transition of the net. */
  ghost predicate StepOf(net: PetriNet, s: Step) {
    s.kind.TransitionStep? ==> s.kind.transition < |net.transitions|
  }

  /** `new TransitionStep(transition, runtime)`: named after the transition,
      located where the transition is, not completed, without a parent; the
      id is taken from the counter `next`, which moves past it. */
  function NewTransitionStep(net: PetriNet, t: nat, next: nat): (r: (Step, nat))
    requires t < |net.transitions|
    ensures StepOf(net, r.0) && r.0.kind == TransitionStep(t) && !r.0.completed && r.0.parent.None?
    ensures r.0.name == net.transitions[t].name
    ensures r.0.location == Locator.GetLocation(net.transitions[t].cst)
    ensures next <= r.0.id < r.1
  {
    (Step(next, net.transitions[t].name, TransitionStep(t), None,
          Locator.GetLocation(net.transitions[t].cst), None, false), next + 1)
  }

  // ---------------------------------------------------------------------
  // The parent chain

  /** The parents of `s`, nearest first. */
  function Ancestors(s: Step): seq<Step>
    decreases s
  {
    match s.parent
    case None => []
    case Some(p) => [p] + Ancestors(p)
  }

  /** `s` followed by its parents. */
  function Chain(s: Step): seq<Step> {
    [s] + Ancestors(s)
  }

  /** The parents of the `i`-th ancestor are the ancestors after it. */
  lemma {:induction false} AncestorsSuffix(s: Step, i: nat)
    requires i < |Ancestors(s)|
    ensures Ancestors(Ancestors(s)[i]) == Ancestors(s)[i + 1..]
    ensures Ancestors(s)[i].parent == if i + 1 < |Ancestors(s)| then Some(Ancestors(s)[i + 1]) else None
    decreases s
  {
    var p := s.parent.value;
    if i > 0 {
      AncestorsSuffix(p, i - 1);
      assert Ancestors(s)[i] == Ancestors(p)[i - 1];
      assert Ancestors(s)[i + 1..] == Ancestors(p)[i..];
    } else {
      match p.parent
      case None =>
      case Some(q) => assert Ancestors(s)[1] == q;
    }
  }

  /** No step is its own ancestor. */
  lemma NotOwnAncestor(s: Step)
    ensures s !in Ancestors(s)
  {
    if s in Ancestors(s) {
      var i :| 0 <= i < |Ancestors(s)| && Ancestors(s)[i] == s;
      AncestorsSuffix(s, i);
    }
  }

  /** `getCompletedSteps`: `s` itself when it is completed, then its parents
      up to (not including) the first one that is not completed. */
  method GetCompletedSteps(s: Step) returns (result: seq<Step>)
    ensures s in result <==> s.completed
    ensures s.completed ==> |result| > 0 && result[0] == s
    ensures forall i :: 0 <= i < |result| ==> result[i].completed
    ensures var o := if s.completed then 1 else 0;
      |result| >= o && |result| - o <= |Ancestors(s)| && result[o..] == Ancestors(s)[..|result| - o]
    ensures var o := if s.completed then 1 else 0;
      |result| >= o && (|result| - o < |Ancestors(s)| ==> !Ancestors(s)[|result| - o].completed)
  {
    var anc := Ancestors(s);
    var o := if s.completed then 1 else 0;
    result := if s.completed then [s] else [];
    var parent := s.parent;
    ghost var n := 0;
    while parent.Some?
      invariant 0 <= n <= |anc|
      invariant parent == if n < |anc| then Some(anc[n]) else None
      invariant |result| == o + n && result[o..] == anc[..n]
      invariant s.completed ==> result[0] == s
      invariant forall i :: 0 <= i < |result| ==> result[i].completed
      decreases |anc| - n
    {
      if !parent.value.completed {
        break;
      }
      result := result + [parent.value];
      AncestorsSuffix(s, n);
      parent := parent.value.parent;
      n := n + 1;
    }
    NotOwnAncestor(s);
    assert result == result[..o] + anc[..n];
  }

  /** `findOngoingStep`: the first step along the chain from `s` upwards
      that is not completed, or `None` when all of them are. */
  function FindOngoingStep(s: Step): (r: Option<Step>)
    ensures r.None? <==> forall i :: 0 <= i < |Chain(s)| ==> Chain(s)[i].completed
    ensures r.Some? ==> !r.value.completed
    ensures r.Some? ==>
      exists i :: (0 <= i < |Chain(s)| && Chain(s)[i] == r.value
        && forall j :: 0 <= j < i ==> Chain(s)[j].completed)
    decreases s
  {
    assert Chain(s)[0] == s;
    if !s.completed then Some(s)
    else match s.parent
      case None => None
      case Some(p) =>
        var r := FindOngoingStep(p);
        assert Chain(s) == [s] + Chain(p);
        if r.Some? then
          var i :| 0 <= i < |Chain(p)| && Chain(p)[i] == r.value && forall j :: 0 <= j < i ==> Chain(p)[j].completed;
          assert Chain(s)[i + 1] == r.value;
          r
        else r
  }

  /** Misuse of the two kinds of step: a composite step cannot be executed
      or asked about breakpoints, an atomic step has no contained steps. */
  function GetContainedSteps(s: Step): (r: Result<seq<Step>>)
    ensures r.Err? <==> !s.IsComposite()
    ensures r.Err? ==> r.error == StepMustBeComposite
    ensures r.Ok? ==> r.value == s.kind.contained
  {
    match s.kind
    case TransitionStep(_) => Err(StepMustBeComposite)
    case CompositeStep(c) => Ok(c)
  }

  /** `execute`: a transition step fires its transition with the runtime's
      `trigger` (whose boolean answer it ignores) and then marks itself
      completed; if `trigger` throws, the step stays pending. A composite
      step throws before touching anything. */
  function Execute(s: Step, rt: CachedEngine.State): (r: Effect<CachedEngine.State, Step>)
    requires CachedEngine.Valid(rt) && StepOf(rt.net, s)
    ensures s.IsComposite() ==> r == Threw(rt, StepMustBeAtomic)
    ensures r.Returned? ==> r.value == s.(completed := true) && !s.IsComposite()
    ensures r.Returned? ==> r.state == CachedEngine.Trigger(rt, s.kind.transition).state
    ensures r.Threw? && !s.IsComposite() ==> CachedEngine.Trigger(rt, s.kind.transition).Threw?
  {
    match s.kind
    case CompositeStep(_) => Threw(rt, StepMustBeAtomic)
    case TransitionStep(t) =>
      match CachedEngine.Trigger(rt, t)
      case Threw(rt', e) => Threw(rt', e)
      case Returned(rt', _) => Returned(rt', s.(completed := true))
  }

  // ---------------------------------------------------------------------
  // Breakpoints

  /** A source edge on which `placeEmpty` fires: its place is the bound one
      (compared by AST id, an absent id included) and holds exactly as many
      tokens as the edge will take. */
  ghost predicate EmptyHit(ps: seq<PlaceState>, e: Edge, bound: Option<nat>, reg: Registry.Registry) {
    && e.place.Resolved?
    && bound == Registry.GetAstId(reg, Registry.PlaceNode(e.place.index))
    && e.place.index < |ps|
    && |ps[e.place.index].tokens| == e.weight
  }

  function EmptyMessage(name: string): string {
    "Place " + name + " is about to be empty."
  }

  function FullMessage(name: string): string {
    "Place " + name + " is about to be full."
  }

  /** `placeEmpty`: the message for the first source edge that is a hit,
      and none when there is no hit. */
  function PlaceEmpty(net: PetriNet, ps: seq<PlaceState>, edges: seq<Edge>, bound: Option<nat>, reg: Registry.Registry): (r: Option<string>)
    requires Aligned(net, ps)
    ensures r.Some? <==> exists i :: 0 <= i < |edges| && EmptyHit(ps, edges[i], bound, reg)
    ensures r.Some? ==>
      exists i :: (0 <= i < |edges| && EmptyHit(ps, edges[i], bound, reg)
        && r.value == EmptyMessage(net.places[edges[i].place.index].name)
        && forall j :: 0 <= j < i ==> !EmptyHit(ps, edges[j], bound, reg))
    decreases |edges|
  {
    if |edges| == 0 then None
    else
      assert forall i :: 1 <= i < |edges| ==> edges[i] == edges[1..][i - 1];
      var e := edges[0];
      if e.place.Unresolved? || bound != Registry.GetAstId(reg, Registry.PlaceNode(e.place.index)) then
        PlaceEmpty(net, ps, edges[1..], bound, reg)
      else
        FindAligned(net, ps, e.place.index);
        match FindPlaceState(e.place.index, ps)
        case None => PlaceEmpty(net, ps, edges[1..], bound, reg)
        case Some(k) =>
          if |ps[k].tokens| == e.weight then Some(EmptyMessage(net.places[e.place.index].name))
          else PlaceEmpty(net, ps, edges[1..], bound, reg)
  }

  /** A destination edge that fills its place exactly to capacity. */
  ghost predicate FillsUp(net: PetriNet, ps: seq<PlaceState>, e: Edge)
    requires Aligned(net, ps)
  {
    && e.place.Resolved? && e.place.index < |ps|
    && |ps[e.place.index].tokens| + e.weight == net.places[e.place.index].maxCapacity
  }

  /** `placeFull` as the source writes it: the id test skips the edges whose
      place IS the bound one, so it reports every other place that is about
      to fill up. */
  function PlaceFullAsWritten(net: PetriNet, ps: seq<PlaceState>, edges: seq<Edge>, bound: Option<nat>, reg: Registry.Registry): (r: Option<string>)
    requires Aligned(net, ps)
    ensures r.Some? <==>
      exists i :: (0 <= i < |edges| && FillsUp(net, ps, edges[i])
        && bound != Registry.GetAstId(reg, Registry.PlaceNode(edges[i].place.index)))
    ensures r.Some? ==>
      exists i :: (0 <= i < |edges| && FillsUp(net, ps, edges[i])
        && bound != Registry.GetAstId(reg, Registry.PlaceNode(edges[i].place.index))
        && r.value == FullMessage(net.places[edges[i].place.index].name)
        && forall j :: 0 <= j < i ==>
             !(FillsUp(net, ps, edges[j]) && bound != Registry.GetAstId(reg, Registry.PlaceNode(edges[j].place.index))))
    decreases |edges|
  {
    if |edges| == 0 then None
    else
      assert forall i :: 1 <= i < |edges| ==> edges[i] == edges[1..][i - 1];
      var e := edges[0];
      if e.place.Unresolved? || bound == Registry.GetAstId(reg, Registry.PlaceNode(e.place.index)) then
        PlaceFullAsWritten(net, ps, edges[1..], bound, reg)
      else
        FindAligned(net, ps, e.place.index);
        match FindPlaceState(e.place.index, ps)
        case None => PlaceFullAsWritten(net, ps, edges[1..], bound, reg)
        case Some(k) =>
          if |ps[k].tokens| + e.weight == net.places[e.place.index].maxCapacity then Some(FullMessage(net.places[e.place.index].name))
          else PlaceFullAsWritten(net, ps, edges[1..], bound, reg)
  }

  /** `placeFull` with the id test the other way round, as `placeEmpty` has
      it: reports the bound place when a destination edge fills it exactly. */
  function PlaceFull(net: PetriNet, ps: seq<PlaceState>, edges: seq<Edge>, bound: Option<nat>, reg: Registry.Registry): (r: Option<string>)
    requires Aligned(net, ps)
    ensures r.Some? <==>
      exists i :: (0 <= i < |edges| && FillsUp(net, ps, edges[i])
        && bound == Registry.GetAstId(reg, Registry.PlaceNode(edges[i].place.index)))
    ensures r.Some? ==>
      exists i :: (0 <= i < |edges| && FillsUp(net, ps, edges[i])
        && bound == Registry.GetAstId(reg, Registry.PlaceNode(edges[i].place.index))
        && r.value == FullMessage(net.places[edges[i].place.index].name)
        && forall j :: 0 <= j < i ==>
             !(FillsUp(net, ps, edges[j]) && bound == Registry.GetAstId(reg, Registry.PlaceNode(edges[j].place.index))))
    decreases |edges|
  {
    if |edges| == 0 then None
    else
      assert forall i :: 1 <= i < |edges| ==> edges[i] == edges[1..][i - 1];
      var e := edges[0];
      if e.place.Unresolved? || bound != Registry.GetAstId(reg, Registry.PlaceNode(e.place.index)) then
        PlaceFull(net, ps, edges[1..], bound, reg)
      else
        FindAligned(net, ps, e.place.index);
        match FindPlaceState(e.place.index, ps)
        case None => PlaceFull(net, ps, edges[1..], bound, reg)
        case Some(k) =>
          if |ps[k].tokens| + e.weight == net.places[e.place.index].maxCapacity then Some(FullMessage(net.places[e.place.index].name))
          else PlaceFull(net, ps, edges[1..], bound, reg)
  }

  /** `transitionTrigger`: a message iff the bound id is the transition's AST id. */
  function TransitionTrigger(net: PetriNet, t: nat, bound: Option<nat>, reg: Registry.Registry): (r: Option<string>)
    requires t < |net.transitions|
    ensures r.Some? <==> bound == Registry.GetAstId(reg, Registry.TransitionNode(t))
    ensures r.Some? ==> r.value == "Transition " + net.transitions[t].name + " is about to be triggered."
  {
    if bound == Registry.GetAstId(reg, Registry.TransitionNode(t)) then
      Some("Transition " + net.transitions[t].name + " is about to be triggered.")
    else None
  }

  /** A binding by name; `None` for an absent one (`undefined`). */
  function Binding(bindings: map<string, nat>, name: string): Option<nat> {
    if name in bindings then Some(bindings[name]) else None
  }

  /** `checkBreakpoint`: a composite step throws; a transition step answers
      the three built-in breakpoint types on the current marking, before
      firing, and throws for any other type id. It returns a message or
      nothing, and changes nothing. The `placeFull` case keeps the source's
      id test, which skips the bound place and reports any other place
      about to fill (see `PlaceFull` for the evidently intended test). */
  function CheckBreakpoint(s: Step, typeId: string, bindings: map<string, nat>, reg: Registry.Registry,
                           net: PetriNet, ps: seq<PlaceState>): (r: Result<Option<string>>)
    requires Aligned(net, ps) && StepOf(net, s)
    ensures s.IsComposite() ==> r == Err(StepMustBeAtomic)
    ensures !s.IsComposite() && typeId !in {"placeEmpty", "placeFull", "transitionTrigger"} ==>
      r == Err(UndefinedBreakpointType(typeId))
    ensures !s.IsComposite() && typeId == "placeEmpty" ==>
      r.Ok? && (r.value.Some? <==>
        exists i :: (0 <= i < |net.transitions[s.kind.transition].sources|
          && EmptyHit(ps, net.transitions[s.kind.transition].sources[i], Binding(bindings, "p"), reg)))
    ensures !s.IsComposite() && typeId == "placeFull" ==>
      r.Ok? && (r.value.Some? <==>
        exists i :: (0 <= i < |net.transitions[s.kind.transition].destinations|
          && FillsUp(net, ps, net.transitions[s.kind.transition].destinations[i])
          && Binding(bindings, "p") != Registry.GetAstId(reg, Registry.PlaceNode(net.transitions[s.kind.transition].destinations[i].place.index))))
    ensures !s.IsComposite() && typeId == "transitionTrigger" ==>
      r.Ok? && (r.value.Some? <==> Binding(bindings, "t") == Registry.GetAstId(reg, Registry.TransitionNode(s.kind.transition)))
  {
    match s.kind
    case CompositeStep(_) => Err(StepMustBeAtomic)
    case TransitionStep(t) =>
      var tr := net.transitions[t];
      if typeId == "placeEmpty" then Ok(PlaceEmpty(net, ps, tr.sources, Binding(bindings, "p"), reg))
      else if typeId == "placeFull" then Ok(PlaceFullAsWritten(net, ps, tr.destinations, Binding(bindings, "p"), reg))
      else if typeId == "transitionTrigger" then Ok(TransitionTrigger(net, t, Binding(bindings, "t"), reg))
      else Err(UndefinedBreakpointType(typeId))
  }

  /** On two empty places of capacity 1, P0 registered with id 7 and P1 with
      id 8, a transition whose one destination edge (weight 1) targets P0
      fills P0 exactly. With `p` bound to 7, the source's `placeFull` stays
      silent about P0; with `p` bound to 8 it reports P0, a place the
      breakpoint is not about. The corrected test reports P0 only when P0 is
      the bound place. */
  lemma PlaceFullInverted()
    ensures var net := PetriNet("net", [Place("P0", 1, 0, None), Place("P1", 1, 0, None)], []);
      var ps := [PlaceState(0, []), PlaceState(1, [])];
      var edges := [Edge(Resolved(0), 1)];
      var reg := Registry.Registry(map[Registry.PlaceNode(0) := 7, Registry.PlaceNode(1) := 8], map[],
                                  map[7 := Registry.AstOwner(Registry.PlaceNode(0)), 8 := Registry.AstOwner(Registry.PlaceNode(1))], 9);
      && Aligned(net, ps)
      && PlaceFullAsWritten(net, ps, edges, Some(7), reg) == None
      && PlaceFullAsWritten(net, ps, edges, Some(8), reg) == Some(FullMessage("P0"))
      && PlaceFull(net, ps, edges, Some(7), reg) == Some(FullMessage("P0"))
      && PlaceFull(net, ps, edges, Some(8), reg) == None
  {
    var net := PetriNet("net", [Place("P0", 1, 0, None), Place("P1", 1, 0, None)], []);
    var ps := [PlaceState(0, []), PlaceState(1, [])];
    var edges := [Edge(Resolved(0), 1)];
    var reg := Registry.Registry(map[Registry.PlaceNode(0) := 7, Registry.PlaceNode(1) := 8], map[],
                                  map[7 := Registry.AstOwner(Registry.PlaceNode(0)), 8 := Registry.AstOwner(Registry.PlaceNode(1))], 9);
    assert Aligned(net, ps);
    assert Registry.GetAstId(reg, Registry.PlaceNode(0)) == Some(7);
    FindAligned(net, ps, 0);
    assert edges[1..] == [];
  }
}


=== FILE: validator.dfy ===
/** The validator of the edge-list grammar: a token check on every place, a
    weight check on every transition, and a unique-name check over the net,
    its places and its transitions together. Each check is a function from
    the node to the diagnostics it accepts, in the order it accepts them. */
module Validator {
  import opened Ast
  import opened Diagnostics
  import opened NameGroups

  // ---------------------------------------------------------------------
  // Places
  // ---------------------------------------------------------------------

  function TooManyTokens(p: Place, i: nat): Diagnostic
  {
    Diagnostic(ErrorLevel, "Too many tokens in this place: " + p.name, PlaceNode(i), "initialTokenNumber")
  }

  function NegativeInitial(i: nat): Diagnostic
  {
    Diagnostic(ErrorLevel, "Initial token number cannot be negative.", PlaceNode(i), "initialTokenNumber")
  }

  function NegativeCapacity(i: nat): Diagnostic
  {
    Diagnostic(ErrorLevel, "Max capacity cannot be negative.", PlaceNode(i), "maxCapacity")
  }

  /** The place check on place `i`, three independent conditions in order. */
  function PlaceChecks(p: Place, i: nat): seq<Diagnostic>
  {
    (if p.initialTokenNumber > p.maxCapacity then [TooManyTokens(p, i)] else [])
    + (if p.initialTokenNumber < 0 then [NegativeInitial(i)] else [])
    + (if p.maxCapacity < 0 then [NegativeCapacity(i)] else [])
  }

  /** Each condition is reported exactly when it is violated, at most once,
      as an error on the place; a place holding between zero and its
      capacity tokens is not reported at all. */
  lemma PlaceChecksSpec(p: Place, i: nat)
    ensures forall d :: d in PlaceChecks(p, i) ==> d.severity == ErrorLevel && d.node == PlaceNode(i)
    ensures TooManyTokens(p, i) in PlaceChecks(p, i) <==> p.initialTokenNumber > p.maxCapacity
    ensures NegativeInitial(i) in PlaceChecks(p, i) <==> p.initialTokenNumber < 0
    ensures NegativeCapacity(i) in PlaceChecks(p, i) <==> p.maxCapacity < 0
    ensures Distinct(PlaceChecks(p, i))
    ensures PlaceChecks(p, i) == [] <==> 0 <= p.initialTokenNumber <= p.maxCapacity
  {
    assert TooManyTokens(p, i).message[0] == 'T';
    assert NegativeInitial(i).message[0] == 'I';
    assert NegativeCapacity(i).message[0] == 'M';
  }

  /** The place check on every place from `from` on, in order. */
  function PlacesChecks(places: seq<Place>, from: nat): seq<Diagnostic>
    decreases |places| - from
  {
    if from >= |places| then []
    else PlaceChecks(places[from], from) + PlacesChecks(places, from + 1)
  }

  lemma {:induction false} PlacesChecksEmpty(places: seq<Place>, from: nat)
    ensures PlacesChecks(places, from) == []
        <==> forall i :: from <= i < |places| ==> 0 <= places[i].initialTokenNumber <= places[i].maxCapacity
    decreases |places| - from
  {
    if from < |places| {
      PlacesChecksEmpty(places, from + 1);
    }
  }

  // ---------------------------------------------------------------------
  // Transitions
  // ---------------------------------------------------------------------

  function NegativeWeight(ti: nat, side: Side, k: nat): Diagnostic
  {
    Diagnostic(ErrorLevel, "Weight cannot be negative.", EdgeNode(ti, side, k), "weight")
  }

  function EdgesOf(t: Transition, side: Side): seq<Edge>
  {
    if side == Sources then t.sources else t.destinations
  }

  /** One error per edge from `from` on whose weight is negative. */
  function EdgeChecks(edges: seq<Edge>, ti: nat, side: Side, from: nat): seq<Diagnostic>
    decreases |edges| - from
  {
    if from >= |edges| then []
    else (if edges[from].weight < 0 then [NegativeWeight(ti, side, from)] else []) + EdgeChecks(edges, ti, side, from + 1)
  }

  lemma {:induction false} EdgeChecksReported(edges: seq<Edge>, ti: nat, side: Side, from: nat, n: Node)
    ensures Reported(EdgeChecks(edges, ti, side, from), n)
         == if n.EdgeNode? && n == EdgeNode(ti, side, n.edge) && from <= n.edge < |edges| && edges[n.edge].weight < 0 then 1 else 0
    decreases |edges| - from
  {
    if from < |edges| {
      var head := if edges[from].weight < 0 then [NegativeWeight(ti, side, from)] else [];
      EdgeChecksReported(edges, ti, side, from + 1, n);
      ReportedAppend(head, EdgeChecks(edges, ti, side, from + 1), n);
    }
  }

  lemma {:induction false} EdgeChecksShape(edges: seq<Edge>, ti: nat, side: Side, from: nat, d: Diagnostic)
    requires d in EdgeChecks(edges, ti, side, from)
    ensures exists k :: from <= k < |edges| && edges[k].weight < 0 && d == NegativeWeight(ti, side, k)
    decreases |edges| - from
  {
    if !(edges[from].weight < 0 && d == NegativeWeight(ti, side, from)) {
      EdgeChecksShape(edges, ti, side, from + 1, d);
    }
  }

  lemma {:induction false} EdgeChecksEmpty(edges: seq<Edge>, ti: nat, side: Side, from: nat)
    ensures EdgeChecks(edges, ti, side, from) == [] <==> forall k :: from <= k < |edges| ==> edges[k].weight >= 0
    decreases |edges| - from
  {
    if from < |edges| {
      EdgeChecksEmpty(edges, ti, side, from + 1);
    }
  }

  /** The weight check on transition `ti`: its sources, then its destinations. */
  function WeightChecks(t: Transition, ti: nat): seq<Diagnostic>
  {
    EdgeChecks(t.sources, ti, Sources, 0) + EdgeChecks(t.destinations, ti, Destinations, 0)
  }

  /** Every edge of the transition with a negative weight gets exactly one
      error, on that edge's `weight`; nothing else is reported. */
  lemma WeightChecksReported(t: Transition, ti: nat, n: Node)
    ensures Reported(WeightChecks(t, ti), n)
         == if n.EdgeNode? && n.transition == ti && n.edge < |EdgesOf(t, n.side)| && EdgesOf(t, n.side)[n.edge].weight < 0
            then 1 else 0
  {
    ReportedAppend(EdgeChecks(t.sources, ti, Sources, 0), EdgeChecks(t.destinations, ti, Destinations, 0), n);
    EdgeChecksReported(t.sources, ti, Sources, 0, n);
    EdgeChecksReported(t.destinations, ti, Destinations, 0, n);
  }

  lemma WeightChecksShape(t: Transition, ti: nat, d: Diagnostic)
    requires d in WeightChecks(t, ti)
    ensures d.severity == ErrorLevel && d.message == "Weight cannot be negative." && d.property == "weight"
  {
    if d in EdgeChecks(t.sources, ti, Sources, 0) {
      EdgeChecksShape(t.sources, ti, Sources, 0, d);
    } else {
      EdgeChecksShape(t.destinations, ti, Destinations, 0, d);
    }
  }

  /** The weight check on every transition from `from` on, in order. */
  function TransitionsChecks(ts: seq<Transition>, from: nat): seq<Diagnostic>
    decreases |ts| - from
  {
    if from >= |ts| then []
    else WeightChecks(ts[from], from) + TransitionsChecks(ts, from + 1)
  }

  predicate NonNegativeWeights(t: Transition)
  {
    (forall k :: 0 <= k < |t.sources| ==> t.sources[k].weight >= 0)
    && (forall k :: 0 <= k < |t.destinations| ==> t.destinations[k].weight >= 0)
  }

  lemma {:induction false} TransitionsChecksEmpty(ts: seq<Transition>, from: nat)
    ensures TransitionsChecks(ts, from) == [] <==> forall ti :: from <= ti < |ts| ==> NonNegativeWeights(ts[ti])
    decreases |ts| - from
  {
    if from < |ts| {
      TransitionsChecksEmpty(ts, from + 1);
      EdgeChecksEmpty(ts[from].sources, from, Sources, 0);
      EdgeChecksEmpty(ts[from].destinations, from, Destinations, 0);
    }
  }

  // ---------------------------------------------------------------------
  // Names
  // ---------------------------------------------------------------------

  /** The net, then its places, then its transitions. */
  function Symbols(net: PetriNet): seq<Symbol>
  {
    [Symbol(net.name, NetNode)]
    + seq(|net.places|, i requires 0 <= i < |net.places| => Symbol(net.places[i].name, PlaceNode(i)))
    + seq(|net.transitions|, i requires 0 <= i < |net.transitions| => Symbol(net.transitions[i].name, TransitionNode(i)))
  }

  function UniqueNameChecks(net: PetriNet): seq<Diagnostic>
  {
    DuplicateErrors(Symbols(net))
  }

  lemma SymbolsDistinctNodes(net: PetriNet)
    ensures DistinctNodes(Symbols(net))
  {
  }

  /** The net's name is shared exactly when a place or a transition carries it. */
  ghost predicate NetNameShared(net: PetriNet) {
    || (exists i :: 0 <= i < |net.places| && net.places[i].name == net.name)
    || (exists i :: 0 <= i < |net.transitions| && net.transitions[i].name == net.name)
  }

  /** The net's position among the symbols clashes exactly when a place or
      a transition carries the net's name. */
  lemma NetClashes(net: PetriNet)
    ensures Clashes(Names(Symbols(net)), 0) <==> NetNameShared(net)
  {
    var names := Names(Symbols(net));
    var np := |net.places|;
    forall k | 0 < k < |names|
      ensures names[k] == (if k <= np then net.places[k - 1].name else net.transitions[k - 1 - np].name)
    {
    }
    if NetNameShared(net) {
      if i :| 0 <= i < np && net.places[i].name == net.name {
        assert names[1 + i] == names[0];
      } else {
        var i :| 0 <= i < |net.transitions| && net.transitions[i].name == net.name;
        assert names[1 + np + i] == names[0];
      }
    }
  }

  /** Every symbol whose name another symbol of the net shares, the net's
      own name included, gets exactly one duplicate error; the others none.
      In particular the net itself is reported once exactly when a place or
      a transition carries its name. */
  lemma UniqueNameChecksReported(net: PetriNet, j: nat)
    requires j < |Symbols(net)|
    ensures Reported(UniqueNameChecks(net), Symbols(net)[j].node) == if Clashes(Names(Symbols(net)), j) then 1 else 0
    ensures Reported(UniqueNameChecks(net), NetNode) == if NetNameShared(net) then 1 else 0
  {
    SymbolsDistinctNodes(net);
    DuplicateErrorsReported(Symbols(net), j);
    DuplicateErrorsReported(Symbols(net), 0);
    NetClashes(net);
  }

  /** A place named like the net: the net and the place are both reported. */
  lemma PlaceNamedLikeNet(net: PetriNet, i: nat)
    requires i < |net.places| && net.places[i].name == net.name
    ensures Reported(UniqueNameChecks(net), NetNode) == 1
    ensures Reported(UniqueNameChecks(net), PlaceNode(i)) == 1
  {
    var syms := Symbols(net);
    assert syms[0].node == NetNode && syms[1 + i].node == PlaceNode(i);
    assert Names(syms)[1 + i] == Names(syms)[0];
    UniqueNameChecksReported(net, 0);
    UniqueNameChecksReported(net, 1 + i);
  }

  // ---------------------------------------------------------------------
  // The whole document
  // ---------------------------------------------------------------------

  /** All registered checks over the net: the net's own check, then each
      place, then each transition. */
  function Validate(net: PetriNet): seq<Diagnostic>
  {
    UniqueNameChecks(net) + PlacesChecks(net.places, 0) + TransitionsChecks(net.transitions, 0)
  }

  /** What the checks demand of a net, stated without them. */
  predicate WellFormed(net: PetriNet)
  {
    (forall i :: 0 <= i < |net.places| ==> 0 <= net.places[i].initialTokenNumber <= net.places[i].maxCapacity)
    && (forall ti :: 0 <= ti < |net.transitions| ==> NonNegativeWeights(net.transitions[ti]))
    && Distinct(Names(Symbols(net)))
  }

  /** The validator is silent exactly on well-formed nets. */
  lemma ValidateEmpty(net: PetriNet)
    ensures Validate(net) == [] <==> WellFormed(net)
  {
    DuplicateErrorsEmpty(Symbols(net));
    PlacesChecksEmpty(net.places, 0);
    TransitionsChecksEmpty(net.transitions, 0);
  }
}
